=== FILE: README.md ===
# Case Organizer — a Dafny model of its naming, placement and catalog core

Case Organizer is a small Flask application for a law practice. It keeps
case folders under a storage root (`<year>/<month>/<case name>/...`). It
names uploaded documents by a fixed scheme (`(DDMMYYYY) TYPE DOMAIN Case.ext`)
and never overwrites a file: a taken name gets ` (N)` or `_N` added. It also
runs a case-law library. That library has its own folder layout
(`Case Law/<primary>/<type>/<year>/<name>`), a SQLite catalog with a
full-text index kept in step with it, a boolean query translator, and a
note editor guarded by a root jail.

This project models that core as pure Dafny functions and short methods
and proves what the code promises:

- **Text** — whitespace, case and trimming, as Python's `str` methods do them.
- **Digits** — decimal rendering and `int()` parsing.
- **Calendar** — `strftime` dates.
- **Paths** — `pathlib` joins, names, stems and suffixes.
- **Sanitize** — the path-segment sanitiser.
- **Vocabulary** — the classification vocabulary.
- **Naming** — the naming engine.
- **Placement** — the free-name allocators.
- **Jail** — the root jail.
- **Query** — the query translator.
- **Catalog** — the catalog and its full-text index.
- **CaseLawNote** — the note editor.
- **Search** — the search filters.
- **CaseLawUpload** — the case-law upload flow.
- **ManageCase** — the manage-case upload flow.
- **CaseNote** — case creation and its note template.
- **Browse** — the month listing.

How the outside world enters the model:

- **File system:** a finite set of relative path strings. Its invariant is
  that every path's parent folder exists.
- **Catalog:** a map from row id to record.
- **Full-text table:** a map from rowid to entry.
- **Parameters:** everything foreign is a parameter, namely:
  - the clock (today's date, the current year);
  - `Path.resolve`, as an arbitrary function;
  - what `strptime` or `json.loads` returned;
  - what `secure_filename` made of a name;
  - the text extracted from a judgment;
  - the encoded note;
  - whether the database raised.

The packaged copy `debian/case-organizer/opt/case-organizer/app.py` has
the same text as `app.py` for these functions:

- `normalize_ws`, `case_dir`, `domain_code`, `type_code`, `build_filename`,
  `build_case_name_from_parties` and `make_note_json`;
- the naming and `_N` loop of `manage_case_upload`;
- `create_case` and `api_months`.

One definition therefore serves both files. The rows citing the packaged
copy name the members whose contracts state its properties.

## Model

| member | source | states |
|---|---|---|
| Text.NormalizeWs | app.py:315-316 | the result has no leading or trailing whitespace and no two adjacent whitespace characters; it keeps every non-whitespace character in order; it is empty exactly when the input is all whitespace (that the words are joined by single spaces is stated by Text.NormalizeWsWords) |
| Text.NormalizeWsWords | app.py:315-316 | `normalize_ws` keeps the words of its input (the maximal runs of non-whitespace, as `str.split()` gives them) and is exactly those words joined by single spaces |
| Text.StripKeepsWords | app.py:729-731 | trimming a text keeps its words, so trimming before normalising changes nothing |
| Text.NormalizeIdempotent | app.py:315-316 | normalising twice is normalising once |
| Text.NormalizedIsFixed | debian/case-organizer/opt/case-organizer/app.py:175-176 | a text already free of edge and repeated whitespace is returned unchanged, so the packaged `normalize_ws` is the identity on its own outputs |
| Text.Strip | app.py:678-679 | `str.strip()` leaves no whitespace at either end and keeps every other character |
| Text.StripLower | app.py:438-443 | trimming and lower-casing commute, so a domain's code does not depend on which is applied first |
| Text.JoinNormalized | app.py:461-464 | joining two normalised non-empty texts with a single-space separator gives a normalised text |
| Digits.ParseIntRoundTrip | app.py:1003-1006 | `int(str(n)) == n` for every integer, negative ones included |
| Calendar.DDMMYYYY | app.py:312-313 | `strftime("%d%m%Y")` gives eight digits that read back as the same date |
| Calendar.DateOrToday | app.py:693-697 | a blank date field means today; otherwise the parsed date, and a date `strptime` rejects fails with "Invalid Date. Use YYYY-MM-DD." |
| Sanitize.SanitizeComponent | app.py:319-326 | the result is the words of the input, each illegal character of `\ / : * ? " < > \|` replaced, joined by single spaces; it is whitespace-normalised; it carries no illegal character when the replacement is legal (" " and "-" are); it is empty exactly when every character blanks out |
| Sanitize.SanitizeIdempotent | app.py:319-326 | sanitising a sanitised segment changes nothing |
| Sanitize.SanitizeBlank | app.py:1049-1053 | sanitising leaves nothing exactly when every character is whitespace or an illegal character replaced by a blank, the case in which the callers fall back to a default name |
| Sanitize.SegmentOr | app.py:1049-1053 | `sanitize(...) or fallback` is the fallback exactly when every character blanks out, otherwise the words of the text with illegal characters replaced, joined by single spaces; it is never empty for a non-empty fallback, and legal when both the replacement and the fallback are |
| Sanitize.SegmentOrIdempotent | app.py:1049-1053 | a segment, sanitised again with the same legal replacement and a normalised, legal, non-empty fallback, comes back unchanged |
| Vocabulary.CaseTypesOf | app.py:36-49 | a classification has a non-empty list of case types exactly when it is one of the three primary types |
| Vocabulary.MatchIgnoreCase | app.py:355-363 | the result is the first option equal to the candidate ignoring case, and there is none exactly when no option matches |
| Vocabulary.NormalizePrimaryType | app.py:347-352 | the result is exactly "Criminal", "Civil" or "Commercial", equal to the input ignoring case and whitespace; there is no result exactly when the input names none of them |
| Vocabulary.NormalizeCaseType | app.py:355-363 | no result for a primary type outside the vocabulary; otherwise a member of that type's list in canonical spelling, equal to the input ignoring case, and no result exactly when the input names none of the list |
| Paths.StemSuffixSplit | app.py:741 | `stem + suffix` gives back the file name |
| Paths.SuffixShape | app.py:741 | a non-empty suffix is a dot followed by at least one dot-free character |
| Paths.PathJoinInjective | app.py:704 | joining relative names onto one directory never maps two names to one path |
| Paths.JoinParts | app.py:1057 | a single-component name joined onto a folder is a direct child of that folder |
| Paths.MakeDirs | app.py:650 | `mkdir(parents=True, exist_ok=True)`: the folder and every folder above it exist afterwards, nothing else is added, and every path's parent still exists |
| Paths.JoinedAncestor | app.py:650 | a folder is above every path written below it, so `mkdir(parents=True)` makes it |
| Paths.FirstPartAbove | app.py:755-756 | the part of a relative name before one of its slashes is a folder above the whole name joined onto the same folder |
| Paths.Extension | app.py:305-306 | the extension taken after the last dot holds no dot |
| Naming.DomainCode | app.py:438-443 | criminal, civil and commercial (any case, any surrounding blanks) give CRL, CIVIL and COMM; any other domain gives its trimmed upper-cased text; the code has no lower-case letter and is empty exactly when the domain is blank |
| Naming.TypeCode | app.py:445-454 | a known document type gives its fixed code, any other its upper-cased text as given; the code has no lower-case letter |
| Naming.CodesIgnoreCase | debian/case-organizer/opt/case-organizer/app.py:181-197 | spellings that differ only in letter case get the same domain code and the same type code |
| Naming.DomainCodesDistinct | debian/case-organizer/opt/case-organizer/app.py:181-186 | two known domains with the same code are the same domain, so the code identifies it |
| Naming.BuildFilename | app.py:456-459 | the name is `(` + eight digits + `) `, the eight digits read back as the given date, then the type code, a space and the domain code, then ` <case>.<ext>`; its length is exactly the sum of those parts, so nothing else is in it |
| Naming.BuildFilenameExample | debian/case-organizer/opt/case-organizer/app.py:199-202 | a bail application in a criminal case dated 15 January 2025 is named `(15012025) BAIL CRL Alice v. Bob.pdf`, however the type and domain are capitalised or padded |
| Naming.StampUnique | debian/case-organizer/opt/case-organizer/app.py:199-202 | only one eight-digit field reads back as a given date, so the date part of a typed name is determined by the date |
| Naming.BuildCaseName | app.py:461-464 | the case name is empty exactly when either party is blank; otherwise it is `P v. R` over the normalised parties, keeping every non-blank character of both, and is itself normalised |
| Naming.CaseNameStable | debian/case-organizer/opt/case-organizer/app.py:204-207 | normalising the parties first changes nothing, and the case name is a fixed point of `normalize_ws` |
| Naming.CaseLawDisplayName | app.py:329-330 | the display name is `P vs R [C]`, and each of the three parts can be read back at its position |
| Naming.SafeStem | app.py:709-711 | the safe stem is the words of the file name's stem joined by single spaces, so it is normalised and keeps the stem's non-blank characters |
| Naming.RegularUploadName | app.py:769-774 | a "Primary Documents" subfolder (any case) or a missing main type keeps `<stem> - <case>.<ext>`; otherwise the typed name, whose date field reads back as the upload date; either way it ends in ` <case>.<ext>` |
| Naming.CaseLawBase | debian/case-organizer/opt/case-organizer/app.py:452-453 | the base is normalised; when a main type is given it is the main type's words joined by single spaces, otherwise the safe stem; an already normalised main type is used as is |
| Naming.CaseLawBranchName | debian/case-organizer/opt/case-organizer/app.py:439-455 | the case-law branch stores a file as `base.ext`, ending in `.` + its extension |
| Placement.TriedFacts | app.py:338-343 | after trying the counters 1 .. n-1 of an injective candidate list, n-1 distinct paths are taken, and none of them is a later candidate |
| Placement.AllocateBy | app.py:333-344 | the allocation loop ends with a free path: the wanted one when it is free, else the candidate of the smallest counter N >= 1 that is free, every smaller candidate being taken |
| Placement.EnsureUniquePath | app.py:333-344 | `ensure_unique_path` returns the path itself when it does not exist, otherwise `parent/stem (N)suffix` for the smallest N >= 1 that does not exist; the result never exists |
| Placement.UnderscoreUnique | debian/case-organizer/opt/case-organizer/app.py:501-507 | the `_N` loop returns `dir/name` when it is free, otherwise `dir/stem_N suffix` for the smallest N >= 1 that is free; the result never exists |
| Placement.CandidatePathInjective | app.py:783 | different counters are tried at different paths, so the loop never revisits a path |
| Placement.UniqueChild | app.py:1057-1058 | the fresh case folder is a new direct child of its base folder: the case's own name when that is free, otherwise its ` (N)` variant for the smallest free N; creating it keeps every folder's parent in place |
| Placement.FirstFreeUnique | app.py:333-344 | the "own path when free, else the smallest free counter" rule fixes one path: two paths that both satisfy it are equal |
| Jail.CaseLawFilePath | app.py:397-403 | as written: the stored file is served exactly when its resolved path starts, as text, with the resolved root |
| Jail.CaseLawNotePath | app.py:406-411 | as written: the note is served exactly when its resolved path starts, as text, with the resolved root |
| Jail.SiblingEscapesJail | app.py:401-402 | with the root at `/srv/cases`, a record whose folder resolves to `/srv/cases-old` is served although it lies outside the root |
| Jail.SafeFilePath | app.py:397-403 | corrected: a file is served exactly when its resolved path is the resolved root or lies below it component by component |
| Jail.SafeNotePath | app.py:406-411 | corrected: a note is served exactly when its resolved path lies inside the resolved root component by component |
| Jail.SafeIsStricter | app.py:397-411 | the corrected guards accept only what the written ones accept, and give the same path when they do |
| Jail.SiblingRejected | app.py:401-402 | a path that only extends the root's last component is not inside the root |
| Query.RewriteNear | app.py:163-181 | every proximity item of the rewrite carries a `NEAR/N` operator word |
| Query.RewriteRoundTrip | app.py:163-181 | the rewrite loses no token: flattening its items gives back the token sequence |
| Query.RewriteComplete | app.py:163-181 | no `left NEAR/N right` triple is left unrewritten |
| Query.ChainedNearLeftmost | app.py:163-181 | in `a NEAR/n b NEAR/m c` the scan rewrites the leftmost triple and passes the remaining operator and word through |
| Query.UpperKeywords | app.py:164-169 | exactly the characters of the maximal runs of word characters that spell AND, OR, NOT or NEAR (any case) are upper-cased, and every other character is kept; so the length, the letters up to case, and which characters are word characters are kept |
| Query.UpperKeywordsIdempotent | app.py:182-183 | upper-casing the keywords of an output again changes nothing |
| Query.NormalizeBooleanQuery | app.py:172-184 | the translation is empty exactly for an empty token list; otherwise it is the rendered rewrite with exactly its keyword runs upper-cased, equal to it up to case; its keywords are already upper case |
| Query.ProximityExample | app.py:163-181 | `fraud NEAR/5 "bank account"` is read as one proximity match |
| Query.ProximityRendered | app.py:177-179 | that match renders as `NEAR(fraud "bank account", 5)` |
| Catalog.FtsDelete | app.py:145 | deleting an index entry removes that rowid and keeps every other entry |
| Catalog.FtsInsert | app.py:146-160 | inserting at a rowid already in use fails; otherwise exactly that rowid is added |
| Catalog.RefreshIndex | app.py:136-160 | after the refresh the index holds one entry for the id, carrying the given parties, citation, judgment text and note (a missing text stored as ""), and every other entry is unchanged |
| Catalog.RefreshIdempotent | app.py:136-160 | refreshing twice with the same arguments is refreshing once |
| Catalog.InsertTwiceFails | app.py:145-160 | a second insert for a rowid without the delete fails, which is why the refresh deletes first |
| Catalog.NextRowId | app.py:1109 | the new row id is fresh and larger than every existing id, and 1 for an empty table |
| Catalog.FindDuplicate | app.py:1036-1046 | a duplicate is found exactly when some row carries the same metadata tuple, and the one found carries it |
| Catalog.AddCase | app.py:1087-1119 | the insert adds exactly the new row and its index entry, with the note and judgment text, and keeps every other row and entry |
| Catalog.AddCaseConsistent | app.py:82-111 | adding a row with a new metadata tuple keeps every row indexed exactly once and the tuples unique |
| Catalog.RefreshConsistent | app.py:136-160 | refreshing an existing row's entry with its own fields keeps the catalog consistent |
| CaseLawNote.FirstUsable | app.py:384-387 | the summary field is the first of the listed keys whose value is a non-blank string, and there is none exactly when no key qualifies |
| CaseLawNote.ExtractNoteSummary | app.py:379-390 | for a JSON object with a usable summary field, the summary is the words of the first such field joined by single spaces; for a note that is not an object, or has no usable field, it is the words of the whole note joined by single spaces; it is normalised, non-empty when a field is usable, and empty only for a blank note |
| CaseLawNote.NoteFieldWins | app.py:384-387 | a usable "Note" field gives the summary, whatever else the object holds |
| CaseLawNote.PlainSummaryFixed | app.py:388-390 | a note that is not JSON and already normalised is its own summary |
| CaseLawNote.ApplyNote | app.py:1298-1314 | the row's note text becomes the summary, its index entry is refreshed with the note and keeps its judgment text, and every other row and entry is unchanged |
| CaseLawNote.SaveNote | app.py:1268-1317 | as written: a missing record fails with "Case law record not found."; a record whose resolved note path does not start, as text, with the resolved root fails with a server error, because the reply nested in a second `(reply, 400)` pair makes Flask raise `TypeError`; a save writes the content at the resolved note path, the summary is the extracted one, and the catalog becomes the applied note |
| CaseLawNote.RejectedNotePath | app.py:1278-1281 | where the textual guard rejects the note path, the route as written fails with a server error while the intended route refuses the path with "Invalid note path for this record." |
| CaseLawNote.SaveNoteSafe | app.py:1268-1317 | corrected: the same save, but the note path is accepted only when it lies inside the resolved root component by component |
| CaseLawNote.SaveNoteFailures | app.py:1274-1281 | for an existing record, the save as written fails exactly when the note path does not start with the root's text, and the corrected save exactly when the note path lies outside the root |
| CaseLawNote.SaveNoteSafeAgrees | app.py:1278-1280 | whenever the corrected save succeeds, the save as written gives the same result |
| CaseLawNote.SaveNoteConsistent | app.py:1298-1314 | saving a note, as written or corrected, keeps the catalog consistent |
| Search.ClampLimit | app.py:1198-1202 | the limit is always within 1..200: a non-integer gives 50, and an integer is clamped to the nearer bound |
| Search.DefaultLimit | app.py:1199-1202 | without a limit argument at most 50 rows are returned |
| Search.ClampIdempotent | app.py:1198-1202 | a clamped limit, passed back as text, is clamped to itself |
| Search.YearFilter | app.py:1172-1180 | a given year that is no integer is rejected with "Invalid year filter supplied."; otherwise the filter is present exactly when a year is given, and holds its value |
| Search.ClassFilter | app.py:1181-1196 | an unknown primary type fails with "Invalid primary classification.", a case type outside its list with "Invalid case type supplied."; the case type is only considered together with a primary type; an accepted value is the canonical entry equal to the argument ignoring case and whitespace |
| Search.TextFilters | app.py:1143-1170 | the full-text query is the translated text exactly when text is given; the party filter is present exactly when a party is given and carries the normalised mode (default "either") and the lower-cased party; the citation filter is present exactly when a citation is given and carries it lower-cased |
| Search.ParseSearch | app.py:1134-1202 | a search is rejected, as an invalid argument, exactly when the year or the classification is bad; an accepted one carries the clamped limit within 1..200, the text, party and citation filters of its arguments, the year's value exactly when a year is given, and the canonical classification exactly when one is given |
| Search.SearchYearRoundTrip | app.py:1172-1180 | a year written out as text filters on that same year |
| Search.CanonicalPrimaryAccepted | app.py:1181-1190 | a canonical primary type is accepted as itself |
| Search.EitherPartyMatch | app.py:1153-1165 | in the default mode a party search accepts a row whose respondent contains the party text, ignoring case |
| Search.NoFiltersMatchAll | app.py:1134-1202 | a search without filter arguments accepts every row |
| CaseLawUpload.RequiredNames | app.py:996-1001 | the three names are required in order; a blank petitioner is reported first |
| CaseLawUpload.DecisionYear | app.py:1003-1010 | the year is accepted exactly when it is an integer from 1800 to next year |
| CaseLawUpload.Classify | app.py:1014-1020 | the classification is accepted exactly when both the primary and the case type are recognised; the result is canonical and within the vocabulary |
| CaseLawUpload.CheckUpload | app.py:1025-1034 | an attachment is accepted exactly when it has a name with an allowed extension, and the extension is returned |
| CaseLawUpload.ValidateUpload | app.py:996-1034 | the checks run in order and a form is accepted exactly when every one passes; an accepted form carries the required names, a plausible year, a canonical classification, a non-empty note and an allowed attachment |
| CaseLawUpload.ImplausibleYearRejected | app.py:1008-1010 | a year outside 1800 .. next year is refused with "Decision year looks invalid." even when the names are given |
| CaseLawUpload.ValidFormAccepted | app.py:996-1034 | a form meeting every condition is accepted |
| CaseLawUpload.SafeCaseName | app.py:1048-1049 | the case folder's name is the words of `P vs R [C]`, illegal characters blanked, joined by single spaces, or `Case Law <year>` when nothing is left; it is non-empty and free of illegal characters |
| CaseLawUpload.Segment | app.py:1052-1053 | a classification folder name is the words of the text with illegal characters turned into `-`, joined by single spaces, or "General" when nothing is left; it is non-empty, free of illegal characters, and adds no level to the hierarchy |
| CaseLawUpload.BaseDirLevels | app.py:1054-1055 | the base folder is `Case Law/<primary>/<type>/<year>`, four levels each inside the one before |
| CaseLawUpload.Place | app.py:1054-1081 | the upload lands in a new case folder below the base folder, named after the case or its ` (N)` variant, holding the judgment file and the note file, with nothing else added; the folder is the case's own name when free, else its ` (N)` variant for the smallest free N, and the judgment file likewise inside the new folder, a renamed file carrying the counter `fileN` |
| CaseLawUpload.RemoveTree | app.py:1120-1122 | removing a folder removes it and everything below it and nothing else |
| CaseLawUpload.RollbackLeavesBase | app.py:1120-1122 | when the insert fails, removing the case folder leaves at most what existed before plus the base folders |
| CaseLawUpload.Commit | app.py:1087-1122 | the insert succeeds exactly when the database does not raise, storing a new row and index entry; when it raises, the catalog is unchanged, the case folder is removed again and the same exception reaches the caller |
| CaseLawUpload.Admit | app.py:1036-1046 | a valid form whose metadata tuple is already stored is refused with "A case law record with the same metadata already exists." |
| CaseLawUpload.UploadCaseLaw | app.py:980-1130 | a refused submission changes nothing; an accepted one stores a new row carrying its metadata, with its index entry and its case folder; the stored folder and file names are the ones placement chose (own name when free, else the smallest free ` (N)`); every folder keeps its parent and the catalog stays consistent |
| CaseLawUpload.FreshUploadNames | app.py:1057-1066 | when the case's folder name is free, a stored upload keeps the plain case name for its folder and `case.ext` for its file, with no counter |
| CaseLawUpload.SecondUploadConflicts | app.py:1036-1046 | submitting the same form again after a successful upload is refused as a duplicate |
| ManageCase.UsableParts | app.py:720-724 | the saved parts are the named parts with an allowed extension, each as often as among the uploads, and no other part |
| ManageCase.UsablePartsConcat | app.py:720-724 | the parts are picked one by one: the usable parts of two batches in a row are those of each, in order |
| ManageCase.StoredName | app.py:726-732 | a part's stored name ends in its extension; in the case-law branch it is the main type or safe stem, otherwise the regular naming rule |
| ManageCase.SaveNames | app.py:779-787 | each name is stored at its own path when that is free, otherwise at its `_N` variant for the smallest N free against the folder's paths and the names saved before it; none taken before and no two alike, and nothing else is added; the loop stops, keeping what it saved, exactly at the first name whose folder is missing, where the copy raises |
| ManageCase.StoreOne | debian/case-organizer/opt/case-organizer/app.py:501-507 | the destination is free: the name's own path when that is free, otherwise its `_N` variant for the smallest free N |
| ManageCase.SavedAsDetermined | app.py:780-784 | the saving rule leaves no choice: two runs over the same folder and names save at the same paths and end with the same paths |
| ManageCase.FreeNameKept | app.py:780-781 | a first name whose own path is free is saved at exactly that path, never at a `_N` variant |
| ManageCase.ManageChecks | app.py:678-706 | the checks run in order: year, month and case name, then domain, date, files, and an existing case folder |
| ManageCase.SaveBatch | app.py:756-791 | the target folder is made with every folder above it; no names fails with "No files were saved (unsupported type?)"; a name whose folder is missing fails with the copy's exception, the parts saved before it kept; otherwise every name is saved, each at its own path when free or else its smallest free `_N` variant, and the saved paths are returned; single-component names always save |
| ManageCase.ManageUpload | app.py:673-793 | a form failing a check changes nothing; with no usable part the target folder is made, with every folder above it, and the request fails; otherwise the stored names are saved in order in the target folder, each at its own path when free or else its smallest free `_N` variant, and the request succeeds with the saved paths exactly when every one is saved, failing with the copy's exception at a name whose folder is missing |
| ManageCase.NestedSubcategoryMade | app.py:755-756 | every folder a nested subcategory such as "Orders/2024" spells out is made on the way to the target folder |
| ManageCase.RuleOf | debian/case-organizer/opt/case-organizer/app.py:439-440 | the case-law naming rule applies exactly when the domain is "case law" in any case |
| CaseNote.MakeNote | debian/case-organizer/opt/case-organizer/app.py:217-247 | the note has the layout's keys in order whatever the payload holds, each with the value the payload gives it ("" when missing) |
| CaseNote.FixedKeyOrder | debian/case-organizer/opt/case-organizer/app.py:217-247 | notes from any two payloads have the same keys in the same order |
| CaseNote.LayoutKeysDistinct | app.py:494-524 | the note template holds no key twice |
| CaseNote.SpacerKeysExactly | app.py:526-528 | the spacer pattern matches the six spacer keys and no other key, so replacing them loses no field |
| CaseNote.NoteReadsBack | app.py:486-529 | every key of the template reads back the value the payload gives it |
| CaseNote.EveryFieldReadOnce | app.py:653-664 | every field the case form collects is read by exactly one key of the note |
| CaseNote.CasePayload | debian/case-organizer/opt/case-organizer/app.py:357-387 | every field of the fixed list is present ("" when missing), and the two party names are the normalised parties |
| CaseNote.CreateChecks | app.py:631-645 | case creation is refused when the case name built from the parties is empty; otherwise the date is the typed one, or today when blank |
| CaseNote.CreateOn | app.py:647-667 | the case folder is `year / month / case name` joined with the path operator; it, every folder above it and `Note.json` exist afterwards; nothing else is added; a file system in which every path's parent exists keeps that property |
| CaseNote.CreateMakesYearMonth | app.py:647-650 | for a case name that is not absolute, the year folder and the month folder exist after the case is made |
| CaseNote.AbsoluteCaseName | app.py:649-650 | an absolute case name is the case folder itself, as pathlib's `/` makes it, and no year folder that was missing appears |
| CaseNote.SlashedCaseName | app.py:649-650 | the case name "M/s Acme v. State" in January 2024 makes the folder `2024/Jan/M` |
| CaseNote.CreateCase | debian/case-organizer/opt/case-organizer/app.py:349-392 | a refused form reports its check's error; otherwise the case is made on the case date |
| CaseNote.NoteNamesParties | debian/case-organizer/opt/case-organizer/app.py:357-387 | the note of a new case names the normalised parties |
| CaseNote.NoteKeepsFields | app.py:653-664 | every other plain field of a new case's note is kept as submitted |
| CaseNote.CreatedCaseFound | app.py:704-706 | a case just created is the folder the manage-case upload finds from its year, month folder and case name |
| Browse.SortNames | app.py:565-566 | the listing is sorted by the key and is a permutation of the folder names |
| Browse.SortedUnique | app.py:565-566 | two sorted lists with the same names are the same list, so the sort result is determined |
| Browse.ListingOrderIrrelevant | app.py:561-566 | the order the file system lists the folders in does not change the result |
| Browse.FullYearInCalendarOrder | debian/case-organizer/opt/case-organizer/app.py:288-289 | however the twelve month folders are listed, they come back Jan to Dec |
| Browse.BeforeTransitive | app.py:565-566 | the sort key orders names transitively |
| Browse.FolderNames | app.py:558-563 | the listed names are exactly the entries of the year folder that are folders, each as often as listed, and none when the year is blank or names no folder |
| Browse.OnlyFoldersListed | app.py:561-562 | dropping the plain files from the listing beforehand changes neither the listing as written nor the corrected one |
| Browse.SortMonthsAsWritten | app.py:565-566 | as written: the sort fails with a TypeError exactly when the year folder holds both a month folder and another folder; otherwise the result is sorted and a permutation |
| Browse.OtherFolderBreaksListing | debian/case-organizer/opt/case-organizer/app.py:288-289 | a year folder holding `Jan` and `notes` cannot be listed |
| Browse.ApiMonthsAsWritten | app.py:555-567 | as written: the listing fails exactly when the year folder's sub-folders mix month names and other names, and otherwise lists every sub-folder |
| Browse.ApiMonths | app.py:555-567 | corrected: the listing never fails, is sorted with the months first in calendar order, lists every sub-folder once, and agrees with the code whenever that succeeds |

## Left out

- Text.NormalizeWs: the function's own ensures do not say that the words are joined by single spaces. That fact is the lemma Text.NormalizeWsWords, which callers invoke where they need it. Stated as an ensures, it would be in scope at every call site and would make their proofs much slower.
- The "storage root is not configured" early returns (app.py:982-983, app.py:1135-1136, app.py:1270-1271 and similar) are left out. The model always has a root.
- HTTP status codes and JSON response bodies are left out. Errors are modelled by their message and kind. The 401 returned for a bad manage-case date is one such status.
- Flask routing, sessions, login, setup and template rendering are left out as plumbing. So are `config.py` and `caseorg_config.py`.
- The SQL text, transactions, FTS5 matching and ranking, and the `ORDER BY ... LIMIT` of the search are left out. The full-text engine's hits are an input set. The `LIKE` filters are modelled as substring tests, without `%`/`_` wildcards inside the needle.
- Text extraction (`extract_text_for_index`), `secure_filename`, `Path.resolve` and `json.dumps`/`json.loads` are foreign. Their results are parameters.
- `datetime.now()`, `strptime` and `strftime` are left out. Dates are given as (year, month, day). The current year and today's date are parameters.
- The temporary upload files of the manage-case flow are left out. They sit in the target folder only until the copy.
- ManageCase.ManageUpload: the file system is a set of paths and does not tell files from folders, so a stored name whose folder exists as a plain file is not told apart. The temporary copy that stays behind when the copy raises is not modelled.
- The tokenizer of the query translator is left out: the translator works on tokens. A `NEAR` inside a quoted phrase, and text that is neither a word nor a well-formed phrase, are not modelled.
- Query.UpperKeywords: `\w` is ASCII-only here. Python's `\w` also matches letters and digits of other scripts.
- Text.Upper: `str.upper` and `str.lower` are modelled on ASCII letters only. Python also maps other scripts, and can change the length of a text (`ß` becomes `SS`).
- Digits.ParseIntRoundTrip: `int()` is modelled for ASCII digits with an optional sign and surrounding whitespace. Underscore separators and non-ASCII digits, which Python also accepts, are not modelled.
- Paths.PathJoin: paths are joined as text. `pathlib` also drops `.` components and collapses repeated and trailing slashes, so a month field `./Jan` or a case name `X/` names the same folder as `Jan` or `X` in the program but a different string in the model. The model then refuses such a manage-case upload as if the case folder were missing. `..` components are kept as text by `pathlib` as well, but the operating system resolves them when a folder is tested or made, so two different strings of the model can name one folder on disk: a party named `../x` makes `create_case` use the folder `2024/x v. y`, while the model records `2024/Jan/..` and `2024/Jan/../x v. y` as new paths. The freshness that Placement.EnsureUniquePath, Placement.UnderscoreUnique and Placement.UniqueChild prove holds for these strings, not for folders reached through `..`. Neither `create_case` nor `manage_case_upload` (app.py:647-650, app.py:704) checks that the case folder stays under the storage root; the model has no path resolution, so it cannot show whether such a name leaves the root.
- CaseLawNote.SaveNote: the note's content is a string parameter. The program reads it from any JSON body, and the route raises (HTTP 500) in several cases the model does not cover. A truthy body that is not a JSON object has no `get`. A `"content"` value that is a number, a boolean, a list or an object makes `json.loads` raise `TypeError`, which app.py:389 does not catch. A falsy non-string value such as `0` or `null` gets past the summary but makes `write_text` raise. The `mkdir(parents=True)` of the note's folder (app.py:1295) is left out too, since note files are a map from path to content with no folders; CaseLawNote.SaveNoteSafe shares both gaps.
- Paths.PathSuffix follows the `pathlib` rule of Python 3.13 and earlier: a leading or trailing dot is no suffix.
- The GET branch of the note route, `short_excerpt`, `serialize_case_law`, `fetch_case_law_record`, the download route, `api_years`, `api_cases`, `static_serve`, `search` and `api_delete_file` are left out. They read and present data and change nothing modelled.
- The JSON text of a case note, and the regular-expression pass that turns the spacer keys into blank lines, are left out. The note is its ordered key/value list. CaseNote.SpacerKeysExactly states that the pass removes only the spacers.
- CaseNote.CreateOn: an existing case folder is reused and its `Note.json` overwritten, as the code does. The old note's content is not tracked.
- CaseLawUpload.UploadCaseLaw requires that no allowed extension contains `/`. The configured list is plain extensions.
- The directory listing of `api_months` is an input sequence of entry names. Which paths are folders is an input set.
- Concurrent requests are left out. The source takes no locks, and the model is sequential.

## Findings

| source | as written | input that shows it | evidently intended | confidence | as-written member | corrected member |
|---|---|---|---|---|---|---|
| app.py:397-411 | the root jail accepts a resolved path whose text starts with the resolved root's text | root `/srv/cases`, `folder_rel` `../cases-old`, file `x.pdf`; the path resolves to `/srv/cases-old/x.pdf` and is served | serve only paths that are the root or lie below it component by component | not executed | Jail.SiblingEscapesJail | Jail.SafeIsStricter |
| app.py:1281 | `return case_law_error("Invalid note path for this record."), 400` wraps the `(reply, status)` pair `case_law_error` already returns in a second pair, which Flask cannot turn into a response | a record whose note path resolves outside the storage root, such as `../../etc/n.json` | answer with the message and status 400 | not executed | CaseLawNote.RejectedNotePath | CaseLawNote.SaveNoteSafe |
| app.py:565-566 | `months.sort(key=lambda x: order.index(x) if x in order else x)` compares an `int` key with a `str` key, which raises `TypeError` | a year folder holding the sub-folders `Jan` and `notes` | list the month folders in calendar order, then any other folders | not executed | Browse.OtherFolderBreaksListing | Browse.ApiMonths |

The note editor is modelled both ways: CaseLawNote.SaveNote with the
guard and the rejected-path reply as written, and CaseLawNote.SaveNoteSafe
with the corrected guard, Jail.SafeNotePath, and the intended reply.

=== FILE: browse.dfy ===
/** The month listing of the browse API (`api_months`, app.py:555-567; the
    packaged copy debian/case-organizer/opt/case-organizer/app.py:278-290 is
    the same code). The names of a year folder's sub-folders are sorted
    with the key `order.index(x) if x in order else x`: a month name sorts
    by its place in the calendar, any other name by itself. The sort is
    stated for any list `order` of names and used with the twelve month
    folder names. */
module Browse {
  import opened Wrappers
  import opened Text
  import opened Calendar
  import Paths

  /** The first place of `x` in `order`. */
  function IndexIn(order: seq<string>, x: string): (r: Option<nat>)
    ensures r.Some? <==> x in order
    ensures r.Some? ==> r.value < |order| && order[r.value] == x
    ensures r.Some? ==> forall j :: 0 <= j < r.value ==> order[j] != x
  {
    if order == [] then None
    else if order[0] == x then Some(0)
    else match IndexIn(order[1..], x)
      case None => None
      case Some(i) => Some(i + 1)
  }

  /** Python's `<=` on strings: code point by code point, a prefix first. */
  predicate LexLeq(a: string, b: string) {
    a == [] || (b != [] && (a[0] < b[0] || (a[0] == b[0] && LexLeq(a[1..], b[1..]))))
  }

  lemma {:induction false} LexTotal(a: string, b: string)
    ensures LexLeq(a, b) || LexLeq(b, a)
  {
    if a != [] && b != [] && a[0] == b[0] {
      LexTotal(a[1..], b[1..]);
    }
  }

  lemma {:induction false} LexAntisymmetric(a: string, b: string)
    requires LexLeq(a, b) && LexLeq(b, a)
    ensures a == b
  {
    if a != [] && b != [] {
      LexAntisymmetric(a[1..], b[1..]);
      assert a == [a[0]] + a[1..] && b == [b[0]] + b[1..];
    }
  }

  lemma {:induction false} LexTransitive(a: string, b: string, c: string)
    requires LexLeq(a, b) && LexLeq(b, c)
    ensures LexLeq(a, c)
  {
    if a != [] && b != [] && c != [] && a[0] == b[0] && b[0] == c[0] {
      LexTransitive(a[1..], b[1..], c[1..]);
    }
  }

  /** `a` may come before `b` under the sort key: places in `order` by
      number, every listed name before every other name, other names by
      Python's string order. */
  predicate Before(order: seq<string>, a: string, b: string) {
    match (IndexIn(order, a), IndexIn(order, b))
    case (Some(i), Some(j)) => i <= j
    case (Some(_), None) => true
    case (None, Some(_)) => false
    case (None, None) => LexLeq(a, b)
  }

  lemma BeforeTotal(order: seq<string>, a: string, b: string)
    ensures Before(order, a, b) || Before(order, b, a)
  {
    LexTotal(a, b);
  }

  lemma BeforeAntisymmetric(order: seq<string>, a: string, b: string)
    requires Before(order, a, b) && Before(order, b, a)
    ensures a == b
  {
    if IndexIn(order, a).None? && IndexIn(order, b).None? {
      LexAntisymmetric(a, b);
    }
  }

  lemma BeforeTransitive(order: seq<string>, a: string, b: string, c: string)
    requires Before(order, a, b) && Before(order, b, c)
    ensures Before(order, a, c)
  {
    if IndexIn(order, a).None? && IndexIn(order, b).None? && IndexIn(order, c).None? {
      LexTransitive(a, b, c);
    }
  }

  predicate SortedBy(order: seq<string>, s: seq<string>) {
    forall i, j :: 0 <= i < j < |s| ==> Before(order, s[i], s[j])
  }

  /** Inserting `x` into a sorted list. */
  function Insert(order: seq<string>, x: string, s: seq<string>): (r: seq<string>)
    requires SortedBy(order, s)
    ensures SortedBy(order, r)
    ensures multiset(r) == multiset(s) + multiset{x}
    ensures |r| == |s| + 1
  {
    if s == [] then [x]
    else if Before(order, x, s[0]) then
      FirstBeforeAll(order, x, s);
      ConsSorted(order, x, s);
      [x] + s
    else
      var rest := Insert(order, x, s[1..]);
      HeadBeforeRest(order, x, s, rest);
      ConsSorted(order, s[0], rest);
      assert s == [s[0]] + s[1..];
      [s[0]] + rest
  }

  /** A name before the head of a sorted list is before all of it. */
  lemma FirstBeforeAll(order: seq<string>, x: string, s: seq<string>)
    requires SortedBy(order, s) && s != [] && Before(order, x, s[0])
    ensures forall k :: 0 <= k < |s| ==> Before(order, x, s[k])
  {
    forall k | 0 < k < |s| ensures Before(order, x, s[k]) {
      BeforeTransitive(order, x, s[0], s[k]);
    }
  }

  /** When `x` goes after the head, the head stays before the rest of the
      list with `x` inserted. */
  lemma HeadBeforeRest(order: seq<string>, x: string, s: seq<string>, rest: seq<string>)
    requires SortedBy(order, s) && s != [] && !Before(order, x, s[0])
    requires multiset(rest) == multiset(s[1..]) + multiset{x}
    ensures forall k :: 0 <= k < |rest| ==> Before(order, s[0], rest[k])
  {
    BeforeTotal(order, x, s[0]);
    forall k | 0 <= k < |rest| ensures Before(order, s[0], rest[k]) {
      assert rest[k] in multiset(rest);
      if rest[k] != x {
        assert rest[k] in multiset(s[1..]);
        var m :| 0 <= m < |s[1..]| && s[1..][m] == rest[k];
        assert s[m + 1] == rest[k];
      }
    }
  }

  lemma ConsSorted(order: seq<string>, h: string, t: seq<string>)
    requires SortedBy(order, t)
    requires forall k :: 0 <= k < |t| ==> Before(order, h, t[k])
    ensures SortedBy(order, [h] + t)
  {
    var r := [h] + t;
    forall i, j | 0 <= i < j < |r| ensures Before(order, r[i], r[j]) {
      if i > 0 {
        assert r[i] == t[i - 1] && r[j] == t[j - 1];
      } else {
        assert r[j] == t[j - 1];
      }
    }
  }

  /** The names in key order: a permutation of the input, sorted. */
  function SortNames(order: seq<string>, s: seq<string>): (r: seq<string>)
    ensures SortedBy(order, r)
    ensures multiset(r) == multiset(s)
  {
    if s == [] then []
    else
      assert s == [s[0]] + s[1..];
      Insert(order, s[0], SortNames(order, s[1..]))
  }

  /** The head of a sorted list comes before every name in it. */
  lemma HeadFirst(order: seq<string>, s: seq<string>, x: string)
    requires SortedBy(order, s) && x in s
    ensures Before(order, s[0], x)
  {
    var i :| 0 <= i < |s| && s[i] == x;
    if i == 0 {
      BeforeTotal(order, x, x);
    }
  }

  /** Two sorted lists holding the same names are the same list. */
  lemma {:induction false} SortedUnique(order: seq<string>, a: seq<string>, b: seq<string>)
    requires SortedBy(order, a) && SortedBy(order, b)
    requires multiset(a) == multiset(b)
    ensures a == b
    decreases |a|
  {
    if a == [] {
      assert |b| == |multiset(b)| == 0;
    } else {
      SameHead(order, a, b);
      SameTail(a, b);
      TailSorted(order, a);
      TailSorted(order, b);
      SortedUnique(order, a[1..], b[1..]);
      assert a == [a[0]] + a[1..] && b == [b[0]] + b[1..];
    }
  }

  /** Two sorted lists holding the same names start with the same name. */
  lemma SameHead(order: seq<string>, a: seq<string>, b: seq<string>)
    requires SortedBy(order, a) && SortedBy(order, b)
    requires multiset(a) == multiset(b) && a != []
    ensures b != [] && a[0] == b[0]
  {
    assert |b| == |multiset(b)| == |a|;
    assert a[0] in multiset(b) && b[0] in multiset(a);
    HeadFirst(order, b, a[0]);
    HeadFirst(order, a, b[0]);
    BeforeAntisymmetric(order, a[0], b[0]);
  }

  lemma SameTail(a: seq<string>, b: seq<string>)
    requires multiset(a) == multiset(b) && a != [] && b != [] && a[0] == b[0]
    ensures multiset(a[1..]) == multiset(b[1..])
  {
    assert a == [a[0]] + a[1..] && b == [b[0]] + b[1..];
    assert multiset(a[1..]) == multiset(a) - multiset{a[0]};
    assert multiset(b[1..]) == multiset(b) - multiset{a[0]};
  }

  lemma TailSorted(order: seq<string>, a: seq<string>)
    requires SortedBy(order, a) && a != []
    ensures SortedBy(order, a[1..])
  {
    forall i, j | 0 <= i < j < |a[1..]| ensures Before(order, a[1..][i], a[1..][j]) {
      assert a[1..][i] == a[i + 1] && a[1..][j] == a[j + 1];
    }
  }

  /** The listing order the file system happens to give does not change
      the result. */
  lemma ListingOrderIrrelevant(order: seq<string>, a: seq<string>, b: seq<string>)
    requires multiset(a) == multiset(b)
    ensures SortNames(order, a) == SortNames(order, b)
  {
    SortedUnique(order, SortNames(order, a), SortNames(order, b));
  }

  /** A list of distinct names is itself in key order. */
  lemma OrderIsSorted(order: seq<string>)
    requires forall i, j :: 0 <= i < j < |order| ==> order[i] != order[j]
    ensures SortedBy(order, order)
  {
    forall i, j | 0 <= i < j < |order| ensures Before(order, order[i], order[j]) {
      assert IndexIn(order, order[i]) == Some(i);
      assert IndexIn(order, order[j]) == Some(j);
    }
  }

  lemma MonthsDistinct()
    ensures forall i, j :: 0 <= i < j < |MonthOrder| ==> MonthOrder[i] != MonthOrder[j]
  {
  }

  /** However the twelve month folders are listed, they come back Jan to
      Dec. */
  lemma FullYearInCalendarOrder(listing: seq<string>)
    requires multiset(listing) == multiset(MonthOrder)
    ensures SortNames(MonthOrder, listing) == MonthOrder
  {
    MonthsDistinct();
    OrderIsSorted(MonthOrder);
    SortedUnique(MonthOrder, SortNames(MonthOrder, listing), MonthOrder);
  }

  /** Some names are in `order` and some are not. */
  predicate Mixed(order: seq<string>, s: seq<string>) {
    (exists i :: 0 <= i < |s| && s[i] in order) && (exists j :: 0 <= j < |s| && s[j] !in order)
  }

  /** Any arrangement of a mixed list puts a listed name next to an
      unlisted one, so every comparison sort compares the number key of one
      with the string key of the other. */
  lemma MixedHasMixedNeighbours(order: seq<string>, s: seq<string>)
    requires Mixed(order, s)
    ensures exists k :: 0 <= k < |s| - 1 && (s[k] in order) != (s[k + 1] in order)
  {
    var i :| 0 <= i < |s| && s[i] in order;
    var j :| 0 <= j < |s| && s[j] !in order;
    Neighbours(order, s, i, j);
  }

  lemma {:induction false} Neighbours(order: seq<string>, s: seq<string>, i: int, j: int)
    requires 0 <= i < |s| && 0 <= j < |s| && s[i] in order && s[j] !in order
    ensures exists k :: 0 <= k < |s| - 1 && (s[k] in order) != (s[k + 1] in order)
    decreases if i < j then j - i else i - j
  {
    if i < j {
      if s[i + 1] !in order {
        assert (s[i] in order) != (s[i + 1] in order);
      } else {
        Neighbours(order, s, i + 1, j);
      }
    } else {
      if s[j + 1] in order {
        assert (s[j] in order) != (s[j + 1] in order);
      } else {
        Neighbours(order, s, i, j + 1);
      }
    }
  }

  /** `months.sort(key=...)` as written: Python refuses to compare an
      `int` key with a `str` key, so a list holding both a month folder and
      another folder raises, and the request fails. */
  function SortMonthsAsWritten(order: seq<string>, s: seq<string>): (r: Result<seq<string>>)
    ensures r.Err? <==> Mixed(order, s)
    ensures r.Err? ==> r.error.TypeError?
    ensures r.Ok? ==> SortedBy(order, r.value) && multiset(r.value) == multiset(s)
  {
    if Mixed(order, s) then Err(TypeError("'<' not supported between instances of 'str' and 'int'"))
    else Ok(SortNames(order, s))
  }

  /** A year folder holding a month folder and a `notes` folder cannot be
      listed. */
  lemma OtherFolderBreaksListing()
    ensures SortMonthsAsWritten(MonthOrder, ["Jan", "notes"]).Err?
  {
    var s := ["Jan", "notes"];
    assert s[0] == MonthOrder[0];
    assert s[1] !in MonthOrder by {
      forall k | 0 <= k < |MonthOrder| ensures MonthOrder[k] != s[1] {
        assert MonthOrder[k][0] != 'n';
      }
    }
    assert Mixed(MonthOrder, s);
  }

  /** The year folder, or "" when the argument is absent or blank. */
  function YearArg(year: Option<string>): string {
    Strip(year.GetOr(""))
  }

  /** The entries of `listing` that are folders inside `year` (the
      `m.is_dir()` test), in listing order. */
  function SubFolders(year: string, dirs: set<string>, listing: seq<string>): (r: seq<string>)
    ensures forall m :: m in r <==> m in listing && Paths.PathJoin(year, m) in dirs
    ensures forall m :: Paths.PathJoin(year, m) in dirs ==> multiset(r)[m] == multiset(listing)[m]
    ensures |r| <= |listing|
  {
    if listing == [] then []
    else
      var rest := SubFolders(year, dirs, listing[1..]);
      assert listing == [listing[0]] + listing[1..];
      if Paths.PathJoin(year, listing[0]) in dirs then [listing[0]] + rest else rest
  }

  /** The sub-folder names of the year folder, or none when the argument is
      blank or names no folder; `listing` is what the file system lists for
      the year folder and `dirs` the folders that exist. */
  function FolderNames(year: string, dirs: set<string>, listing: seq<string>): (r: seq<string>)
    ensures year == [] || year !in dirs ==> r == []
    ensures year != [] && year in dirs ==>
      forall m :: m in r <==> m in listing && Paths.PathJoin(year, m) in dirs
    ensures forall m :: m in r ==> multiset(r)[m] == multiset(listing)[m]
  {
    if year == [] || year !in dirs then [] else SubFolders(year, dirs, listing)
  }

  /** `api_months` as written. */
  function ApiMonthsAsWritten(year: Option<string>, dirs: set<string>, listing: seq<string>): (r: Result<seq<string>>)
    ensures r.Err? <==> Mixed(MonthOrder, FolderNames(YearArg(year), dirs, listing))
    ensures r.Ok? ==> multiset(r.value) == multiset(FolderNames(YearArg(year), dirs, listing))
  {
    SortMonthsAsWritten(MonthOrder, FolderNames(YearArg(year), dirs, listing))
  }

  /** `api_months` with the key made total: month folders first in calendar
      order, then the other folders by name. It never fails, lists every
      folder once, and agrees with the code as written whenever that
      succeeds. */
  function ApiMonths(year: Option<string>, dirs: set<string>, listing: seq<string>): (r: seq<string>)
    ensures SortedBy(MonthOrder, r)
    ensures multiset(r) == multiset(FolderNames(YearArg(year), dirs, listing))
    ensures ApiMonthsAsWritten(year, dirs, listing).Ok? ==> ApiMonthsAsWritten(year, dirs, listing).value == r
  {
    SortNames(MonthOrder, FolderNames(YearArg(year), dirs, listing))
  }

  /** Keeping only the folders of a listing that holds only folders keeps
      it whole. */
  lemma {:induction false} SubFoldersIdempotent(year: string, dirs: set<string>, listing: seq<string>)
    ensures SubFolders(year, dirs, SubFolders(year, dirs, listing)) == SubFolders(year, dirs, listing)
  {
    if listing != [] {
      SubFoldersIdempotent(year, dirs, listing[1..]);
    }
  }

  /** Only folders matter: dropping the plain files from the listing
      beforehand changes neither the code as written nor the corrected
      listing. */
  lemma OnlyFoldersListed(year: Option<string>, dirs: set<string>, listing: seq<string>)
    ensures ApiMonthsAsWritten(year, dirs, listing)
         == ApiMonthsAsWritten(year, dirs, SubFolders(YearArg(year), dirs, listing))
    ensures ApiMonths(year, dirs, listing) == ApiMonths(year, dirs, SubFolders(YearArg(year), dirs, listing))
  {
    SubFoldersIdempotent(YearArg(year), dirs, listing);
  }
}

=== FILE: calendar.dfy ===
/** Calendar dates as the application uses them: a `datetime` reduced to its
    year, month and day, rendered with `strftime("%d%m%Y")` into file names
    and with `strftime("%b")` into month folder names. */
module Calendar {
  import opened Wrappers
  import opened Text
  import opened Digits

  datatype Date = Date(year: int, month: int, day: int)

  predicate IsLeapYear(y: int) {
    y % 4 == 0 && (y % 100 != 0 || y % 400 == 0)
  }

  function DaysInMonth(y: int, m: int): int
    requires 1 <= m <= 12
  {
    if m == 2 then (if IsLeapYear(y) then 29 else 28)
    else if m == 4 || m == 6 || m == 9 || m == 11 then 30
    else 31
  }

  /** The dates a Python `datetime` can hold. */
  predicate ValidDate(d: Date) {
    && 1 <= d.year <= 9999
    && 1 <= d.month <= 12
    && 1 <= d.day <= DaysInMonth(d.year, d.month)
  }

  /** Month folder names in calendar order (`%b` in the C locale). */
  const MonthOrder: seq<string> :=
    ["Jan", "Feb", "Mar", "Apr", "May", "Jun", "Jul", "Aug", "Sep", "Oct", "Nov", "Dec"]

  function MonthAbbrev(m: int): string
    requires 1 <= m <= 12
  {
    MonthOrder[m - 1]
  }

  lemma Pow10Values()
    ensures Pow10(2) == 100 && Pow10(4) == 10000
  {
    assert Pow10(1) == 10;
    assert Pow10(3) == 1000;
  }

  /** Reads an eight-digit `DDMMYYYY` field back into a date. */
  function ParseDDMMYYYY(s: string): Option<Date> {
    if |s| == 8 && AllDigits(s) then
      var d := Date(DigitsValue(s[4..]), DigitsValue(s[2..4]), DigitsValue(s[..2]));
      if ValidDate(d) then Some(d) else None
    else None
  }

  /** `strftime("%d%m%Y")`: eight digits from which the date can be read
      back. */
  function DDMMYYYY(d: Date): (r: string)
    requires ValidDate(d)
    ensures |r| == 8 && AllDigits(r)
    ensures ParseDDMMYYYY(r) == Some(d)
  {
    Pow10Values();
    var dd := ZeroPad(d.day, 2);
    var mm := ZeroPad(d.month, 2);
    var yyyy := ZeroPad(d.year, 4);
    var r := dd + mm + yyyy;
    assert r[..2] == dd && r[2..4] == mm && r[4..] == yyyy;
    r
  }

  /** The date of a form: today when the field is blank, otherwise what
      `strptime(text, "%Y-%m-%d")` returned (`None` for a `ValueError`). */
  function DateOrToday(dateText: string, parsed: Option<Date>, today: Date): (r: Result<Date>)
    ensures dateText == [] ==> r == Ok(today)
    ensures dateText != [] ==> (r.Ok? <==> parsed.Some?)
    ensures dateText != [] && r.Ok? ==> r.value == parsed.value
    ensures r.Err? ==> r.error == InvalidArgument("Invalid Date. Use YYYY-MM-DD.")
  {
    if dateText == [] then Ok(today)
    else if parsed.None? then Err(InvalidArgument("Invalid Date. Use YYYY-MM-DD."))
    else Ok(parsed.value)
  }
}

=== FILE: casenote.dfy ===
/** Creating a case folder and its note (`create_case` and
    `make_note_json`, app.py:486-529 and app.py:626-669; the packaged copy
    debian/case-organizer/opt/case-organizer/app.py:209-252 and :349-392 is
    the same code). The note is modelled as its ordered sequence of keys and
    values; the JSON text, and the blank lines that replace the spacer keys
    in it, are left to the encoder. */
module CaseNote {
  import opened Wrappers
  import opened Text
  import opened Digits
  import opened Paths
  import opened Calendar
  import opened Naming
  import ManageCase

  /** The form fields `create_case` copies into the note's payload. */
  datatype Field =
    | PetitionerName | PetitionerAddress | PetitionerContact
    | RespondentName | RespondentAddress | RespondentContact
    | OurParty | CaseCategory | CaseSubcategory | CaseType
    | OriginState | OriginDistrict | OriginForum
    | CurrentState | CurrentDistrict | CurrentForum
    | AdditionalNotes

  /** The form key of a field. */
  function FieldName(f: Field): string {
    match f
    case PetitionerName => "Petitioner Name"
    case PetitionerAddress => "Petitioner Address"
    case PetitionerContact => "Petitioner Contact"
    case RespondentName => "Respondent Name"
    case RespondentAddress => "Respondent Address"
    case RespondentContact => "Respondent Contact"
    case OurParty => "Our Party"
    case CaseCategory => "Case Category"
    case CaseSubcategory => "Case Subcategory"
    case CaseType => "Case Type"
    case OriginState => "Origin State"
    case OriginDistrict => "Origin District"
    case OriginForum => "Origin Court/Forum"
    case CurrentState => "Current State"
    case CurrentDistrict => "Current District"
    case CurrentForum => "Current Court/Forum"
    case AdditionalNotes => "Additional Notes"
  }

  /** The fields in the order `create_case` lists them. */
  const CaseFields: seq<Field> := [
    PetitionerName, PetitionerAddress, PetitionerContact,
    RespondentName, RespondentAddress, RespondentContact,
    OurParty, CaseCategory, CaseSubcategory, CaseType,
    OriginState, OriginDistrict, OriginForum,
    CurrentState, CurrentDistrict, CurrentForum,
    AdditionalNotes]

  /** Every field is listed, once. */
  lemma CaseFieldsComplete(f: Field)
    ensures f in CaseFields
    ensures forall i, j :: 0 <= i < j < |CaseFields| ==> CaseFields[i] != CaseFields[j]
  {
  }

  /** A key of the note: a field copied as is, one of the six spacer keys,
      or one of the two court objects. */
  datatype NoteKey = Entry(field: Field) | Blank(n: nat) | OriginCourt | CurrentCourt

  /** The key as it appears in the JSON text. */
  function KeyName(k: NoteKey): string {
    match k
    case Entry(f) => FieldName(f)
    case Blank(n) => "__BLANK" + NatToString(n) + "__"
    case OriginCourt => "Court of Origin"
    case CurrentCourt => "Current Court/Forum"
  }

  /** A value in the note: a text, or a court object with its three keys
      State, District and Court/Forum. */
  datatype NoteValue = Text(s: string) | Court(state: string, district: string, forum: string)

  /** The keys of `make_note_json`, in order. */
  const NoteLayout: seq<NoteKey> := [
    Entry(PetitionerName), Entry(PetitionerAddress), Entry(PetitionerContact), Blank(1),
    Entry(RespondentName), Entry(RespondentAddress), Entry(RespondentContact), Blank(2),
    Entry(OurParty), Blank(3),
    Entry(CaseCategory), Entry(CaseSubcategory), Entry(CaseType), Blank(4),
    OriginCourt, Blank(5),
    CurrentCourt, Blank(6),
    Entry(AdditionalNotes)]

  type Payload = map<Field, string>

  /** `payload.get(key, "")` */
  function Get<K>(m: map<K, string>, key: K): string {
    if key in m then m[key] else ""
  }

  /** The value stored under one key of the layout. */
  function ValueOf(k: NoteKey, payload: Payload): NoteValue {
    match k
    case Entry(f) => Text(Get(payload, f))
    case Blank(_) => Text("")
    case OriginCourt => Court(Get(payload, OriginState), Get(payload, OriginDistrict), Get(payload, OriginForum))
    case CurrentCourt => Court(Get(payload, CurrentState), Get(payload, CurrentDistrict), Get(payload, CurrentForum))
  }

  type Note = seq<(NoteKey, NoteValue)>

  function KeysOf(note: Note): (keys: seq<NoteKey>)
    ensures |keys| == |note| && forall i :: 0 <= i < |note| ==> keys[i] == note[i].0
  {
    seq(|note|, i requires 0 <= i < |note| => note[i].0)
  }

  /** `make_note_json`: every key of the layout, in order, each present
      whatever the payload holds. */
  function MakeNote(payload: Payload): (note: Note)
    ensures KeysOf(note) == NoteLayout
    ensures forall i :: 0 <= i < |note| ==> note[i].1 == ValueOf(NoteLayout[i], payload)
  {
    seq(|NoteLayout|, i requires 0 <= i < |NoteLayout| => (NoteLayout[i], ValueOf(NoteLayout[i], payload)))
  }

  /** Notes made from any two payloads have the same keys in the same
      order. */
  lemma FixedKeyOrder(p: Payload, q: Payload)
    ensures KeysOf(MakeNote(p)) == KeysOf(MakeNote(q))
  {
  }

  /** The layout holds no key twice. */
  lemma LayoutKeysDistinct()
    ensures forall i, j :: 0 <= i < j < |NoteLayout| ==> NoteLayout[i] != NoteLayout[j]
  {
  }

  /** A key the spacer pattern `__BLANK[0-9]+__` matches. */
  predicate IsSpacerText(s: string) {
    && |s| > 9 && s[..7] == "__BLANK" && s[|s| - 2..] == "__"
    && forall i :: 7 <= i < |s| - 2 ==> IsDigit(s[i])
  }

  /** The spacer pattern matches the six spacer keys of the layout and no
      other, so replacing its matches by blank lines loses no field. */
  lemma SpacerKeysExactly(k: NoteKey)
    requires k in NoteLayout
    ensures IsSpacerText(KeyName(k)) <==> k.Blank?
  {
    if k.Blank? {
      SpacerText(NatToString(k.n));
    } else {
      FirstCharNotUnderscore(k);
      NotSpacer(KeyName(k));
    }
  }

  lemma NotSpacer(s: string)
    requires s != [] && s[0] != '_'
    ensures !IsSpacerText(s)
  {
    if |s| > 9 {
      assert s[..7][0] == s[0];
    }
  }

  lemma SpacerText(d: string)
    requires d != [] && forall i :: 0 <= i < |d| ==> IsDigit(d[i])
    ensures IsSpacerText("__BLANK" + d + "__")
  {
    var s := "__BLANK" + d + "__";
    assert s[..7] == "__BLANK" && s[|s| - 2..] == "__";
    assert forall i :: 7 <= i < |s| - 2 ==> s[i] == d[i - 7];
  }

  /** Every field's form key, unfolded one field at a time. */
  lemma AllFields(f: Field)
    ensures FieldName(f) != [] && FieldName(f)[0] != '_'
  {
    match f {
      case PetitionerName => case PetitionerAddress => case PetitionerContact =>
      case RespondentName => case RespondentAddress => case RespondentContact =>
      case OurParty => case CaseCategory => case CaseSubcategory => case CaseType =>
      case OriginState => case OriginDistrict => case OriginForum =>
      case CurrentState => case CurrentDistrict => case CurrentForum =>
      case AdditionalNotes =>
    }
  }

  lemma FirstCharNotUnderscore(k: NoteKey)
    requires !k.Blank?
    ensures KeyName(k) != [] && KeyName(k)[0] != '_'
  {
    match k
    case Entry(f) => AllFields(f);
    case OriginCourt =>
    case CurrentCourt =>
  }

  /** The value stored under `key`: the first entry with that key. */
  function Lookup(note: Note, key: NoteKey): (r: Option<NoteValue>)
    ensures r.None? <==> forall i :: 0 <= i < |note| ==> note[i].0 != key
  {
    if note == [] then None
    else if note[0].0 == key then Some(note[0].1)
    else
      var r := Lookup(note[1..], key);
      assert forall i :: 1 <= i < |note| ==> note[i] == note[1..][i - 1];
      r
  }

  /** The lookup finds the entry at `i` when no earlier entry has its key. */
  lemma {:induction false} LookupAt(note: Note, i: int)
    requires 0 <= i < |note|
    requires forall j :: 0 <= j < i ==> note[j].0 != note[i].0
    ensures Lookup(note, note[i].0) == Some(note[i].1)
    decreases i
  {
    if i > 0 {
      assert note[1..][i - 1] == note[i];
      LookupAt(note[1..], i - 1);
    }
  }

  /** Every key of the layout reads back the value the payload gives it. */
  lemma NoteReadsBack(payload: Payload, k: NoteKey)
    requires k in NoteLayout
    ensures Lookup(MakeNote(payload), k) == Some(ValueOf(k, payload))
  {
    LayoutKeysDistinct();
    var note := MakeNote(payload);
    var i :| 0 <= i < |NoteLayout| && NoteLayout[i] == k;
    assert note[i].0 == k;
    LookupAt(note, i);
  }

  /** The fields one key of the layout reads from the payload. */
  function ReadsOf(k: NoteKey): seq<Field> {
    match k
    case Entry(f) => [f]
    case Blank(_) => []
    case OriginCourt => [OriginState, OriginDistrict, OriginForum]
    case CurrentCourt => [CurrentState, CurrentDistrict, CurrentForum]
  }

  /** The key of the layout that reads a field. */
  function SlotOf(f: Field): NoteKey {
    match f
    case OriginState | OriginDistrict | OriginForum => OriginCourt
    case CurrentState | CurrentDistrict | CurrentForum => CurrentCourt
    case _ => Entry(f)
  }

  /** The note reads every field `create_case` collects, each through
      exactly one key of the layout. */
  lemma EveryFieldReadOnce(f: Field)
    ensures f in CaseFields && SlotOf(f) in NoteLayout && f in ReadsOf(SlotOf(f))
    ensures forall i :: 0 <= i < |NoteLayout| && f in ReadsOf(NoteLayout[i]) ==> NoteLayout[i] == SlotOf(f)
  {
    CaseFieldsComplete(f);
    SlotInLayout(f);
    forall i | 0 <= i < |NoteLayout| && f in ReadsOf(NoteLayout[i])
      ensures NoteLayout[i] == SlotOf(f)
    {
      OnlySlotReads(NoteLayout[i], f);
    }
  }

  lemma SlotInLayout(f: Field)
    ensures SlotOf(f) in NoteLayout && f in ReadsOf(SlotOf(f))
  {
  }

  lemma OnlySlotReads(k: NoteKey, f: Field)
    requires k in NoteLayout && f in ReadsOf(k)
    ensures k == SlotOf(f)
  {
    if k.Entry? {
      assert k.field != OriginState && k.field != OriginDistrict && k.field != OriginForum;
      assert k.field != CurrentState && k.field != CurrentDistrict && k.field != CurrentForum;
    }
  }

  /** The form `create_case` reads: the note fields, and the optional
      case name and date. `None` is an absent field. */
  datatype CaseForm = CaseForm(fields: map<Field, string>, caseName: Option<string>, date: Option<string>)

  /** A party as `create_case` reads it: normalised, "" when absent. */
  function Party(form: CaseForm, f: Field): string {
    NormalizeWs(Get(form.fields, f))
  }

  /** `create_case`'s payload: every field as submitted ("" when absent),
      with the two party names replaced by their normalised form. */
  function CasePayload(form: CaseForm, pn: string, rn: string): (p: Payload)
    ensures forall f: Field :: f in p
    ensures p[PetitionerName] == pn && p[RespondentName] == rn
    ensures forall f: Field :: f != PetitionerName && f != RespondentName ==> p[f] == Get(form.fields, f)
  {
    var p := map f | f in CaseFields :: Get(form.fields, f);
    assert forall f: Field :: f in p by {
      forall f: Field ensures f in CaseFields {
        CaseFieldsComplete(f);
      }
    }
    p[PetitionerName := pn][RespondentName := rn]
  }

  /** The case name: the submitted one, or the one built from the parties. */
  function CaseNameOf(form: CaseForm): (r: string)
    ensures IsNormalized(r)
    ensures BuildCaseName(Party(form, PetitionerName), Party(form, RespondentName)) != [] ==> r != []
    ensures FormField(form.caseName) != [] ==> r == FormField(form.caseName)
  {
    var given := FormField(form.caseName);
    if given != [] then given else BuildCaseName(Party(form, PetitionerName), Party(form, RespondentName))
  }

  /** `case_dir(year, month, case_name)`, relative to the root. */
  function CaseDir(date: Date, caseName: string): string
    requires ValidDate(date)
  {
    PathJoin(PathJoin(IntToString(date.year), MonthAbbrev(date.month)), caseName)
  }

  /** What `create_case` made: the case folder, its note, and the file
      system afterwards. */
  datatype Created = Created(caseDir: string, note: Note, fs: set<string>)

  /** The note file inside a case folder. */
  const CaseNoteFile: string := "Note.json"

  lemma CaseNoteFilePlain()
    ensures PlainName(CaseNoteFile)
  {
    assert forall j :: 0 <= j < |CaseNoteFile| ==> CaseNoteFile[j] != '/';
  }

  /** The case made for a form on a given date: the folder
      `year/month/case name` with every folder above it, `Note.json`
      inside it, and the note built from the form's fields. A case name
      holding `/` makes the folders it spells out; an absolute one replaces
      `year/month`. An existing folder is reused and its note overwritten. */
  function CreateOn(fs: set<string>, form: CaseForm, date: Date): (c: Created)
    requires ValidDate(date)
    ensures c.caseDir == CaseDir(date, CaseNameOf(form))
    ensures c.note == MakeNote(CasePayload(form, Party(form, PetitionerName), Party(form, RespondentName)))
    ensures fs <= c.fs && c.caseDir in c.fs && PathJoin(c.caseDir, CaseNoteFile) in c.fs
    ensures forall a :: a in Ancestors(c.caseDir) ==> a in c.fs
    ensures forall p :: p in c.fs && p !in fs ==>
      p == c.caseDir || p == PathJoin(c.caseDir, CaseNoteFile) || p in Ancestors(c.caseDir)
    ensures ParentsExist(fs) ==> ParentsExist(c.fs)
  {
    var cdir := CaseDir(date, CaseNameOf(form));
    CaseNoteFilePlain();
    Created(cdir, MakeNote(CasePayload(form, Party(form, PetitionerName), Party(form, RespondentName))),
            WriteInto(fs, cdir, CaseNoteFile))
  }

  /** For a case name that is not an absolute path, the year folder and
      the month folder exist after the case is made. */
  lemma CreateMakesYearMonth(fs: set<string>, form: CaseForm, date: Date)
    requires ValidDate(date)
    requires CaseNameOf(form) == [] || CaseNameOf(form)[0] != '/'
    ensures IntToString(date.year) in CreateOn(fs, form, date).fs
    ensures PathJoin(IntToString(date.year), MonthAbbrev(date.month)) in CreateOn(fs, form, date).fs
  {
    var y, m := IntToString(date.year), MonthAbbrev(date.month);
    YearFolder(date.year);
    MonthFolder(date.month);
    TwoLevelsAbove(y, m, CaseNameOf(form));
    assert CreateOn(fs, form, date).caseDir == PathJoin(PathJoin(y, m), CaseNameOf(form));
  }

  /** An absolute case name replaces the year and month folders, as
      pathlib's `/` does: the case folder is the name itself and no year
      folder is made. */
  lemma AbsoluteCaseName(fs: set<string>, form: CaseForm, date: Date)
    requires ValidDate(date)
    requires CaseNameOf(form) != [] && CaseNameOf(form)[0] == '/'
    ensures CreateOn(fs, form, date).caseDir == CaseNameOf(form)
    ensures IntToString(date.year) !in fs ==> IntToString(date.year) !in CreateOn(fs, form, date).fs
  {
    var c := CreateOn(fs, form, date);
    assert c.caseDir == CaseNameOf(form);
    YearFolder(date.year);
    OffRoot(c.caseDir, IntToString(date.year));
  }

  /** A relative folder name is neither an absolute folder, nor a file in
      it, nor a folder above it. */
  lemma OffRoot(dir: string, y: string)
    requires dir != [] && dir[0] == '/' && y != [] && y[0] != '/'
    ensures y != dir && y != PathJoin(dir, CaseNoteFile) && y !in Ancestors(dir)
  {
    assert PathJoin(dir, CaseNoteFile)[0] == '/';
  }

  /** A year folder's name is not empty and has no slash at either end. */
  lemma YearFolder(y: int)
    ensures IntToString(y) != [] && IntToString(y)[|IntToString(y)| - 1] != '/'
    ensures IntToString(y)[0] != '/'
  {
    var d := NatToString(if y < 0 then -y else y);
    assert IsDigit(d[|d| - 1]) && IntToString(y)[|IntToString(y)| - 1] == d[|d| - 1];
    assert IsDigit(d[0]);
  }

  /** A month folder's name has no slash at either end. */
  lemma MonthFolder(m: int)
    requires 1 <= m <= 12
    ensures MonthAbbrev(m) != [] && MonthAbbrev(m)[0] != '/' && MonthAbbrev(m)[|MonthAbbrev(m)| - 1] != '/'
  {
    var s := MonthAbbrev(m);
    assert |s| == 3 && s[0] != '/' && s[2] != '/';
  }

  lemma Year2024Text()
    ensures IntToString(2024) == "2024"
  {
    assert NatToString(2) == "2";
    assert NatToString(20) == NatToString(2) + "0";
    assert NatToString(202) == NatToString(20) + "2";
    assert NatToString(2024) == NatToString(202) + "4";
  }

  /** A case name with a `/` in it, such as "M/s Acme v. State", makes the
      folder its first part names inside the month folder. */
  lemma SlashedCaseName(fs: set<string>, form: CaseForm, date: Date)
    requires ValidDate(date) && date.year == 2024 && date.month == 1
    requires CaseNameOf(form) == "M/s Acme v. State"
    ensures "2024/Jan/M" in CreateOn(fs, form, date).fs
  {
    Year2024Text();
    assert MonthAbbrev(1) == "Jan";
    SlashedParts();
    var c := CreateOn(fs, form, date);
    assert c.caseDir == PathJoin("2024/Jan", CaseNameOf(form));
    FirstPartAbove("2024/Jan", CaseNameOf(form), 1);
    assert "2024/Jan/M" in Ancestors(c.caseDir);
  }

  lemma SlashedParts()
    ensures PathJoin("2024", "Jan") == "2024/Jan"
    ensures var name := "M/s Acme v. State";
      name[0] == 'M' && name[1] == '/' && name[..1] == "M" && PathJoin("2024/Jan", name[..1]) == "2024/Jan/M"
  {
  }

  /** The checks of `create_case`: both parties must be given, and the date
      is the one typed, today when the field is blank. */
  function CreateChecks(pn: string, rn: string, dateText: string, parsed: Option<Date>, today: Date): (r: Result<Date>)
    ensures BuildCaseName(pn, rn) == [] ==>
      r == Err(InvalidArgument("Petitioner Name and Respondent Name are required to form Case Name."))
    ensures r.Ok? <==> BuildCaseName(pn, rn) != [] && DateOrToday(dateText, parsed, today).Ok?
    ensures r.Ok? ==> r == DateOrToday(dateText, parsed, today)
    ensures r.Err? ==> r.error.InvalidArgument?
  {
    if BuildCaseName(pn, rn) == [] then
      Err(InvalidArgument("Petitioner Name and Respondent Name are required to form Case Name."))
    else DateOrToday(dateText, parsed, today)
  }

  /** `create_case`: after its checks the case is made on the case date. */
  function CreateCase(fs: set<string>, form: CaseForm, parsed: Option<Date>, today: Date): (r: Result<Created>)
    requires ValidDate(today) && (parsed.Some? ==> ValidDate(parsed.value))
    ensures var checked := CreateChecks(Party(form, PetitionerName), Party(form, RespondentName),
                                        FormField(form.date), parsed, today);
      && (checked.Err? ==> r == Err(checked.error))
      && (checked.Ok? ==> r == Ok(CreateOn(fs, form, checked.value)))
  {
    var checked := CreateChecks(Party(form, PetitionerName), Party(form, RespondentName),
                                FormField(form.date), parsed, today);
    match checked
    case Err(e) => Err(e)
    case Ok(date) => Ok(CreateOn(fs, form, date))
  }

  /** A field of the layout reads back as the payload gives it. */
  lemma FieldReadsBack(p: Payload, f: Field)
    requires Entry(f) in NoteLayout
    ensures Lookup(MakeNote(p), Entry(f)) == Some(Text(Get(p, f)))
  {
    NoteReadsBack(p, Entry(f));
  }

  /** The note of a new case names the normalised parties. */
  lemma NoteNamesParties(form: CaseForm, pn: string, rn: string)
    ensures Lookup(MakeNote(CasePayload(form, pn, rn)), Entry(PetitionerName)) == Some(Text(pn))
    ensures Lookup(MakeNote(CasePayload(form, pn, rn)), Entry(RespondentName)) == Some(Text(rn))
  {
    FieldReadsBack(CasePayload(form, pn, rn), PetitionerName);
    FieldReadsBack(CasePayload(form, pn, rn), RespondentName);
  }

  /** Every other plain field of a new case's note is kept as submitted. */
  lemma NoteKeepsFields(form: CaseForm, pn: string, rn: string, f: Field)
    requires Entry(f) in NoteLayout && f != PetitionerName && f != RespondentName
    ensures Lookup(MakeNote(CasePayload(form, pn, rn)), Entry(f)) == Some(Text(Get(form.fields, f)))
  {
    FieldReadsBack(CasePayload(form, pn, rn), f);
  }

  /** A case just created is the folder the manage-case upload finds from
      its year, month folder name and case name. */
  lemma CreatedCaseFound(fs: set<string>, form: CaseForm, date: Date, f: ManageCase.ManageForm)
    requires ValidDate(date)
    requires f.year == Some(IntToString(date.year)) && f.month == Some(MonthAbbrev(date.month))
    requires f.caseName == Some(CaseNameOf(form))
    ensures ManageCase.CaseDirOf(f) == CreateOn(fs, form, date).caseDir
    ensures ManageCase.CaseDirOf(f) in CreateOn(fs, form, date).fs
  {
    YearStripped(date.year);
    MonthStripped(date.month);
    CaseDirFound(f, IntToString(date.year), MonthAbbrev(date.month), CaseNameOf(form));
  }

  lemma CaseDirFound(f: ManageCase.ManageForm, year: string, month: string, name: string)
    requires f.year == Some(year) && Strip(year) == year
    requires f.month == Some(month) && Strip(month) == month
    requires f.caseName == Some(name) && IsNormalized(name)
    ensures ManageCase.CaseDirOf(f) == PathJoin(PathJoin(year, month), name)
  {
    NormalizedIsFixed(name);
  }

  lemma YearStripped(y: int)
    ensures Strip(IntToString(y)) == IntToString(y)
  {
    var s := IntToString(y);
    var d := NatToString(if y < 0 then -y else y);
    assert forall i :: 0 <= i < |d| ==> IsDigit(d[i]);
    assert !IsSpace(s[0]) && !IsSpace(s[|s| - 1]);
    StripUnpadded(s);
  }

  lemma MonthStripped(m: int)
    requires 1 <= m <= 12
    ensures Strip(MonthAbbrev(m)) == MonthAbbrev(m)
  {
    var s := MonthAbbrev(m);
    assert |s| == 3 && !IsSpace(s[0]) && !IsSpace(s[2]);
    StripUnpadded(s);
  }
}

=== FILE: catalog.dfy ===
/** The case-law catalog: the `case_law` table as a map from row id to
    record, and the `case_law_fts` full-text table as a map from rowid to
    entry (app.py:82-111). Rows are added by the upload flow and the index
    is kept in step by `refresh_case_law_index` (app.py:136-160). */
module Catalog {
  import opened Wrappers

  /** A `case_law` row, without its timestamps. */
  datatype Record = Record(
    petitioner: string,
    respondent: string,
    citation: string,
    decisionYear: int,
    decisionMonth: string,
    primaryType: string,
    subtype: string,
    folderRel: string,
    fileName: string,
    notePathRel: string,
    noteText: string)

  /** The columns of the `UNIQUE(...)` constraint. */
  datatype MetaKey = MetaKey(
    petitioner: string, respondent: string, citation: string,
    primaryType: string, subtype: string, decisionYear: int)

  function KeyOf(rec: Record): MetaKey {
    MetaKey(rec.petitioner, rec.respondent, rec.citation, rec.primaryType, rec.subtype, rec.decisionYear)
  }

  /** A `case_law_fts` row. */
  datatype FtsEntry = FtsEntry(
    content: string, petitioner: string, respondent: string,
    citation: string, note: string, caseId: int)

  datatype Store = Store(cases: map<nat, Record>, fts: map<nat, FtsEntry>)

  /** No two rows share the metadata tuple. */
  predicate UniqueKeys(cases: map<nat, Record>) {
    forall a, b :: a in cases && b in cases && a != b ==> KeyOf(cases[a]) != KeyOf(cases[b])
  }

  /** The index entry of a row names that row and repeats its parties and
      citation. */
  predicate IndexedAs(e: FtsEntry, id: nat, rec: Record) {
    e.caseId == id && e.petitioner == rec.petitioner && e.respondent == rec.respondent
    && e.citation == rec.citation
  }

  /** Every row has exactly one index entry, the index has no entry without
      a row, and the metadata tuple is unique. */
  predicate Consistent(s: Store) {
    && s.cases.Keys == s.fts.Keys
    && (forall id :: id in s.fts ==> IndexedAs(s.fts[id], id, s.cases[id]))
    && UniqueKeys(s.cases)
  }

  /** `DELETE FROM case_law_fts WHERE rowid = ?` */
  function FtsDelete(fts: map<nat, FtsEntry>, id: nat): (r: map<nat, FtsEntry>)
    ensures id !in r
    ensures forall k :: k != id ==> (k in r <==> k in fts)
    ensures forall k :: k in r ==> r[k] == fts[k]
  {
    fts - {id}
  }

  /** `INSERT INTO case_law_fts(rowid, ...)`: a rowid already in use makes
      the insert fail. */
  function FtsInsert(fts: map<nat, FtsEntry>, id: nat, e: FtsEntry): (r: Result<map<nat, FtsEntry>>)
    ensures r.Err? <==> id in fts
    ensures r.Ok? ==> r.value.Keys == fts.Keys + {id} && r.value[id] == e
    ensures r.Ok? ==> forall k :: k in fts ==> r.value[k] == fts[k]
  {
    if id in fts then Err(Conflict("rowid already in use")) else Ok(fts[id := e])
  }

  /** `refresh_case_law_index`: delete the entry for `id`, then insert a
      fresh one. A missing text (`None`) is stored as "". */
  function RefreshIndex(fts: map<nat, FtsEntry>, id: nat, judgement: Option<string>,
                        petitioner: string, respondent: string, citation: string, note: Option<string>)
    : (r: map<nat, FtsEntry>)
    ensures r.Keys == fts.Keys + {id}
    ensures r[id].caseId == id && r[id].petitioner == petitioner && r[id].respondent == respondent
    ensures r[id].citation == citation
    ensures r[id].content == (if judgement.Some? then judgement.value else "")
    ensures r[id].note == (if note.Some? then note.value else "")
    ensures forall k :: k in fts && k != id ==> r[k] == fts[k]
  {
    var deleted := FtsDelete(fts, id);
    var entry := FtsEntry(judgement.GetOr(""), petitioner, respondent, citation, note.GetOr(""), id);
    FtsInsert(deleted, id, entry).value
  }

  /** Refreshing twice with the same arguments is refreshing once. */
  lemma RefreshIdempotent(fts: map<nat, FtsEntry>, id: nat, judgement: Option<string>,
                          petitioner: string, respondent: string, citation: string, note: Option<string>)
    ensures var once := RefreshIndex(fts, id, judgement, petitioner, respondent, citation, note);
      RefreshIndex(once, id, judgement, petitioner, respondent, citation, note) == once
  {
    var once := RefreshIndex(fts, id, judgement, petitioner, respondent, citation, note);
    var twice := RefreshIndex(once, id, judgement, petitioner, respondent, citation, note);
    assert twice.Keys == once.Keys;
    assert twice[id] == once[id];
    assert forall k :: k in twice ==> twice[k] == once[k];
  }

  /** Inserting a second entry for a rowid without deleting the first fails,
      which is why the refresh deletes first. */
  lemma InsertTwiceFails(fts: map<nat, FtsEntry>, id: nat, e1: FtsEntry, e2: FtsEntry)
    ensures FtsInsert(fts, id, e1).Ok? ==> FtsInsert(FtsInsert(fts, id, e1).value, id, e2).Err?
  {
  }

  /** The id SQLite gives the next row of a table whose rowids are
      `keys`: one more than the largest, or 1 for an empty table. */
  method NextRowId(keys: set<nat>) returns (id: nat)
    ensures id >= 1 && id !in keys
    ensures forall k :: k in keys ==> k < id
    ensures keys == {} ==> id == 1
    ensures keys != {} ==> id - 1 in keys
  {
    var largest: nat := 0;
    var rest := keys;
    ghost var seen: set<nat> := {};
    while rest != {}
      invariant seen + rest == keys
      invariant forall k :: k in seen ==> k <= largest
      invariant largest == 0 || largest in seen
      decreases |rest|
    {
      var k :| k in rest;
      if k > largest {
        largest := k;
      }
      rest := rest - {k};
      seen := seen + {k};
    }
    id := largest + 1;
    if keys != {} && largest == 0 {
      var k :| k in keys;
      assert k in seen;
    }
  }

  /** The row of `cases` carrying the metadata tuple `key`, if any: the
      duplicate check of the upload flow (app.py:1036-1046). */
  method FindDuplicate(cases: map<nat, Record>, key: MetaKey) returns (r: Option<nat>)
    ensures r.Some? ==> r.value in cases && KeyOf(cases[r.value]) == key
    ensures r.None? <==> forall id :: id in cases ==> KeyOf(cases[id]) != key
  {
    if exists id :: id in cases && KeyOf(cases[id]) == key {
      var id :| id in cases && KeyOf(cases[id]) == key;
      r := Some(id);
    } else {
      r := None;
    }
  }

  /** The `INSERT INTO case_law` of a new row followed by its index refresh,
      both committed together. */
  function AddCase(s: Store, id: nat, rec: Record, judgement: Option<string>, noteJson: string): (r: Store)
    requires id !in s.cases
    ensures r.cases.Keys == s.cases.Keys + {id} && r.cases[id] == rec
    ensures forall k :: k in s.cases ==> r.cases[k] == s.cases[k]
    ensures r.fts.Keys == s.fts.Keys + {id}
    ensures r.fts[id].note == noteJson && r.fts[id].content == judgement.GetOr("")
    ensures forall k :: k in s.fts && k != id ==> r.fts[k] == s.fts[k]
  {
    Store(s.cases[id := rec],
          RefreshIndex(s.fts, id, judgement, rec.petitioner, rec.respondent, rec.citation, Some(noteJson)))
  }

  /** Adding a row whose metadata tuple is new keeps the store consistent. */
  lemma AddCaseConsistent(s: Store, id: nat, rec: Record, judgement: Option<string>, noteJson: string)
    requires Consistent(s) && id !in s.cases
    requires forall k :: k in s.cases ==> KeyOf(s.cases[k]) != KeyOf(rec)
    ensures Consistent(AddCase(s, id, rec, judgement, noteJson))
  {
    var r := AddCase(s, id, rec, judgement, noteJson);
    forall k | k in r.fts ensures IndexedAs(r.fts[k], k, r.cases[k]) {
      if k != id {
        assert r.fts[k] == s.fts[k] && r.cases[k] == s.cases[k];
      }
    }
  }

  /** Refreshing the index entry of an existing row with the row's own
      parties and citation keeps the store consistent. */
  lemma RefreshConsistent(s: Store, id: nat, judgement: Option<string>, note: Option<string>)
    requires Consistent(s) && id in s.cases
    ensures var rec := s.cases[id];
      Consistent(Store(s.cases, RefreshIndex(s.fts, id, judgement, rec.petitioner, rec.respondent, rec.citation, note)))
  {
  }
}

=== FILE: digits.dfy ===
/** Decimal rendering and parsing of integers: Python's `str(n)` and
    `int(s)`, and the zero padding `strftime` applies to date fields. */
module Digits {
  import opened Wrappers
  import opened Text

  function DigitChar(d: nat): (c: char)
    requires d < 10
    ensures IsDigit(c)
  {
    ('0' as int + d) as char
  }

  function DigitValue(c: char): (d: nat)
    requires IsDigit(c)
    ensures d < 10
  {
    c as int - '0' as int
  }

  predicate AllDigits(s: string) {
    forall i :: 0 <= i < |s| ==> IsDigit(s[i])
  }

  /** The number a string of decimal digits denotes (leading zeros allowed). */
  function DigitsValue(s: string): nat
    requires AllDigits(s)
  {
    if s == [] then 0 else DigitsValue(s[..|s| - 1]) * 10 + DigitValue(s[|s| - 1])
  }

  function Pow10(k: nat): (p: nat)
    ensures p >= 1
  {
    if k == 0 then 1 else 10 * Pow10(k - 1)
  }

  /** `str(n)` for a natural number: no leading zero. */
  function NatToString(n: nat): (r: string)
    ensures r != [] && AllDigits(r)
    ensures |r| == 1 || r[0] != '0'
    decreases n
  {
    if n < 10 then [DigitChar(n)] else NatToString(n / 10) + [DigitChar(n % 10)]
  }

  /** Reading back what `NatToString` wrote gives the number again. */
  lemma {:induction false} NatToStringRoundTrip(n: nat)
    ensures DigitsValue(NatToString(n)) == n
    decreases n
  {
    if n >= 10 {
      var s := NatToString(n);
      assert s[..|s| - 1] == NatToString(n / 10);
      NatToStringRoundTrip(n / 10);
    }
  }

  lemma NatToStringInjective(m: nat, n: nat)
    requires NatToString(m) == NatToString(n)
    ensures m == n
  {
    NatToStringRoundTrip(m);
    NatToStringRoundTrip(n);
  }

  lemma {:induction false} NatToStringLength(n: nat, k: nat)
    requires n < Pow10(k) && k >= 1
    ensures |NatToString(n)| <= k
    decreases n
  {
    if n >= 10 {
      NatToStringLength(n / 10, k - 1);
    }
  }

  function Zeros(k: nat): (r: string)
    ensures |r| == k && AllDigits(r)
    ensures forall i :: 0 <= i < k ==> r[i] == '0'
  {
    seq(k, i => '0')
  }

  lemma {:induction false} LeadingZeros(k: nat, s: string)
    requires AllDigits(s)
    ensures AllDigits(Zeros(k) + s)
    ensures DigitsValue(Zeros(k) + s) == DigitsValue(s)
    decreases |s|
  {
    var z := Zeros(k) + s;
    if s == [] {
      assert z == Zeros(k);
      ZerosValue(k);
    } else {
      assert z[..|z| - 1] == Zeros(k) + s[..|s| - 1];
      LeadingZeros(k, s[..|s| - 1]);
    }
  }

  lemma {:induction false} ZerosValue(k: nat)
    ensures DigitsValue(Zeros(k)) == 0
  {
    if k > 0 {
      assert Zeros(k)[..k - 1] == Zeros(k - 1);
      ZerosValue(k - 1);
    }
  }

  /** `n` written with at least `width` digits, padded on the left with
      zeros (the `%d`, `%m` and `%Y` fields of `strftime`). */
  function ZeroPad(n: nat, width: nat): (r: string)
    requires n < Pow10(width) && width >= 1
    ensures |r| == width && AllDigits(r)
    ensures DigitsValue(r) == n
  {
    NatToStringLength(n, width);
    NatToStringRoundTrip(n);
    LeadingZeros(width - |NatToString(n)|, NatToString(n));
    Zeros(width - |NatToString(n)|) + NatToString(n)
  }

  /** `str(n)` for any integer. */
  function IntToString(n: int): string {
    if n < 0 then "-" + NatToString(-n) else NatToString(n)
  }

  function ParseNat(s: string): (r: Option<nat>)
    ensures r.Some? <==> s != [] && AllDigits(s)
  {
    if s != [] && AllDigits(s) then Some(DigitsValue(s)) else None
  }

  /** Python's `int(s)` on ASCII input: surrounding whitespace is ignored and
      one optional sign may precede the digits; anything else is a
      `ValueError`, modelled as `None`. */
  function ParseInt(s: string): Option<int> {
    ParseSignedDigits(Strip(s))
  }

  /** `int` on text without surrounding whitespace. */
  function ParseSignedDigits(t: string): Option<int> {
    var signed := t != [] && (t[0] == '-' || t[0] == '+');
    var digits := if signed then t[1..] else t;
    if digits != [] && AllDigits(digits) then
      var v := DigitsValue(digits) as int;
      Some(if signed && t[0] == '-' then -v else v)
    else None
  }

  /** An unpadded run of digits reads as its value. */
  lemma ParseUnsigned(s: string)
    requires s != [] && AllDigits(s)
    ensures ParseInt(s) == Some(DigitsValue(s) as int)
  {
    assert IsDigit(s[0]) && IsDigit(s[|s| - 1]);
    StripUnpadded(s);
    UnsignedDigits(s);
  }

  lemma UnsignedDigits(t: string)
    requires t != [] && AllDigits(t)
    ensures ParseSignedDigits(t) == Some(DigitsValue(t) as int)
  {
    assert IsDigit(t[0]);
  }

  /** A minus sign before an unpadded run of digits reads as its negation. */
  lemma ParseSigned(s: string, d: string, n: int)
    requires d != [] && AllDigits(d) && s == "-" + d && DigitsValue(d) == -n
    ensures ParseInt(s) == Some(n)
  {
    assert IsDigit(s[|s| - 1]);
    StripUnpadded(s);
    NegatedDigits(s, d, n);
  }

  lemma NegatedDigits(t: string, d: string, n: int)
    requires d != [] && AllDigits(d) && t == "-" + d && DigitsValue(d) == -n
    ensures ParseSignedDigits(t) == Some(n)
  {
    assert t[0] == '-' && t[1..] == d;
  }

  /** `int(str(n)) == n` */
  lemma ParseIntRoundTrip(n: int)
    ensures ParseInt(IntToString(n)) == Some(n)
  {
    if n < 0 {
      var d := NatToString(-n);
      NatToStringRoundTrip(-n);
      NegativeText(n, d);
      ParseSigned(IntToString(n), d, n);
    } else {
      ParseUnsigned(IntToString(n));
      NatToStringRoundTrip(n);
    }
  }

  lemma NegativeText(n: int, d: string)
    requires n < 0 && d == NatToString(-n)
    ensures IntToString(n) == "-" + d
  {
  }
}

=== FILE: jail.dfy ===
/** The root jail of the case-law store: a stored record's file and note
    are served only from paths that canonicalise to somewhere under the
    storage root. Canonicalisation (`Path.resolve`) is a parameter, an
    arbitrary function from path to path; only the guard is modelled. */
module Jail {
  import opened Wrappers
  import opened Text
  import opened Paths

  /** `case_law_file_path` (app.py:397-403) as written: the resolved file
      path is accepted when its text starts with the resolved root. */
  function CaseLawFilePath(root: string, folderRel: string, fileName: string, resolve: string -> string)
    : (r: Result<string>)
    ensures r.Ok? <==> StartsWith(resolve(PathJoin(resolve(PathJoin(root, folderRel)), fileName)), resolve(root))
    ensures r.Ok? ==> StartsWith(r.value, resolve(root))
    ensures r.Ok? ==> r.value == resolve(PathJoin(resolve(PathJoin(root, folderRel)), fileName))
    ensures r.Err? ==> r.error.OutOfBounds?
  {
    var base := resolve(PathJoin(root, folderRel));
    var full := resolve(PathJoin(base, fileName));
    if StartsWith(full, resolve(root)) then Ok(full)
    else Err(OutOfBounds("Resolved file path escapes storage root"))
  }

  /** `case_law_note_path` (app.py:406-411) as written. */
  function CaseLawNotePath(root: string, noteRel: string, resolve: string -> string): (r: Result<string>)
    ensures r.Ok? <==> StartsWith(resolve(PathJoin(root, noteRel)), resolve(root))
    ensures r.Ok? ==> StartsWith(r.value, resolve(root))
    ensures r.Ok? ==> r.value == resolve(PathJoin(root, noteRel))
    ensures r.Err? ==> r.error.OutOfBounds?
  {
    var note := resolve(PathJoin(root, noteRel));
    if StartsWith(note, resolve(root)) then Ok(note)
    else Err(OutOfBounds("Resolved note path escapes storage root"))
  }

  /** The guard accepts any directory whose name extends the root's name:
      with the root at `/srv/cases`, a record whose folder resolves into
      the sibling `/srv/cases-old` is served. */
  lemma SiblingEscapesJail(root: string, folderRel: string, fileName: string, resolve: string -> string)
    requires root == "/srv/cases" && folderRel == "../cases-old" && fileName == "x.pdf"
    requires resolve(root) == root
    requires resolve("/srv/cases/../cases-old") == "/srv/cases-old"
    requires resolve("/srv/cases-old/x.pdf") == "/srv/cases-old/x.pdf"
    ensures CaseLawFilePath(root, folderRel, fileName, resolve) == Ok("/srv/cases-old/x.pdf")
    ensures !Inside("/srv/cases-old/x.pdf", resolve(root))
  {
    assert PathJoin(root, folderRel) == "/srv/cases/../cases-old";
    assert PathJoin("/srv/cases-old", fileName) == "/srv/cases-old/x.pdf";
    assert "/srv/cases-old/x.pdf"[..|root|] == root;
    assert "/srv/cases-old/x.pdf"[10] == '-';
    SiblingRejected("/srv/cases-old/x.pdf", root);
  }

  /** `root` read as a directory: with exactly one trailing separator when
      it did not end in one already. */
  function AsDir(root: string): (d: string)
    ensures d != [] && d[|d| - 1] == '/'
    ensures StartsWith(d, root)
  {
    if root != [] && root[|root| - 1] == '/' then root else root + "/"
  }

  /** `p` is the root itself or lies below it, component-wise. */
  predicate Inside(p: string, root: string) {
    p == root || StartsWith(p, AsDir(root))
  }

  /** A path that only extends the root's last component is not inside it. */
  lemma SiblingRejected(p: string, root: string)
    requires root != [] && root[|root| - 1] != '/'
    requires StartsWith(p, root) && |p| > |root| && p[|root|] != '/'
    ensures !Inside(p, root)
  {
    var d := AsDir(root);
    assert d == root + "/" && d[|root|] == '/';
    assert |p| >= |d| ==> p[..|d|][|root|] == p[|root|];
  }

  /** Joining a relative name onto a root stays inside that root. */
  lemma JoinInside(root: string, rel: string)
    requires root != []
    requires rel == [] || rel[0] != '/'
    ensures Inside(PathJoin(root, rel), root)
  {
    var p := PathJoin(root, rel);
    assert p == AsDir(root) + rel;
    assert p[..|AsDir(root)|] == AsDir(root);
  }

  /** Whatever is inside the root starts with the root's text, so the
      component-wise test is never looser than the textual one. */
  lemma InsideStartsWith(p: string, root: string)
    requires Inside(p, root)
    ensures StartsWith(p, root)
  {
    if p != root {
      var d := AsDir(root);
      assert p[..|root|] == d[..|root|];
    }
  }

  /** The file lookup with the guard corrected to the component-wise test. */
  function SafeFilePath(root: string, folderRel: string, fileName: string, resolve: string -> string)
    : (r: Result<string>)
    ensures r.Ok? <==> Inside(resolve(PathJoin(resolve(PathJoin(root, folderRel)), fileName)), resolve(root))
    ensures r.Ok? ==> r.value == resolve(PathJoin(resolve(PathJoin(root, folderRel)), fileName))
    ensures r.Err? ==> r.error.OutOfBounds?
  {
    var base := resolve(PathJoin(root, folderRel));
    var full := resolve(PathJoin(base, fileName));
    if Inside(full, resolve(root)) then Ok(full)
    else Err(OutOfBounds("Resolved file path escapes storage root"))
  }

  /** The note lookup with the guard corrected to the component-wise test. */
  function SafeNotePath(root: string, noteRel: string, resolve: string -> string): (r: Result<string>)
    ensures r.Ok? <==> Inside(resolve(PathJoin(root, noteRel)), resolve(root))
    ensures r.Ok? ==> r.value == resolve(PathJoin(root, noteRel))
    ensures r.Err? ==> r.error.OutOfBounds?
  {
    var note := resolve(PathJoin(root, noteRel));
    if Inside(note, resolve(root)) then Ok(note)
    else Err(OutOfBounds("Resolved note path escapes storage root"))
  }

  /** The corrected lookups accept a subset of what the written ones accept,
      and agree on the path whenever both accept. */
  lemma SafeIsStricter(root: string, folderRel: string, fileName: string, noteRel: string, resolve: string -> string)
    ensures SafeFilePath(root, folderRel, fileName, resolve).Ok? ==>
      CaseLawFilePath(root, folderRel, fileName, resolve) == SafeFilePath(root, folderRel, fileName, resolve)
    ensures SafeNotePath(root, noteRel, resolve).Ok? ==>
      CaseLawNotePath(root, noteRel, resolve) == SafeNotePath(root, noteRel, resolve)
  {
    var full := resolve(PathJoin(resolve(PathJoin(root, folderRel)), fileName));
    if Inside(full, resolve(root)) { InsideStartsWith(full, resolve(root)); }
    var note := resolve(PathJoin(root, noteRel));
    if Inside(note, resolve(root)) { InsideStartsWith(note, resolve(root)); }
  }

  /** With a canonicaliser that leaves the joined paths as they are, a
      relative note path under a non-empty root is always accepted. */
  lemma SafeNoteAcceptsRelative(root: string, noteRel: string, resolve: string -> string)
    requires root != [] && (noteRel == [] || noteRel[0] != '/')
    requires resolve(root) == root
    requires resolve(PathJoin(root, noteRel)) == PathJoin(root, noteRel)
    ensures SafeNotePath(root, noteRel, resolve) == Ok(PathJoin(root, noteRel))
  {
    JoinInside(root, noteRel);
  }
}

=== FILE: manage.dfy ===
/** The manage-case upload `manage_case_upload` (app.py:672-793, and the
    same handler in debian/case-organizer/opt/case-organizer/app.py:396-516):
    files are added to an existing case folder, named either after the main
    type (the case-law branch) or by the regular naming rule, and each is
    given the first free `_N` variant of its name. Paths are relative to the
    storage root; the file system is the set of paths that exist. */
module ManageCase {
  import opened Wrappers
  import opened Text
  import opened Paths
  import opened Calendar
  import opened Naming
  import opened Placement

  /** The submitted form; `None` is an absent field. */
  datatype ManageForm = ManageForm(
    year: Option<string>, month: Option<string>, caseName: Option<string>, domain: Option<string>,
    subcategory: Option<string>, mainType: Option<string>, date: Option<string>)

  /** One part of the multi-file upload: the client's file name ("" for an
      empty part) and what `secure_filename` made of it. */
  datatype FilePart = FilePart(fileName: string, safeName: string)

  /** A part that is saved: it has a name with an allowed extension. */
  predicate Usable(p: FilePart, allowed: set<string>) {
    p.fileName != [] && AllowedFile(p.fileName, allowed)
  }

  /** The elements of `xs` that `keep` accepts, in order. */
  function Filter<T>(xs: seq<T>, keep: T -> bool): (r: seq<T>)
    ensures |r| <= |xs|
    decreases |xs|
  {
    if xs == [] then []
    else
      var init := xs[..|xs| - 1];
      var last := xs[|xs| - 1];
      assert xs == init + [last];
      Filter(init, keep) + (if keep(last) then [last] else [])
  }

  /** Filtering a sequence split in two is filtering each half: the kept
      elements keep their order. */
  lemma {:induction false} FilterConcat<T>(a: seq<T>, b: seq<T>, keep: T -> bool)
    ensures Filter(a + b, keep) == Filter(a, keep) + Filter(b, keep)
    decreases |b|
  {
    if b == [] {
      assert a + b == a;
    } else {
      var init := b[..|b| - 1];
      assert (a + b)[..|a + b| - 1] == a + init;
      assert (a + b)[|a + b| - 1] == b[|b| - 1];
      FilterConcat(a, init, keep);
    }
  }

  /** Each element is kept as often as it occurs, if `keep` accepts it. */
  lemma {:induction false} FilterCount<T>(xs: seq<T>, keep: T -> bool, x: T)
    ensures multiset(Filter(xs, keep))[x] == if keep(x) then multiset(xs)[x] else 0
    decreases |xs|
  {
    if xs != [] {
      var init := xs[..|xs| - 1];
      assert xs == init + [xs[|xs| - 1]];
      FilterCount(init, keep, x);
    }
  }

  /** The saved parts, in upload order: each usable part as often as it was
      uploaded, and nothing else. */
  function UsableParts(files: seq<FilePart>, allowed: set<string>): (r: seq<FilePart>)
    ensures |r| <= |files|
    ensures forall p :: multiset(r)[p] == if Usable(p, allowed) then multiset(files)[p] else 0
    ensures forall k :: 0 <= k < |r| ==> Usable(r[k], allowed) && r[k] in files
    ensures forall k :: 0 <= k < |files| && Usable(files[k], allowed) ==> files[k] in r
  {
    var keep := p => Usable(p, allowed);
    var r := Filter(files, keep);
    forall p
      ensures multiset(r)[p] == if Usable(p, allowed) then multiset(files)[p] else 0
    {
      FilterCount(files, keep, p);
    }
    assert forall k :: 0 <= k < |r| ==> multiset(r)[r[k]] > 0;
    assert forall k :: 0 <= k < |files| ==> multiset(files)[files[k]] > 0;
    r
  }

  /** Filtering an upload split in two is filtering each half: the saved
      parts keep their upload order. */
  lemma UsablePartsConcat(a: seq<FilePart>, b: seq<FilePart>, allowed: set<string>)
    ensures UsableParts(a + b, allowed) == UsableParts(a, allowed) + UsableParts(b, allowed)
  {
    FilterConcat(a, b, p => Usable(p, allowed));
  }

  /** How the stored name is chosen: the case-law branch names a file after
      the main type, the regular branch follows the naming rule of the
      regular categories. */
  datatype NameRule =
    | CaseLawRule(mainType: string)
    | RegularRule(subcategory: string, mainType: string, domain: string, caseName: string, date: Date)

  predicate RuleOk(rule: NameRule) {
    rule.RegularRule? ==> ValidDate(rule.date)
  }

  /** The name a usable part is stored under before disambiguation. */
  function StoredName(rule: NameRule, p: FilePart, allowed: set<string>): (r: string)
    requires RuleOk(rule) && Usable(p, allowed)
    ensures EndsWith(r, "." + Extension(p.fileName))
    ensures rule.CaseLawRule? ==> r == CaseLawBase(rule.mainType, p.safeName) + "." + Extension(p.fileName)
    ensures rule.RegularRule? && KeepsOriginalName(rule.subcategory, rule.mainType) ==>
      r == SafeStem(p.safeName) + " - " + rule.caseName + "." + Extension(p.fileName)
    ensures rule.RegularRule? && !KeepsOriginalName(rule.subcategory, rule.mainType) ==>
      r == BuildFilename(rule.date, rule.mainType, rule.domain, rule.caseName, Extension(p.fileName))
  {
    var ext := Extension(p.fileName);
    match rule
    case CaseLawRule(mainType) => CaseLawBranchName(mainType, p.safeName, ext)
    case RegularRule(subcategory, mainType, domain, caseName, date) =>
      var r := RegularUploadName(subcategory, mainType, domain, caseName, date, p.safeName, ext);
      EndsInExtension(r, caseName, ext);
      r
  }

  lemma EndsInExtension(r: string, caseName: string, ext: string)
    requires EndsWith(r, " " + caseName + "." + ext)
    ensures EndsWith(r, "." + ext)
  {
    var tail := " " + caseName + "." + ext;
    assert tail[|tail| - |"." + ext|..] == "." + ext;
    assert r[|r| - |"." + ext|..] == tail[|tail| - |"." + ext|..];
  }

  /** `dest` is what the `_N` loop picks for `name` in `dir` against the
      taken paths `taken`: `dir/name` when it is free, otherwise the `_N`
      variant of its final component for the smallest free N >= 1. */
  ghost predicate FreeVariant(taken: set<string>, dir: string, name: string, dest: string) {
    FirstFree(taken, PathJoin(dir, name), dir, PathStem(BaseName(PathJoin(dir, name))),
              PathSuffix(BaseName(PathJoin(dir, name))), Underscored, dest)
  }

  /** The names of the saved parts, in upload order. */
  function StoredNames(rule: NameRule, parts: seq<FilePart>, allowed: set<string>): (r: seq<string>)
    requires RuleOk(rule) && forall k :: 0 <= k < |parts| ==> Usable(parts[k], allowed)
    ensures |r| == |parts| && forall k :: 0 <= k < |parts| ==> r[k] == StoredName(rule, parts[k], allowed)
  {
    seq(|parts|, k requires 0 <= k < |parts| => StoredName(rule, parts[k], allowed))
  }

  /** The names the usable parts of an upload are stored under, in upload
      order, before disambiguation. */
  function UploadNames(f: ManageForm, date: Date, files: seq<FilePart>, allowed: set<string>): (r: seq<string>)
    requires ValidDate(date)
    ensures |r| == |UsableParts(files, allowed)|
    ensures forall k :: 0 <= k < |r| ==> r[k] == StoredName(RuleOf(f, date), UsableParts(files, allowed)[k], allowed)
  {
    StoredNames(RuleOf(f, date), UsableParts(files, allowed), allowed)
  }

  /** The folder `p` would be written into exists in `fs` (the storage
      root, written "", always does). The model does not tell files from
      folders. */
  predicate FolderThere(fs: set<string>, p: string) {
    Parent(p) == [] || Parent(p) in fs
  }

  /** `shutil.copyfile` onto `dest`: the path is free, so it is written
      itself, but its folder is missing, so the copy raises. */
  predicate CopyFails(fs: set<string>, fs': set<string>, dest: string) {
    dest !in fs' && !FolderThere(fs, dest)
  }

  /** The paths taken when the `k`-th name is stored: those of `fs` and
      the ones saved before it. */
  function TakenBefore(fs: set<string>, saved: seq<string>, k: nat): set<string>
    requires k <= |saved|
    decreases k
  {
    if k == 0 then fs else TakenBefore(fs, saved, k - 1) + {saved[k - 1]}
  }

  /** `saved` are the paths the names `names` were stored at in `dir`, one
      each and in order: each is the name's own path when that was free,
      otherwise its first free `_N` variant, against `fs` and the paths
      saved before it; each was written into a folder that existed unless
      the name's own path was taken (and a variant in `dir` used); and
      `fs'` is `fs` with them added. */
  ghost predicate SavedAs(fs: set<string>, dir: string, names: seq<string>, saved: seq<string>, fs': set<string>) {
    && InOrder(fs, dir, names, saved)
    && (forall k :: 0 <= k < |saved| ==> PathJoin(dir, names[k]) in fs' || FolderThere(fs, PathJoin(dir, names[k])))
    && (forall j, k :: 0 <= j < k < |saved| ==> saved[j] != saved[k])
    && (forall x :: x in fs' <==> x in fs || x in saved)
  }

  /** Each name is stored at what the `_N` loop picks against `fs` and the
      paths saved before it. */
  ghost predicate InOrder(fs: set<string>, dir: string, names: seq<string>, saved: seq<string>) {
    && |saved| == |names|
    && forall k {:trigger names[k]} :: 0 <= k < |saved| ==>
         saved[k] !in fs && FreeVariant(TakenBefore(fs, saved, k), dir, names[k], saved[k])
  }

  /** The saved paths are determined by the names: two runs over the same
      names in the same folder store them at the same paths. */
  lemma SavedAsDetermined(fs: set<string>, dir: string, names: seq<string>,
                          saved1: seq<string>, fs1: set<string>, saved2: seq<string>, fs2: set<string>)
    requires SavedAs(fs, dir, names, saved1, fs1) && SavedAs(fs, dir, names, saved2, fs2)
    ensures saved1 == saved2 && fs1 == fs2
  {
    SamePrefix(fs, dir, names, saved1, saved2, |names|);
    assert forall x :: x in fs1 <==> x in fs2;
  }

  lemma {:induction false} SamePrefix(fs: set<string>, dir: string, names: seq<string>,
                                      saved1: seq<string>, saved2: seq<string>, k: nat)
    requires InOrder(fs, dir, names, saved1) && InOrder(fs, dir, names, saved2)
    requires k <= |names|
    ensures forall j :: 0 <= j < k ==> saved1[j] == saved2[j]
  {
    if k > 0 {
      SamePrefix(fs, dir, names, saved1, saved2, k - 1);
      StepAgrees(fs, dir, names, saved1, saved2, k - 1);
    }
  }

  /** A name whose own path is free is saved there: with `d/a.pdf` free,
      the first part goes to `d/a.pdf` and to no `_N` variant. */
  lemma FreeNameKept(fs: set<string>, dir: string, names: seq<string>, saved: seq<string>, fs': set<string>)
    requires SavedAs(fs, dir, names, saved, fs') && names != [] && PathJoin(dir, names[0]) !in fs
    ensures saved[0] == PathJoin(dir, names[0])
  {
    assert FreeVariant(TakenBefore(fs, saved, 0), dir, names[0], saved[0]);
  }

  /** Runs that agree before position `i` pick the same path at `i`. */
  lemma StepAgrees(fs: set<string>, dir: string, names: seq<string>, saved1: seq<string>, saved2: seq<string>, i: nat)
    requires InOrder(fs, dir, names, saved1) && InOrder(fs, dir, names, saved2)
    requires i < |names| && forall j :: 0 <= j < i ==> saved1[j] == saved2[j]
    ensures saved1[i] == saved2[i]
  {
    TakenBeforeAgree(fs, saved1, saved2, i);
    var taken := TakenBefore(fs, saved1, i);
    assert FreeVariant(taken, dir, names[i], saved1[i]);
    assert FreeVariant(taken, dir, names[i], saved2[i]);
    FreeVariantUnique(taken, dir, names[i], saved1[i], saved2[i]);
  }

  /** The `_N` loop's pick is determined by the taken paths. */
  lemma FreeVariantUnique(taken: set<string>, dir: string, name: string, p: string, q: string)
    requires FreeVariant(taken, dir, name, p) && FreeVariant(taken, dir, name, q)
    ensures p == q
  {
    var b := BaseName(PathJoin(dir, name));
    FirstFreeUnique(taken, PathJoin(dir, name), dir, PathStem(b), PathSuffix(b), Underscored, p, q);
  }

  /** The taken paths depend only on the paths saved so far. */
  lemma {:induction false} TakenBeforeAgree(fs: set<string>, a: seq<string>, b: seq<string>, k: nat)
    requires k <= |a| && k <= |b| && forall j :: 0 <= j < k ==> a[j] == b[j]
    ensures TakenBefore(fs, a, k) == TakenBefore(fs, b, k)
    decreases k
  {
    if k > 0 {
      TakenBeforeAgree(fs, a, b, k - 1);
    }
  }

  /** Once every name is saved, the taken paths are exactly the ones
      recorded. */
  lemma TakenAll(fs: set<string>, saved: seq<string>, fs': set<string>)
    requires forall x :: x in fs' <==> x in fs || x in saved
    ensures TakenBefore(fs, saved, |saved|) == fs'
  {
    TakenBeforeMembers(fs, saved, |saved|);
    assert saved[..|saved|] == saved;
  }

  lemma {:induction false} TakenBeforeMembers(fs: set<string>, saved: seq<string>, k: nat)
    requires k <= |saved|
    ensures forall x :: x in TakenBefore(fs, saved, k) <==> x in fs || x in saved[..k]
    decreases k
  {
    if k > 0 {
      TakenBeforeMembers(fs, saved, k - 1);
      assert saved[..k] == saved[..k - 1] + [saved[k - 1]];
    }
  }

  /** The loop over the saved parts: each name is stored under its first
      free `_N` variant in `dir`. The variants are built in `dir` from the
      last component of the name, so only a name whose own path is free
      is written into a sub-folder the name spells out; when that folder
      is missing the copy raises and the loop stops there, keeping what
      it saved. The temporary copy each part passes through is left out. */
  method SaveNames(fs: set<string>, dir: string, names: seq<string>)
    returns (saved: seq<string>, fs': set<string>, stopped: bool)
    ensures |saved| <= |names|
    ensures SavedAs(fs, dir, names[..|saved|], saved, fs')
    ensures stopped <==> |saved| < |names|
    ensures stopped ==> CopyFails(fs, fs', PathJoin(dir, names[|saved|]))
  {
    saved, fs', stopped := [], fs, false;
    assert names[..0] == [];
    var i := 0;
    while i < |names| && !stopped
      invariant 0 <= i <= |names| && |saved| == i
      invariant SavedAs(fs, dir, names[..i], saved, fs')
      invariant stopped ==> i < |names| && CopyFails(fs, fs', PathJoin(dir, names[i]))
      decreases |names| - i, if stopped then 0 else 1
    {
      if CopyFails(fs, fs', PathJoin(dir, names[i])) {
        stopped := true;
      } else {
        var dest := StoreOne(fs', dir, names[i]);
        SavedStep(fs, dir, names, i, saved, fs', dest);
        saved := saved + [dest];
        fs' := fs' + {dest};
        i := i + 1;
      }
    }
  }

  /** The first free `_N` variant of `name` in `dir`: the name's own path
      when it is free, otherwise the variant for the smallest free N. */
  method StoreOne(existing: set<string>, dir: string, name: string) returns (dest: string)
    ensures dest !in existing && FreeVariant(existing, dir, name, dest)
  {
    var n;
    dest, n := UnderscoreUnique(existing, dir, name);
  }

  /** One more name stored at a fresh path, with its folder there unless
      its own path was taken. */
  lemma SavedStep(fs: set<string>, dir: string, names: seq<string>, i: int, saved: seq<string>,
                  fs': set<string>, dest: string)
    requires 0 <= i < |names|
    requires SavedAs(fs, dir, names[..i], saved, fs')
    requires dest !in fs' && FreeVariant(fs', dir, names[i], dest)
    requires !CopyFails(fs, fs', PathJoin(dir, names[i]))
    ensures SavedAs(fs, dir, names[..i + 1], saved + [dest], fs' + {dest})
  {
    var before, after := names[..i], names[..i + 1];
    var saved', fs'' := saved + [dest], fs' + {dest};
    InOrderStep(fs, dir, names, i, saved, fs', dest);
    forall k | 0 <= k < i + 1
      ensures PathJoin(dir, after[k]) in fs'' || FolderThere(fs, PathJoin(dir, after[k]))
    {
      if k < i {
        assert after[k] == before[k];
      } else {
        assert after[k] == names[i];
      }
    }
    forall j, k | 0 <= j < k < i + 1
      ensures saved'[j] != saved'[k]
    {
      assert saved'[j] == saved[j] && saved[j] in fs';
    }
    assert forall x :: x in fs'' <==> x in fs || x in saved';
  }

  /** The freshness facts of `SavedAs` for one more name. */
  lemma InOrderStep(fs: set<string>, dir: string, names: seq<string>, i: int, saved: seq<string>,
                    fs': set<string>, dest: string)
    requires 0 <= i < |names|
    requires InOrder(fs, dir, names[..i], saved) && (forall x :: x in fs' <==> x in fs || x in saved)
    requires dest !in fs' && FreeVariant(fs', dir, names[i], dest)
    ensures InOrder(fs, dir, names[..i + 1], saved + [dest])
  {
    var before, after, saved' := names[..i], names[..i + 1], saved + [dest];
    forall k | 0 <= k < i + 1
      ensures saved'[k] !in fs && FreeVariant(TakenBefore(fs, saved', k), dir, after[k], saved'[k])
    {
      TakenBeforeAgree(fs, saved', saved, k);
      if k < i {
        assert after[k] == before[k] && saved'[k] == saved[k];
      } else {
        assert after[k] == names[i] && saved'[k] == dest;
        TakenAll(fs, saved, fs');
      }
    }
  }

  /** The stripped year and month and the normalised case name. */
  function YearSel(f: ManageForm): string { Strip(f.year.GetOr("")) }
  function MonthSel(f: ManageForm): string { Strip(f.month.GetOr("")) }

  /** `FS_ROOT / year / month / case_name`, relative to the root. */
  function CaseDirOf(f: ManageForm): string {
    PathJoin(PathJoin(YearSel(f), MonthSel(f)), FormField(f.caseName))
  }

  /** The domain "case law", in any case. */
  predicate IsCaseLaw(f: ManageForm) {
    Lower(FormField(f.domain)) == "case law"
  }

  /** `cdir / "Case Laws"` for case law, `cdir / subcategory` when a
      subcategory is given, the case folder itself otherwise. */
  function TargetDir(f: ManageForm): string {
    if IsCaseLaw(f) then PathJoin(CaseDirOf(f), "Case Laws")
    else if FormField(f.subcategory) != [] then PathJoin(CaseDirOf(f), FormField(f.subcategory))
    else CaseDirOf(f)
  }

  /** The naming rule of the form's branch. */
  function RuleOf(f: ManageForm, date: Date): (rule: NameRule)
    ensures rule.CaseLawRule? <==> IsCaseLaw(f)
  {
    if IsCaseLaw(f) then CaseLawRule(FormField(f.mainType))
    else RegularRule(FormField(f.subcategory), FormField(f.mainType), FormField(f.domain), FormField(f.caseName), date)
  }

  /** The checks made before anything is written, in their order; the
      result is the date of the typed scheme. */
  function ManageChecks(fs: set<string>, f: ManageForm, fileCount: nat, parsed: Option<Date>, today: Date)
    : (r: Result<Date>)
    ensures r.Ok? <==>
      (&& YearSel(f) != [] && MonthSel(f) != [] && FormField(f.caseName) != []
       && FormField(f.domain) != [] && DateOrToday(FormField(f.date), parsed, today).Ok?
       && fileCount > 0 && CaseDirOf(f) in fs)
    ensures r.Ok? ==> r == DateOrToday(FormField(f.date), parsed, today)
    ensures r.Err? ==> r.error.InvalidArgument?
    ensures (YearSel(f) == [] || MonthSel(f) == [] || FormField(f.caseName) == []) ==>
      r == Err(InvalidArgument("Year, Month, and Case Name are required."))
  {
    if YearSel(f) == [] || MonthSel(f) == [] || FormField(f.caseName) == [] then
      Err(InvalidArgument("Year, Month, and Case Name are required."))
    else if FormField(f.domain) == [] then Err(InvalidArgument("Case Category (Domain) is required."))
    else match DateOrToday(FormField(f.date), parsed, today)
      case Err(e) => Err(e)
      case Ok(date) =>
        if fileCount == 0 then Err(InvalidArgument("No files provided."))
        else if CaseDirOf(f) !in fs then Err(InvalidArgument("Case directory does not exist. Create the case first."))
        else Ok(date)
  }

  /** Saving a batch of names into `dir`, which is made first together
      with every missing folder above it (`mkdir(parents=True)`): failing
      when there is nothing to save, and with the copy's exception when a
      name's folder is missing. Names that are single components never
      fail, since their folder is `dir`. */
  method SaveBatch(fs: set<string>, dir: string, names: seq<string>)
    returns (r: Result<seq<string>>, fs': set<string>, saved: seq<string>)
    ensures names == [] ==>
      r == Err(InvalidArgument("No files were saved (unsupported type?)")) && fs' == MakeDirs(fs, dir) && saved == []
    ensures |saved| <= |names| && SavedAs(MakeDirs(fs, dir), dir, names[..|saved|], saved, fs')
    ensures r.Ok? <==> names != [] && |saved| == |names|
    ensures r.Ok? ==> r.value == saved
    ensures names != [] && |saved| < |names| ==>
      r == Err(Unhandled("No such file or directory"))
      && CopyFails(MakeDirs(fs, dir), fs', PathJoin(dir, names[|saved|]))
    ensures dir != [] && dir[|dir| - 1] != '/' && (forall k :: 0 <= k < |names| ==> PlainName(names[k])) ==>
      |saved| == |names|
  {
    var stopped;
    saved, fs', stopped := SaveNames(MakeDirs(fs, dir), dir, names);
    if dir != [] && dir[|dir| - 1] != '/' && stopped && PlainName(names[|saved|]) {
      JoinParts(dir, names[|saved|]);
      assert false;
    }
    if names == [] {
      assert names[..0] == [];
      return Err(InvalidArgument("No files were saved (unsupported type?)")), MakeDirs(fs, dir), [];
    }
    if stopped {
      return Err(Unhandled("No such file or directory")), fs', saved;
    }
    r := Ok(saved);
  }

  /** `manage_case_upload`: after the checks the target folder, and every
      folder a nested subcategory spells out on the way to it, is made sure
      of and every usable part is saved into it, skipping empty parts and
      disallowed extensions. A form that fails a check changes nothing;
      when no part is usable the target folder stays created and the
      request fails; when a stored name spells out a sub-folder that is
      missing, the copy raises and the parts saved before it stay. */
  method ManageUpload(fs: set<string>, f: ManageForm, files: seq<FilePart>, allowed: set<string>,
                      parsed: Option<Date>, today: Date)
    returns (r: Result<seq<string>>, fs': set<string>, saved: seq<string>)
    requires ValidDate(today) && (parsed.Some? ==> ValidDate(parsed.value))
    ensures ManageChecks(fs, f, |files|, parsed, today).Err? ==>
      r == Err(ManageChecks(fs, f, |files|, parsed, today).error) && fs' == fs && saved == []
    ensures ManageChecks(fs, f, |files|, parsed, today).Ok? && UsableParts(files, allowed) == [] ==>
      r == Err(InvalidArgument("No files were saved (unsupported type?)")) && fs' == MakeDirs(fs, TargetDir(f))
    ensures ManageChecks(fs, f, |files|, parsed, today).Ok? ==>
      var names := UploadNames(f, ManageChecks(fs, f, |files|, parsed, today).value, files, allowed);
      && |saved| <= |names|
      && SavedAs(MakeDirs(fs, TargetDir(f)), TargetDir(f), names[..|saved|], saved, fs')
      && (r.Ok? <==> names != [] && |saved| == |names|)
      && (names != [] && |saved| < |names| ==>
            r == Err(Unhandled("No such file or directory"))
            && CopyFails(MakeDirs(fs, TargetDir(f)), fs', PathJoin(TargetDir(f), names[|saved|])))
    ensures r.Ok? ==> ManageChecks(fs, f, |files|, parsed, today).Ok? && r.value == saved
  {
    var checked := ManageChecks(fs, f, |files|, parsed, today);
    if checked.Err? {
      return Err(checked.error), fs, [];
    }
    r, fs', saved := SaveBatch(fs, TargetDir(f), UploadNames(f, checked.value, files, allowed));
  }

  /** A subcategory such as "Orders/2024" spells out nested folders, and
      every one of them is made on the way to the target folder. */
  lemma NestedSubcategoryMade(fs: set<string>, f: ManageForm, k: nat)
    requires !IsCaseLaw(f)
    requires CaseDirOf(f) != [] && CaseDirOf(f)[|CaseDirOf(f)| - 1] != '/'
    requires var s := FormField(f.subcategory);
      0 < k < |s| && s[0] != '/' && s[k - 1] != '/' && s[k] == '/'
    ensures PathJoin(CaseDirOf(f), FormField(f.subcategory)[..k]) in MakeDirs(fs, TargetDir(f))
  {
    FirstPartAbove(CaseDirOf(f), FormField(f.subcategory), k);
  }
}

=== FILE: naming.dfy ===
/** The naming engine: the short codes for a case's domain and document
    type, the typed file name `(DDMMYYYY) TYPE DOMAIN Case.ext`, the case
    name `P v. R`, the case-law display name `P vs R [C]`, and the rules
    that choose a stored file's name in the two upload flows
    (app.py:329-330, app.py:438-464, app.py:709-774). */
module Naming {
  import opened Wrappers
  import opened Text
  import opened Digits
  import opened Calendar
  import opened Paths

  // ---- Codes ---------------------------------------------------------------

  /** The domain spellings `domain_code` knows, after trimming and
      lower-casing. */
  predicate KnownDomain(domain: string) {
    Lower(Strip(domain)) in {"criminal", "civil", "commercial"}
  }

  /** `domain_code`: CRL, CIVIL or COMM for the three known domains, written
      in any case and with any surrounding whitespace; any other domain
      trimmed and upper-cased. */
  function DomainCode(domain: string): (r: string)
    ensures Lower(Strip(domain)) == "criminal" ==> r == "CRL"
    ensures Lower(Strip(domain)) == "civil" ==> r == "CIVIL"
    ensures Lower(Strip(domain)) == "commercial" ==> r == "COMM"
    ensures !KnownDomain(domain) ==> r == Upper(Strip(domain))
    ensures NoLower(r)
    ensures r == [] <==> Strip(domain) == []
  {
    var d := Lower(Strip(domain));
    UpperOfLower(Strip(domain));
    UpperIsUpper(d);
    if d == "criminal" then "CRL"
    else if d == "civil" then "CIVIL"
    else if d == "commercial" then "COMM"
    else if d != [] then Upper(d)
    else []
  }

  /** The fixed code of a document type `type_code` knows, looked up by
      its trimmed, lower-cased spelling. */
  function FixedTypeCode(m: string): Option<string> {
    if m == "transfer petition" then Some("TP")
    else if m == "criminal revision" then Some("CRL.REV.")
    else if m == "writ petition" then Some("WP")
    else if m == "bail application" then Some("BAIL")
    else if m == "orders" || m == "order" then Some("ORD")
    else if m == "criminal miscellaneous" then Some("CRL.MISC.")
    else None
  }

  predicate KnownType(mainType: string) {
    FixedTypeCode(Lower(Strip(mainType))).Some?
  }

  /** `type_code`: the fixed code of a known type, written in any case and
      with any surrounding whitespace; any other type upper-cased as given
      (untrimmed). */
  function TypeCode(mainType: string): (r: string)
    ensures KnownType(mainType) ==> r == FixedTypeCode(Lower(Strip(mainType))).value
    ensures !KnownType(mainType) ==> r == Upper(mainType)
    ensures NoLower(r)
  {
    match FixedTypeCode(Lower(Strip(mainType)))
    case Some(code) =>
      FixedCodesUpper(Lower(Strip(mainType)));
      code
    case None =>
      UpperIsUpper(mainType);
      Upper(mainType)
  }

  /** The fixed type codes are all upper case. */
  lemma FixedCodesUpper(m: string)
    ensures FixedTypeCode(m).Some? ==> NoLower(FixedTypeCode(m).value)
  {
  }

  /** Both codes ignore case: spellings that differ only in case get the
      same code. */
  lemma CodesIgnoreCase(x: string, y: string)
    requires EqualsIgnoreCase(x, y)
    ensures DomainCode(x) == DomainCode(y)
    ensures TypeCode(x) == TypeCode(y)
  {
    StripLower(x);
    StripLower(y);
    LowerIdempotent(Strip(x));
    LowerIdempotent(Strip(y));
    assert Lower(Strip(x)) == Lower(Strip(y));
    UpperOfLower(x);
    UpperOfLower(y);
  }

  /** Distinct known domains get distinct codes, so a known domain can be
      read back from its code. */
  lemma DomainCodesDistinct(x: string, y: string)
    requires KnownDomain(x) && KnownDomain(y)
    requires DomainCode(x) == DomainCode(y)
    ensures Lower(Strip(x)) == Lower(Strip(y))
  {
  }

  // ---- Names ---------------------------------------------------------------

  /** `build_filename`: `(DDMMYYYY) TYPE DOMAIN Case.ext`. The date field reads
      back as the given date, the codes follow it, the name ends with the
      case name and the extension, and nothing else comes in between. */
  function BuildFilename(date: Date, mainType: string, domain: string, caseName: string, ext: string): (r: string)
    requires ValidDate(date)
    ensures |r| >= 11 && r[0] == '(' && r[9] == ')' && r[10] == ' '
    ensures ParseDDMMYYYY(r[1..9]) == Some(date)
    ensures StartsWith(r[11..], TypeCode(mainType) + " " + DomainCode(domain))
    ensures EndsWith(r, " " + caseName + "." + ext)
    ensures |r| == 11 + |TypeCode(mainType) + " " + DomainCode(domain)| + |" " + caseName + "." + ext|
  {
    var stamp := DDMMYYYY(date);
    var codes := TypeCode(mainType) + " " + DomainCode(domain);
    var tail := " " + caseName + "." + ext;
    StampedParts(stamp, codes, tail);
    "(" + stamp + ") " + codes + tail
  }

  lemma StampedParts(stamp: string, codes: string, tail: string)
    requires |stamp| == 8
    ensures var r := "(" + stamp + ") " + codes + tail;
      && |r| >= 11 && r[0] == '(' && r[9] == ')' && r[10] == ' '
      && r[1..9] == stamp
      && StartsWith(r[11..], codes)
      && EndsWith(r, tail)
  {
    var head := "(" + stamp + ") ";
    var r := head + codes + tail;
    assert |head| == 11 && head[0] == '(' && head[9] == ')' && head[10] == ' ';
    assert head[1..9] == stamp;
    ConcatParts(head + codes, tail);
    assert r[11..] == codes + tail;
    ConcatParts(codes, tail);
  }

  /** The example the naming scheme is documented with: a bail application
      in a criminal case, dated 15 January 2025, whatever the case and
      spacing of the type and domain as typed. */
  lemma BuildFilenameExample(date: Date, mainType: string, domain: string)
    requires date == Date(2025, 1, 15)
    requires Lower(Strip(mainType)) == "bail application"
    requires Lower(Strip(domain)) == "criminal"
    ensures BuildFilename(date, mainType, domain, "Alice v. Bob", "pdf") == "(15012025) BAIL CRL Alice v. Bob.pdf"
  {
    ExampleStamp(date);
    ExampleCodes(mainType, domain);
    ExampleConcat(DDMMYYYY(date), TypeCode(mainType) + " " + DomainCode(domain));
  }

  lemma ExampleCodes(mainType: string, domain: string)
    requires Lower(Strip(mainType)) == "bail application"
    requires Lower(Strip(domain)) == "criminal"
    ensures TypeCode(mainType) == "BAIL" && DomainCode(domain) == "CRL"
  {
    assert FixedTypeCode(Lower(Strip(mainType))) == Some("BAIL");
  }

  lemma ExampleConcat(stamp: string, codes: string)
    requires stamp == "15012025" && codes == "BAIL" + " " + "CRL"
    ensures "(" + stamp + ") " + codes + (" " + "Alice v. Bob" + "." + "pdf")
         == "(15012025) BAIL CRL Alice v. Bob.pdf"
  {
  }

  lemma ExampleStamp(date: Date)
    requires date == Date(2025, 1, 15)
    ensures DDMMYYYY(date) == "15012025"
  {
    var s := "15012025";
    assert s[..2] == "15" && s[2..4] == "01" && s[4..] == "2025";
    assert DigitsValue("15") == 15 && DigitsValue("01") == 1;
    assert DigitsValue("2025") == 2025 by {
      assert "2025"[..3] == "202" && "202"[..2] == "20";
      assert DigitsValue("20") == 20;
      assert DigitsValue("202") == 202;
    }
    assert ParseDDMMYYYY(s) == Some(date);
    StampUnique(DDMMYYYY(date), s);
  }

  /** Only one eight-digit field reads back as a given date. */
  lemma StampUnique(a: string, b: string)
    requires ParseDDMMYYYY(a).Some? && ParseDDMMYYYY(a) == ParseDDMMYYYY(b)
    ensures a == b
  {
    var d := ParseDDMMYYYY(a).value;
    assert |a| == 8 && |b| == 8;
    DigitsWidthUnique(a[..2], b[..2]);
    DigitsWidthUnique(a[2..4], b[2..4]);
    DigitsWidthUnique(a[4..], b[4..]);
    assert a == a[..2] + a[2..4] + a[4..];
    assert b == b[..2] + b[2..4] + b[4..];
  }

  /** Two digit strings of one width denoting one number are equal. */
  lemma {:induction false} DigitsWidthUnique(a: string, b: string)
    requires AllDigits(a) && AllDigits(b) && |a| == |b|
    requires DigitsValue(a) == DigitsValue(b)
    ensures a == b
    decreases |a|
  {
    if a != [] {
      var n := |a| - 1;
      assert DigitValue(a[n]) == DigitsValue(a) % 10;
      assert DigitValue(b[n]) == DigitsValue(b) % 10;
      DigitsWidthUnique(a[..n], b[..n]);
      assert a == a[..n] + [a[n]];
      assert b == b[..n] + [b[n]];
    }
  }

  /** `build_case_name_from_parties`: `P v. R` over the normalised parties,
      or "" when either party is blank. The result is itself normalised and
      keeps every non-blank character of both parties in order. */
  function BuildCaseName(petitioner: string, respondent: string): (r: string)
    ensures r == [] <==> AllSpace(petitioner) || AllSpace(respondent)
    ensures r != [] ==> r == NormalizeWs(petitioner) + " v. " + NormalizeWs(respondent)
    ensures r != [] ==> NonSpace(r) == NonSpace(petitioner) + "v." + NonSpace(respondent)
    ensures IsNormalized(r)
  {
    var pn := NormalizeWs(petitioner);
    var rn := NormalizeWs(respondent);
    if pn != [] && rn != [] then
      JoinParties(pn, rn);
      pn + " v. " + rn
    else []
  }

  lemma JoinParties(pn: string, rn: string)
    requires IsNormalized(pn) && IsNormalized(rn) && pn != [] && rn != []
    ensures IsNormalized(pn + " v. " + rn)
    ensures NonSpace(pn + " v. " + rn) == NonSpace(pn) + "v." + NonSpace(rn)
  {
    var sep := " v. ";
    assert Squeezed(sep) by {
      assert !IsSpace('v') && !IsSpace('.');
      assert NoRunAt(sep, 0) && NoRunAt(sep, 1) && NoRunAt(sep, 2);
    }
    JoinNormalized(pn, sep, rn);
    NonSpaceConcat(pn, sep);
    NonSpaceConcat(pn + sep, rn);
    assert NonSpace(sep) == "v." by {
      assert sep[1..] == "v. ";
      assert sep[1..][1..] == ". ";
      assert sep[1..][1..][1..] == " ";
    }
  }

  /** Normalising the parties first changes nothing, and the case name is a
      fixed point of `normalize_ws`. */
  lemma CaseNameStable(petitioner: string, respondent: string)
    ensures BuildCaseName(NormalizeWs(petitioner), NormalizeWs(respondent))
         == BuildCaseName(petitioner, respondent)
    ensures NormalizeWs(BuildCaseName(petitioner, respondent)) == BuildCaseName(petitioner, respondent)
  {
    NormalizeIdempotent(petitioner);
    NormalizeIdempotent(respondent);
    NonSpaceEmpty(petitioner);
    NonSpaceEmpty(respondent);
    NonSpaceEmpty(NormalizeWs(petitioner));
    NonSpaceEmpty(NormalizeWs(respondent));
    NormalizedIsFixed(BuildCaseName(petitioner, respondent));
  }

  /** `build_case_law_display_name`: `P vs R [C]`, from which each part can
      be read back at its position. */
  function CaseLawDisplayName(petitioner: string, respondent: string, citation: string): (r: string)
    ensures |r| == |petitioner| + |respondent| + |citation| + 7
    ensures r[..|petitioner|] == petitioner
    ensures r[|petitioner|..|petitioner| + 4] == " vs "
    ensures r[|petitioner| + 4..|petitioner| + 4 + |respondent|] == respondent
    ensures r[|petitioner| + 4 + |respondent|..|r| - |citation| - 1] == " ["
    ensures r[|r| - |citation| - 1..|r| - 1] == citation && r[|r| - 1] == ']'
  {
    petitioner + " vs " + respondent + " [" + citation + "]"
  }

  // ---- Upload naming -------------------------------------------------------

  /** `safe_stem`: the words of the stem of the `secure_filename` output,
      joined by single spaces. */
  function SafeStem(safeName: string): (r: string)
    ensures r == Unwords(Words(PathStem(safeName)))
    ensures IsNormalized(r)
    ensures NonSpace(r) == NonSpace(PathStem(safeName))
  {
    NormalizeWsWords(PathStem(safeName));
    NormalizeWs(PathStem(safeName))
  }

  /** The regular flow keeps the uploaded file's own name when the
      subfolder is "Primary Documents" (any case, any surrounding blanks) or
      no main type is given. */
  predicate KeepsOriginalName(subcategory: string, mainType: string) {
    (subcategory != [] && Lower(Strip(subcategory)) == "primary documents") || mainType == []
  }

  /** The stored name in the regular flow: `<stem> - <case>.<ext>` when the
      original name is kept, the typed scheme otherwise. Either way it ends
      with the case name and the extension, and a typed name carries the
      upload date. */
  function RegularUploadName(subcategory: string, mainType: string, domain: string, caseName: string,
                             date: Date, safeName: string, ext: string): (r: string)
    requires ValidDate(date)
    ensures KeepsOriginalName(subcategory, mainType) ==>
      r == SafeStem(safeName) + " - " + caseName + "." + ext
    ensures !KeepsOriginalName(subcategory, mainType) ==>
      r == BuildFilename(date, mainType, domain, caseName, ext) && ParseDDMMYYYY(r[1..9]) == Some(date)
    ensures EndsWith(r, " " + caseName + "." + ext)
  {
    if KeepsOriginalName(subcategory, mainType) then
      var stem := SafeStem(safeName);
      KeptNameParts(stem, caseName, ext);
      stem + " - " + caseName + "." + ext
    else BuildFilename(date, mainType, domain, caseName, ext)
  }

  lemma KeptNameParts(stem: string, caseName: string, ext: string)
    ensures EndsWith(stem + " - " + caseName + "." + ext, " " + caseName + "." + ext)
  {
    var tail := " " + caseName + "." + ext;
    assert stem + " - " + caseName + "." + ext == (stem + " -") + tail;
    ConcatParts(stem + " -", tail);
  }

  /** The base of a file's name in the case-law branch of the manage-case
      flow: the words of the main type joined by single spaces, or the safe
      stem when the main type is blank. */
  function CaseLawBase(mainType: string, safeName: string): (b: string)
    ensures IsNormalized(b)
    ensures Strip(mainType) != [] ==> b == Unwords(Words(mainType))
    ensures Strip(mainType) != [] ==> NonSpace(b) == NonSpace(mainType)
    ensures Strip(mainType) == [] ==> b == SafeStem(safeName)
    ensures IsNormalized(mainType) && mainType != [] ==> b == mainType
  {
    var t := Strip(mainType);
    if t != [] then
      TypedBase(mainType);
      NormalizedFixes(mainType);
      NormalizeWs(t)
    else
      NormalizeIdempotent(PathStem(safeName));
      NormalizeWs(SafeStem(safeName))
  }

  /** A typed base is the words of the main type, trimmed or not. */
  lemma TypedBase(mainType: string)
    ensures NormalizeWs(Strip(mainType)) == Unwords(Words(mainType))
  {
    StripKeepsWords(mainType);
    NormalizeWsWords(Strip(mainType));
  }

  lemma NormalizedFixes(s: string)
    ensures IsNormalized(s) ==> Strip(s) == s && NormalizeWs(s) == s
  {
    if IsNormalized(s) {
      StripUnpadded(s);
      NormalizedIsFixed(s);
    }
  }

  /** The stored name in the case-law branch: `<base>.<ext>`. */
  function CaseLawBranchName(mainType: string, safeName: string, ext: string): (r: string)
    ensures r == CaseLawBase(mainType, safeName) + "." + ext
    ensures EndsWith(r, "." + ext)
  {
    var b := CaseLawBase(mainType, safeName);
    DotSuffix(b, ext);
    b + "." + ext
  }

  lemma DotSuffix(b: string, ext: string)
    ensures b + "." + ext == b + ("." + ext) && EndsWith(b + "." + ext, "." + ext)
  {
    ConcatParts(b, "." + ext);
  }
}

=== FILE: notes.dfy ===
/** Saving the note of a case-law record (`case_law_note`, POST branch,
    app.py:1268-1317): the note text is written to the record's note file,
    its summary becomes the record's `note_text`, and the full-text entry
    is refreshed with the new note. JSON decoding is foreign: the caller
    supplies what `json.loads` made of the text. */
module CaseLawNote {
  import opened Wrappers
  import opened Text
  import opened Paths
  import opened Jail
  import opened Catalog

  /** The part of a decoded JSON value the summary cares about. */
  datatype JsonValue = JStr(s: string) | JNonString

  /** What `json.loads(raw)` returned: an object, or any other value. A
      decoding error is `None` at the call site. */
  datatype Parsed = JObject(fields: map<string, JsonValue>) | JNotObject

  /** The keys consulted, in order (app.py:384). */
  const SummaryKeys: seq<string> := ["Note", "note", "Summary", "summary", "Additional Notes", "additional_notes"]

  /** `isinstance(value, str) and value.strip()` */
  predicate Usable(fields: map<string, JsonValue>, key: string) {
    key in fields && fields[key].JStr? && Strip(fields[key].s) != []
  }

  /** `keys[i]` is the first usable key and holds `v`. */
  predicate FirstUsableAt(fields: map<string, JsonValue>, keys: seq<string>, i: int, v: string) {
    && 0 <= i < |keys| && Usable(fields, keys[i]) && fields[keys[i]].s == v
    && forall j :: 0 <= j < i ==> !Usable(fields, keys[j])
  }

  /** The first present value of a list. */
  function FirstSome<T>(xs: seq<Option<T>>): (r: Option<T>)
    ensures r.None? <==> forall i :: 0 <= i < |xs| ==> xs[i].None?
    ensures r.Some? ==> exists i :: 0 <= i < |xs| && xs[i] == r && forall j :: 0 <= j < i ==> xs[j].None?
    decreases |xs|
  {
    if xs == [] then None
    else if xs[0].Some? then xs[0]
    else
      var r := FirstSome(xs[1..]);
      assert forall i :: 1 <= i < |xs| ==> xs[i] == xs[1..][i - 1];
      assert r.Some? ==> exists i :: 0 <= i < |xs| && xs[i] == r && forall j :: 0 <= j < i ==> xs[j].None? by {
        if r.Some? {
          var i :| 0 <= i < |xs[1..]| && xs[1..][i] == r && forall j :: 0 <= j < i ==> xs[1..][j].None?;
          assert xs[i + 1] == r && forall j :: 0 <= j < i + 1 ==> xs[j].None?;
        }
      }
      r
  }

  /** The value under each key, when it is usable. */
  function Candidates(fields: map<string, JsonValue>, keys: seq<string>): (xs: seq<Option<string>>)
    ensures |xs| == |keys|
    ensures forall i :: 0 <= i < |keys| ==> (xs[i].Some? <==> Usable(fields, keys[i]))
    ensures forall i :: 0 <= i < |keys| && xs[i].Some? ==> Usable(fields, keys[i]) && xs[i].value == fields[keys[i]].s
  {
    seq(|keys|, i requires 0 <= i < |keys| => if Usable(fields, keys[i]) then Some(fields[keys[i]].s) else None)
  }

  /** The value under the first usable key of `keys`. */
  function FirstUsable(fields: map<string, JsonValue>, keys: seq<string>): (r: Option<string>)
    ensures r.None? <==> forall i :: 0 <= i < |keys| ==> !Usable(fields, keys[i])
    ensures r.Some? ==> exists i :: FirstUsableAt(fields, keys, i, r.value)
  {
    var xs := Candidates(fields, keys);
    var r := FirstSome(xs);
    if r.Some? then
      var i :| 0 <= i < |xs| && xs[i] == r && forall j :: 0 <= j < i ==> xs[j].None?;
      assert Usable(fields, keys[i]) && fields[keys[i]].s == r.value;
      assert forall j :: 0 <= j < i ==> !Usable(fields, keys[j]);
      assert FirstUsableAt(fields, keys, i, r.value);
      r
    else
      assert forall i :: 0 <= i < |keys| ==> !Usable(fields, keys[i]);
      r
  }

  /** At most one key is the first usable one. */
  lemma FirstUsableAtUnique(fields: map<string, JsonValue>, keys: seq<string>, i: int, v: string, j: int, w: string)
    requires FirstUsableAt(fields, keys, i, v) && FirstUsableAt(fields, keys, j, w)
    ensures i == j && v == w
  {
  }

  /** `extract_note_summary`: the words of the first usable summary field
      of a JSON object, joined by single spaces; or the words of the whole
      content when the content is not a JSON object or has no usable
      field. */
  function ExtractNoteSummary(content: string, parsed: Option<Parsed>): (r: string)
    ensures parsed.Some? && parsed.value.JObject? ==>
      forall i, v :: FirstUsableAt(parsed.value.fields, SummaryKeys, i, v) ==> r == Unwords(Words(v))
    ensures (|| parsed.None? || parsed.value.JNotObject?
             || forall i :: 0 <= i < |SummaryKeys| ==> !Usable(parsed.value.fields, SummaryKeys[i]))
      ==> r == Unwords(Words(content))
    ensures IsNormalized(r)
    ensures (parsed.Some? && parsed.value.JObject? && FirstUsable(parsed.value.fields, SummaryKeys).Some?) ==> r != []
    ensures r == [] ==> AllSpace(content)
  {
    var source :=
      if parsed.Some? && parsed.value.JObject? then FirstUsable(parsed.value.fields, SummaryKeys).GetOr(content)
      else content;
    UsableNotBlank(parsed, content);
    NormalizeWsWords(source);
    if parsed.Some? && parsed.value.JObject? && FirstUsable(parsed.value.fields, SummaryKeys).Some? then
      var f := parsed.value.fields;
      var w := FirstUsable(f, SummaryKeys).value;
      assert forall i, v :: FirstUsableAt(f, SummaryKeys, i, v) ==> v == w by {
        forall i, v | FirstUsableAt(f, SummaryKeys, i, v)
          ensures v == w
        {
          var j :| FirstUsableAt(f, SummaryKeys, j, w);
          FirstUsableAtUnique(f, SummaryKeys, i, v, j, w);
        }
      }
      NormalizeWs(source)
    else
      NormalizeWs(source)
  }

  /** A usable "Note" field is the summary, whatever else the object
      holds. */
  lemma NoteFieldWins(content: string, fields: map<string, JsonValue>)
    requires Usable(fields, "Note")
    ensures ExtractNoteSummary(content, Some(JObject(fields))) == NormalizeWs(fields["Note"].s)
  {
    assert FirstUsableAt(fields, SummaryKeys, 0, fields["Note"].s);
  }

  lemma UsableNotBlank(parsed: Option<Parsed>, content: string)
    ensures parsed.Some? && parsed.value.JObject? && FirstUsable(parsed.value.fields, SummaryKeys).Some? ==>
      !AllSpace(FirstUsable(parsed.value.fields, SummaryKeys).value)
  {
    if parsed.Some? && parsed.value.JObject? && FirstUsable(parsed.value.fields, SummaryKeys).Some? {
      var f := parsed.value.fields;
      var v := FirstUsable(f, SummaryKeys).value;
      var i :| FirstUsableAt(f, SummaryKeys, i, v);
      NonSpaceEmpty(Strip(v));
      NonSpaceEmpty(v);
    }
  }

  /** A summary already in normal form comes back unchanged when the note
      is not JSON. */
  lemma PlainSummaryFixed(content: string)
    requires IsNormalized(content)
    ensures ExtractNoteSummary(content, None) == content
  {
    NormalizedIsFixed(content);
    NormalizeWsWords(content);
  }

  /** What a successful save produced. */
  datatype Saved = Saved(store: Store, files: map<string, string>, summary: string)

  /** The catalog after a note save: the row's `note_text` becomes the
      summary and its index entry is refreshed with the note text, keeping
      the judgement text already indexed. */
  function ApplyNote(s: Store, id: nat, content: string, summary: string): (t: Store)
    requires id in s.cases
    ensures t.cases.Keys == s.cases.Keys && t.cases[id] == s.cases[id].(noteText := summary)
    ensures forall k :: k in s.cases && k != id ==> t.cases[k] == s.cases[k]
    ensures t.fts.Keys == s.fts.Keys + {id} && t.fts[id].note == content
    ensures t.fts[id].content == (if id in s.fts then s.fts[id].content else "")
    ensures forall k :: k in s.fts && k != id ==> t.fts[k] == s.fts[k]
  {
    var row := s.cases[id];
    var judgement := if id in s.fts then s.fts[id].content else "";
    Store(s.cases[id := row.(noteText := summary)],
          RefreshIndex(s.fts, id, Some(judgement), row.petitioner, row.respondent, row.citation, Some(content)))
  }

  /** Writing the note to the resolved note file `path`: the summary and
      the catalog follow the content. */
  function WriteNote(s: Store, files: map<string, string>, id: nat, path: string, content: string,
                     parsed: Option<Parsed>): (r: Saved)
    requires id in s.cases
    ensures IsNormalized(r.summary) && r.summary == ExtractNoteSummary(content, parsed)
    ensures r.files == files[path := content]
    ensures r.store == ApplyNote(s, id, content, r.summary)
  {
    var summary := ExtractNoteSummary(content, parsed);
    Saved(ApplyNote(s, id, content, summary), files[path := content], summary)
  }

  /** Flask's answer to a view that returns a reply nested in a second
      `(reply, status)` pair: the inner pair is not a response body, so
      `make_response` raises `TypeError`. */
  const NestedReply := Unhandled("The view function did not return a valid response.")

  /** The POST branch of `case_law_note` for record `id`, as written: the
      note file is found through `case_law_note_path`, whose guard is a
      textual prefix test on the resolved paths; the file is written, and
      the catalog row and index entry are brought up to date. A rejected
      path is answered with `case_law_error(...)` wrapped in a second
      `(..., 400)` pair, which Flask cannot turn into a response: it raises
      `TypeError`, so the client gets a server error instead of the
      message. */
  function SaveNote(s: Store, files: map<string, string>, root: string, id: nat, content: string,
                    parsed: Option<Parsed>, resolve: string -> string): (r: Result<Saved>)
    ensures id !in s.cases ==> r == Err(NotFound("Case law record not found."))
    ensures id in s.cases && !StartsWith(resolve(PathJoin(root, s.cases[id].notePathRel)), resolve(root)) ==>
      r == Err(NestedReply)
    ensures r.Ok? ==> id in s.cases && IsNormalized(r.value.summary)
    ensures r.Ok? ==> StartsWith(resolve(PathJoin(root, s.cases[id].notePathRel)), resolve(root))
    ensures r.Ok? ==> r.value.files == files[resolve(PathJoin(root, s.cases[id].notePathRel)) := content]
    ensures r.Ok? ==> r.value.summary == ExtractNoteSummary(content, parsed)
    ensures r.Ok? ==> r.value.store == ApplyNote(s, id, content, r.value.summary)
  {
    if id !in s.cases then Err(NotFound("Case law record not found."))
    else
      match CaseLawNotePath(root, s.cases[id].notePathRel, resolve)
      case Err(_) => Err(NestedReply)
      case Ok(path) => Ok(WriteNote(s, files, id, path, content, parsed))
  }

  /** The note editor as intended: the note file must resolve to the root
      itself or to a path below it, component by component, and a rejected
      path is answered with the message "Invalid note path for this
      record." and status 400. */
  function SaveNoteSafe(s: Store, files: map<string, string>, root: string, id: nat, content: string,
                        parsed: Option<Parsed>, resolve: string -> string): (r: Result<Saved>)
    ensures id !in s.cases ==> r == Err(NotFound("Case law record not found."))
    ensures id in s.cases && !Inside(resolve(PathJoin(root, s.cases[id].notePathRel)), resolve(root)) ==>
      r == Err(InvalidArgument("Invalid note path for this record."))
    ensures r.Ok? ==> id in s.cases && IsNormalized(r.value.summary)
    ensures r.Ok? ==> Inside(resolve(PathJoin(root, s.cases[id].notePathRel)), resolve(root))
    ensures r.Ok? ==> r.value.files == files[resolve(PathJoin(root, s.cases[id].notePathRel)) := content]
    ensures r.Ok? ==> r.value.summary == ExtractNoteSummary(content, parsed)
    ensures r.Ok? ==> r.value.store == ApplyNote(s, id, content, r.value.summary)
  {
    if id !in s.cases then Err(NotFound("Case law record not found."))
    else
      match SafeNotePath(root, s.cases[id].notePathRel, resolve)
      case Err(_) => Err(InvalidArgument("Invalid note path for this record."))
      case Ok(path) => Ok(WriteNote(s, files, id, path, content, parsed))
  }

  /** For a record that exists, the only failure of either editor is its
      guard rejecting the note path. */
  lemma SaveNoteFailures(s: Store, files: map<string, string>, root: string, id: nat, content: string,
                         parsed: Option<Parsed>, resolve: string -> string)
    requires id in s.cases
    ensures SaveNote(s, files, root, id, content, parsed, resolve).Err? <==>
      !StartsWith(resolve(PathJoin(root, s.cases[id].notePathRel)), resolve(root))
    ensures SaveNoteSafe(s, files, root, id, content, parsed, resolve).Err? <==>
      !Inside(resolve(PathJoin(root, s.cases[id].notePathRel)), resolve(root))
  {
  }

  /** Where the textual guard rejects the note path, the route as written
      fails with a server error, while the intended route refuses the path
      with its message. */
  lemma RejectedNotePath(s: Store, files: map<string, string>, root: string, id: nat, content: string,
                         parsed: Option<Parsed>, resolve: string -> string)
    requires id in s.cases
    requires !StartsWith(resolve(PathJoin(root, s.cases[id].notePathRel)), resolve(root))
    ensures SaveNote(s, files, root, id, content, parsed, resolve) == Err(NestedReply)
    ensures SaveNoteSafe(s, files, root, id, content, parsed, resolve) ==
      Err(InvalidArgument("Invalid note path for this record."))
  {
    var p := resolve(PathJoin(root, s.cases[id].notePathRel));
    if Inside(p, resolve(root)) {
      InsideStartsWith(p, resolve(root));
    }
  }

  /** Whatever the corrected editor accepts, the editor as written accepts
      too, with the same outcome; it differs only in also accepting notes
      that merely share the root's textual prefix. */
  lemma SaveNoteSafeAgrees(s: Store, files: map<string, string>, root: string, id: nat, content: string,
                           parsed: Option<Parsed>, resolve: string -> string)
    ensures SaveNoteSafe(s, files, root, id, content, parsed, resolve).Ok? ==>
      SaveNote(s, files, root, id, content, parsed, resolve) == SaveNoteSafe(s, files, root, id, content, parsed, resolve)
  {
    if id in s.cases {
      SafeIsStricter(root, "", "", s.cases[id].notePathRel, resolve);
    }
  }

  /** Bringing a row's note up to date keeps the catalog consistent. */
  lemma ApplyNoteConsistent(s: Store, id: nat, content: string, summary: string)
    requires Consistent(s) && id in s.cases
    ensures Consistent(ApplyNote(s, id, content, summary))
  {
    var t := ApplyNote(s, id, content, summary);
    assert forall k :: k in t.cases ==> KeyOf(t.cases[k]) == KeyOf(s.cases[k]);
    forall k | k in t.fts ensures IndexedAs(t.fts[k], k, t.cases[k]) {
      if k != id {
        assert t.fts[k] == s.fts[k];
      }
    }
  }

  /** Saving a note, through either guard, keeps the catalog consistent. */
  lemma SaveNoteConsistent(s: Store, files: map<string, string>, root: string, id: nat, content: string,
                           parsed: Option<Parsed>, resolve: string -> string)
    requires Consistent(s)
    ensures var r := SaveNote(s, files, root, id, content, parsed, resolve);
      r.Ok? ==> Consistent(r.value.store)
    ensures var r := SaveNoteSafe(s, files, root, id, content, parsed, resolve);
      r.Ok? ==> Consistent(r.value.store)
  {
    var r := SaveNote(s, files, root, id, content, parsed, resolve);
    if r.Ok? {
      ApplyNoteConsistent(s, id, content, r.value.summary);
    }
    var t := SaveNoteSafe(s, files, root, id, content, parsed, resolve);
    if t.Ok? {
      ApplyNoteConsistent(s, id, content, t.value.summary);
    }
  }
}

=== FILE: paths.dfy ===
/** The slice of `pathlib` and of `str.rsplit` the naming code relies on:
    joining, final component, parent, stem and suffix of a path, and the
    extension test `allowed_file`. Paths are plain strings with `/` as the
    separator. */
module Paths {
  import opened Text

  /** `s.rfind(c)`: the last index holding `c`, or -1. */
  function RFind(s: string, c: char): (i: int)
    ensures -1 <= i < |s|
    ensures i >= 0 ==> s[i] == c
    ensures forall j :: i < j < |s| ==> s[j] != c
  {
    if s == [] then -1
    else if s[|s| - 1] == c then |s| - 1
    else RFind(s[..|s| - 1], c)
  }

  lemma AbsentAfter(s: string, c: char, i: int)
    requires -1 <= i < |s|
    requires forall j :: i < j < |s| ==> s[j] != c
    ensures c !in s[i + 1..]
  {
  }

  /** `Path(a) / b`: an absolute `b` replaces `a`; an empty `a` stands for
      the current directory. */
  function PathJoin(a: string, b: string): string {
    if b != [] && b[0] == '/' then b
    else if a == [] then b
    else if a[|a| - 1] == '/' then a + b
    else a + "/" + b
  }

  /** For a fixed directory, joining a relative name is injective. */
  lemma PathJoinInjective(a: string, b1: string, b2: string)
    requires b1 == [] || b1[0] != '/'
    requires b2 == [] || b2[0] != '/'
    requires PathJoin(a, b1) == PathJoin(a, b2)
    ensures b1 == b2
  {
    var p := PathJoin(a, b1);
    if a == [] {
    } else if a[|a| - 1] == '/' {
      assert b1 == p[|a|..] == b2;
    } else {
      assert b1 == p[|a| + 1..] == b2;
    }
  }

  /** `Path(p).name`: the final component. */
  function BaseName(p: string): (r: string)
    ensures '/' !in r
  {
    var i := RFind(p, '/');
    AbsentAfter(p, '/', i);
    p[i + 1..]
  }

  /** `Path(p).parent`, with the current directory written as "". */
  function Parent(p: string): (r: string)
    ensures r == [] || r == "/" || (0 < |r| < |p| && r == p[..|r|])
  {
    var i := RFind(p, '/');
    if i < 0 then [] else if i == 0 then "/" else p[..i]
  }

  /** Index of the dot that starts `Path(name).suffix`, or -1 when the name
      has no suffix: the last dot, unless it is the first or the last
      character. */
  function SuffixDot(name: string): (i: int)
    ensures i == -1 || 0 < i < |name| - 1
  {
    var i := RFind(name, '.');
    if 0 < i < |name| - 1 then i else -1
  }

  /** `Path(name).suffix` */
  function PathSuffix(name: string): string {
    var i := SuffixDot(name);
    if i < 0 then [] else name[i..]
  }

  /** `Path(name).stem` */
  function PathStem(name: string): string {
    var i := SuffixDot(name);
    if i < 0 then name else name[..i]
  }

  /** Stem and suffix split a name without losing anything. */
  lemma StemSuffixSplit(name: string)
    ensures PathStem(name) + PathSuffix(name) == name
  {
    var i := SuffixDot(name);
    if i >= 0 {
      assert name[..i] + name[i..] == name;
    }
  }

  /** A non-empty suffix is a dot followed by at least one dot-free
      character. */
  lemma SuffixShape(name: string)
    ensures var x := PathSuffix(name);
      x == [] || (x[0] == '.' && |x| >= 2 && '.' !in x[1..])
  {
    var i := SuffixDot(name);
    if i >= 0 {
      var j := RFind(name, '.');
      assert i == j;
      AbsentAfter(name, '.', j);
      assert name[i..][1..] == name[j + 1..];
    }
  }

  /** Stem and suffix of a single component are single components. */
  lemma StemSuffixNoSlash(name: string)
    requires '/' !in name
    ensures '/' !in PathStem(name) && '/' !in PathSuffix(name)
  {
    StemSuffixSplit(name);
    assert PathStem(name) <= name;
    assert forall k :: 0 <= k < |PathSuffix(name)| ==>
      PathSuffix(name)[k] == name[|PathStem(name)| + k];
  }

  /** `filename.rsplit(".", 1)[1].lower()` */
  function Extension(filename: string): (ext: string)
    requires '.' in filename
    ensures '.' !in ext
  {
    var i := RFind(filename, '.');
    AbsentAfter(filename, '.', i);
    Lower(filename[i + 1..])
  }

  /** `allowed_file`: the name has a dot and its lower-cased extension is
      on the allow-list. */
  predicate AllowedFile(filename: string, allowed: set<string>) {
    '.' in filename && Extension(filename) in allowed
  }

  /** `RFind` finds the occurrence of `c` that nothing after repeats. */
  lemma RFindLast(s: string, c: char, i: int)
    requires 0 <= i < |s| && s[i] == c
    requires forall j :: i < j < |s| ==> s[j] != c
    ensures RFind(s, c) == i
  {
  }

  /** A single, non-empty path component. */
  predicate PlainName(s: string) {
    s != [] && '/' !in s
  }

  /** A name joined onto a directory is that directory's child. */
  lemma JoinParts(dir: string, name: string)
    requires dir != [] && dir[|dir| - 1] != '/'
    requires PlainName(name)
    ensures PathJoin(dir, name) == dir + "/" + name
    ensures Parent(PathJoin(dir, name)) == dir && BaseName(PathJoin(dir, name)) == name
  {
    var p := dir + "/" + name;
    forall j | |dir| < j < |p| ensures p[j] != '/' {
      assert p[j] == name[j - |dir| - 1];
    }
    RFindLast(p, '/', |dir|);
    assert p[..|dir|] == dir;
    assert p[|dir| + 1..] == name;
  }

  /** Every existing path's parent folder exists too (the storage root,
      written "", and the file system's root "/" always exist). */
  predicate ParentsExist(fs: set<string>) {
    forall p :: p in fs && Parent(p) != [] && Parent(p) != "/" ==> Parent(p) in fs
  }

  /** Adding a path whose folder exists keeps every parent present. */
  lemma AddChild(fs: set<string>, x: string)
    requires ParentsExist(fs)
    requires Parent(x) == [] || Parent(x) == "/" || Parent(x) in fs
    ensures ParentsExist(fs + {x})
  {
  }

  /** The folders above `p`, following `Parent` up to the storage root or
      the file system's root: each is a proper prefix of `p`. */
  function Ancestors(p: string): (r: set<string>)
    ensures forall a :: a in r ==> 0 < |a| < |p| && a == p[..|a|] && a != "/"
    decreases |p|
  {
    var q := Parent(p);
    if q == [] || q == "/" then {} else {q} + Ancestors(q)
  }

  /** The parent of every folder above `p` is above `p` as well, or is one
      of the roots. */
  lemma {:induction false} AncestorsClosed(p: string)
    ensures forall a :: a in Ancestors(p) && Parent(a) != [] && Parent(a) != "/" ==> Parent(a) in Ancestors(p)
    decreases |p|
  {
    var q := Parent(p);
    if q != [] && q != "/" {
      AncestorsClosed(q);
    }
  }

  /** A folder is above everything written below it. */
  lemma {:induction false} JoinedAncestor(a: string, p: string)
    requires a != [] && a[|a| - 1] != '/'
    requires |a| < |p| && p[..|a|] == a && p[|a|] == '/'
    ensures a in Ancestors(p)
    decreases |p|
  {
    var i := RFind(p, '/');
    assert i >= |a|;
    if i > |a| {
      var q := p[..i];
      assert q[..|a|] == a && q[|a|] == '/';
      JoinedAncestor(a, q);
    }
  }

  /** A relative name joined onto a folder written without a trailing
      slash is separated from it by one slash. */
  lemma JoinRelative(a: string, b: string)
    requires a != [] && a[|a| - 1] != '/'
    requires b == [] || b[0] != '/'
    ensures PathJoin(a, b) == a + "/" + b
  {
  }

  /** Both folders of `a/b` are above a relative name joined onto it. */
  lemma TwoLevelsAbove(a: string, b: string, name: string)
    requires a != [] && a[|a| - 1] != '/'
    requires b != [] && b[0] != '/' && b[|b| - 1] != '/'
    requires name == [] || name[0] != '/'
    ensures PathJoin(a, b) == a + "/" + b
    ensures a in Ancestors(PathJoin(PathJoin(a, b), name))
    ensures PathJoin(a, b) in Ancestors(PathJoin(PathJoin(a, b), name))
  {
    var ab := a + "/" + b;
    var p := ab + "/" + name;
    JoinRelative(a, b);
    JoinRelative(ab, name);
    assert p[..|ab|] == ab && p[|ab|] == '/';
    JoinedAncestor(ab, p);
    assert p[..|a|] == ab[..|a|] == a && p[|a|] == ab[|a|] == '/';
    JoinedAncestor(a, p);
  }

  /** The part of a relative name before one of its slashes is a folder
      above the whole name, once both are joined onto the same folder. */
  lemma FirstPartAbove(dir: string, name: string, k: nat)
    requires dir != [] && dir[|dir| - 1] != '/'
    requires 0 < k < |name| && name[0] != '/' && name[k - 1] != '/' && name[k] == '/'
    ensures PathJoin(dir, name[..k]) in Ancestors(PathJoin(dir, name))
  {
    JoinRelative(dir, name);
    JoinRelative(dir, name[..k]);
    var a, p := dir + "/" + name[..k], dir + "/" + name;
    assert p[..|a|] == a && p[|a|] == name[k];
    JoinedAncestor(a, p);
  }

  /** `Path(d).mkdir(parents=True, exist_ok=True)`: `d` and every folder
      above it exist afterwards, nothing else is added, and a file system
      whose parents exist keeps that property. */
  function MakeDirs(fs: set<string>, d: string): (r: set<string>)
    ensures fs <= r && d in r
    ensures forall a :: a in Ancestors(d) ==> a in r
    ensures forall p :: p in r && p !in fs ==> p == d || p in Ancestors(d)
    ensures ParentsExist(fs) ==> ParentsExist(r)
  {
    AncestorsClosed(d);
    fs + {d} + Ancestors(d)
  }

  /** Making folder `d` with every folder above it and writing the file
      `name` into it. */
  function WriteInto(fs: set<string>, d: string, name: string): (r: set<string>)
    requires PlainName(name)
    ensures fs <= r && d in r && PathJoin(d, name) in r
    ensures forall a :: a in Ancestors(d) ==> a in r
    ensures forall p :: p in r && p !in fs ==> p == d || p == PathJoin(d, name) || p in Ancestors(d)
    ensures ParentsExist(fs) ==> ParentsExist(r)
  {
    FileParent(d, name);
    MakeDirs(fs, d) + {PathJoin(d, name)}
  }

  /** A file written into folder `d` lies in `d`, or, when `d` is written
      with a trailing slash, in `d`'s parent, which is the same folder. */
  lemma FileParent(d: string, name: string)
    requires PlainName(name)
    ensures Parent(PathJoin(d, name)) == d || Parent(PathJoin(d, name)) == Parent(d)
  {
    if d == [] {
      assert RFind(name, '/') < 0;
    } else if d[|d| - 1] == '/' {
      var p := d + name;
      forall j | |d| - 1 < j < |p| ensures p[j] != '/' {
        assert p[j] == name[j - |d|];
      }
      assert p[|d| - 1] == '/';
      RFindLast(p, '/', |d| - 1);
      RFindLast(d, '/', |d| - 1);
      assert p[..|d| - 1] == d[..|d| - 1];
    } else {
      JoinParts(d, name);
    }
  }
}

=== FILE: placement.dfy ===
/** The placement allocator: choosing a path that is not taken yet. The
    file system is the finite set of paths that exist. When the wanted path
    is taken, a counter is appended to the stem of its final component,
    ` (N)` in `ensure_unique_path` (app.py:333-344) and `_N` in the upload
    loops of the manage-case flow (app.py:738-742, app.py:780-784), with N
    counting up from 1. */
module Placement {
  import opened Text
  import opened Digits
  import opened Paths

  /** How a taken name is varied. */
  datatype Convention = Parenthesised | Underscored

  /** The text inserted between stem and suffix for counter `n`. */
  function Tag(conv: Convention, n: nat): (t: string)
    ensures t != [] && t[0] != '/'
  {
    match conv
    case Parenthesised => " (" + NatToString(n) + ")"
    case Underscored => "_" + NatToString(n)
  }

  /** Different counters give different tags. */
  lemma TagInjective(conv: Convention, m: nat, n: nat)
    requires Tag(conv, m) == Tag(conv, n)
    ensures m == n
  {
    var a := NatToString(m);
    var b := NatToString(n);
    match conv {
      case Parenthesised =>
        assert a == Tag(conv, m)[2..|Tag(conv, m)| - 1];
        assert b == Tag(conv, n)[2..|Tag(conv, n)| - 1];
      case Underscored =>
        assert a == Tag(conv, m)[1..];
        assert b == Tag(conv, n)[1..];
    }
    NatToStringInjective(m, n);
  }

  /** The final component tried for counter `n`. */
  function Candidate(stem: string, suffix: string, conv: Convention, n: nat): string {
    stem + Tag(conv, n) + suffix
  }

  lemma CandidateInjective(stem: string, suffix: string, conv: Convention, m: nat, n: nat)
    requires Candidate(stem, suffix, conv, m) == Candidate(stem, suffix, conv, n)
    ensures m == n
  {
    var cm := Candidate(stem, suffix, conv, m);
    var tm := Tag(conv, m);
    var tn := Tag(conv, n);
    assert |tm| == |tn|;
    assert tm == cm[|stem|..|stem| + |tm|];
    assert tn == cm[|stem|..|stem| + |tn|];
    TagInjective(conv, m, n);
  }

  /** The path tried for counter `n`. */
  function CandidatePath(dir: string, stem: string, suffix: string, conv: Convention, n: nat): string {
    PathJoin(dir, Candidate(stem, suffix, conv, n))
  }

  /** As long as the stem is a plain name, different counters are tried at
      different paths. */
  lemma CandidatePathInjective(dir: string, stem: string, suffix: string, conv: Convention, m: nat, n: nat)
    requires '/' !in stem
    requires CandidatePath(dir, stem, suffix, conv, m) == CandidatePath(dir, stem, suffix, conv, n)
    ensures m == n
  {
    var cm := Candidate(stem, suffix, conv, m);
    var cn := Candidate(stem, suffix, conv, n);
    assert cm[0] != '/' by {
      if stem != [] { assert cm[0] == stem[0]; } else { assert cm[0] == Tag(conv, m)[0]; }
    }
    assert cn[0] != '/' by {
      if stem != [] { assert cn[0] == stem[0]; } else { assert cn[0] == Tag(conv, n)[0]; }
    }
    PathJoinInjective(dir, cm, cn);
    CandidateInjective(stem, suffix, conv, m, n);
  }

  /** Different counters give different candidates. */
  ghost predicate Injective(cand: nat -> string) {
    forall m, n :: cand(m) == cand(n) ==> m == n
  }

  /** The candidates for the counters 1 .. n-1. */
  function Tried(cand: nat -> string, n: nat): set<string>
    decreases n
  {
    if n <= 1 then {} else Tried(cand, n - 1) + {cand(n - 1)}
  }

  /** Only the counters below `n` have been tried, and each gave its own
      candidate. */
  lemma {:induction false} TriedFacts(cand: nat -> string, n: nat)
    requires Injective(cand)
    ensures n >= 1 ==> |Tried(cand, n)| == n - 1
    ensures forall m: nat :: m >= n ==> cand(m) !in Tried(cand, n)
    decreases n
  {
    if n > 1 {
      TriedFacts(cand, n - 1);
    }
  }

  /** The allocation loop over any injective choice of candidates: `first`
      when it is free, otherwise the candidate for the smallest counter
      N >= 1 that is free. The loop ends because only finitely many paths
      exist. */
  method AllocateBy(existing: set<string>, first: string, cand: nat -> string) returns (path: string, n: nat)
    requires Injective(cand)
    ensures path !in existing
    ensures n == 0 <==> first !in existing
    ensures n == 0 ==> path == first
    ensures n > 0 ==> path == cand(n)
    ensures forall k :: 1 <= k < n ==> cand(k) in existing
  {
    if first !in existing {
      return first, 0;
    }
    n := 1;
    TriedFacts(cand, n);
    while cand(n) in existing
      invariant n >= 1
      invariant Tried(cand, n) <= existing
      invariant |Tried(cand, n)| == n - 1
      invariant forall k :: 1 <= k < n ==> cand(k) in existing
      decreases |existing| - (n - 1)
    {
      assert n - 1 <= |existing| by {
        SubsetCard(Tried(cand, n), existing);
      }
      n := n + 1;
      TriedFacts(cand, n);
      SubsetCard(Tried(cand, n), existing);
    }
    path := cand(n);
  }

  /** The allocation loop for the candidates of `dir`, `stem` and `suffix`. */
  method Allocate(existing: set<string>, first: string, dir: string, stem: string, suffix: string, conv: Convention)
    returns (path: string, n: nat)
    requires '/' !in stem
    ensures path !in existing
    ensures n == 0 <==> first !in existing
    ensures n == 0 ==> path == first
    ensures n > 0 ==> path == CandidatePath(dir, stem, suffix, conv, n)
    ensures forall k :: 1 <= k < n ==> CandidatePath(dir, stem, suffix, conv, k) in existing
    ensures FirstFree(existing, first, dir, stem, suffix, conv, path)
  {
    var cand := (k: nat) => CandidatePath(dir, stem, suffix, conv, k);
    forall m: nat, k: nat | cand(m) == cand(k)
      ensures m == k
    {
      CandidatePathInjective(dir, stem, suffix, conv, m, k);
    }
    path, n := AllocateBy(existing, first, cand);
    forall k | 1 <= k < n
      ensures CandidatePath(dir, stem, suffix, conv, k) in existing
    {
      assert cand(k) in existing;
    }
  }

  /** `path` is what the allocation loop picks against the taken paths
      `taken`: `first` when it is free, otherwise the candidate of `dir`,
      `stem` and `suffix` for a counter N >= 1 whose smaller counters are
      all taken, and never a taken path. */
  ghost predicate FirstFree(taken: set<string>, first: string, dir: string, stem: string, suffix: string,
                            conv: Convention, path: string)
  {
    && path !in taken
    && (first !in taken ==> path == first)
    && (first in taken ==>
          exists n: nat :: n >= 1 && path == CandidatePath(dir, stem, suffix, conv, n)
            && forall k :: 1 <= k < n ==> CandidatePath(dir, stem, suffix, conv, k) in taken)
  }

  /** The allocation is determined: two paths the loop could pick against
      the same taken paths are the same path. */
  lemma FirstFreeUnique(taken: set<string>, first: string, dir: string, stem: string, suffix: string,
                        conv: Convention, p: string, q: string)
    requires FirstFree(taken, first, dir, stem, suffix, conv, p)
    requires FirstFree(taken, first, dir, stem, suffix, conv, q)
    ensures p == q
  {
    if first in taken {
      var m: nat :| m >= 1 && p == CandidatePath(dir, stem, suffix, conv, m)
        && forall k :: 1 <= k < m ==> CandidatePath(dir, stem, suffix, conv, k) in taken;
      var n: nat :| n >= 1 && q == CandidatePath(dir, stem, suffix, conv, n)
        && forall k :: 1 <= k < n ==> CandidatePath(dir, stem, suffix, conv, k) in taken;
      assert CandidatePath(dir, stem, suffix, conv, m) !in taken;
      assert CandidatePath(dir, stem, suffix, conv, n) !in taken;
    }
  }

  lemma SubsetCard(a: set<string>, b: set<string>)
    requires a <= b
    ensures |a| <= |b|
  {
    assert b == a + (b - a);
  }

  /** `ensure_unique_path(path)`: the path itself when it is free, otherwise
      `parent/stem (N)suffix` for the smallest free N >= 1, where stem and
      suffix are those of the path's final component. */
  method EnsureUniquePath(existing: set<string>, path: string) returns (r: string, n: nat)
    ensures r !in existing
    ensures n == 0 <==> path !in existing
    ensures n == 0 ==> r == path
    ensures n > 0 ==>
      r == CandidatePath(Parent(path), PathStem(BaseName(path)), PathSuffix(BaseName(path)), Parenthesised, n)
    ensures forall k :: 1 <= k < n ==>
      CandidatePath(Parent(path), PathStem(BaseName(path)), PathSuffix(BaseName(path)), Parenthesised, k) in existing
    ensures FirstFree(existing, path, Parent(path), PathStem(BaseName(path)), PathSuffix(BaseName(path)),
                      Parenthesised, r)
  {
    var name := BaseName(path);
    StemSuffixNoSlash(name);
    r, n := Allocate(existing, path, Parent(path), PathStem(name), PathSuffix(name), Parenthesised);
  }

  /** The `_N` loop of the manage-case flow: `dir/name` when it is free,
      otherwise `dir/stem_N suffix` for the smallest free N >= 1, with stem
      and suffix taken from the final component of `dir/name`. */
  method UnderscoreUnique(existing: set<string>, dir: string, name: string) returns (r: string, n: nat)
    ensures r !in existing
    ensures n == 0 <==> PathJoin(dir, name) !in existing
    ensures n == 0 ==> r == PathJoin(dir, name)
    ensures n > 0 ==>
      r == CandidatePath(dir, PathStem(BaseName(PathJoin(dir, name))), PathSuffix(BaseName(PathJoin(dir, name))),
                         Underscored, n)
    ensures forall k :: 1 <= k < n ==>
      CandidatePath(dir, PathStem(BaseName(PathJoin(dir, name))), PathSuffix(BaseName(PathJoin(dir, name))),
                    Underscored, k) in existing
    ensures FirstFree(existing, PathJoin(dir, name), dir, PathStem(BaseName(PathJoin(dir, name))),
                      PathSuffix(BaseName(PathJoin(dir, name))), Underscored, r)
  {
    var dest := PathJoin(dir, name);
    var base := BaseName(dest);
    StemSuffixNoSlash(base);
    r, n := Allocate(existing, dest, dir, PathStem(base), PathSuffix(base), Underscored);
  }

  /** A candidate built from a single-component stem and suffix is itself
      a single, non-empty component. */
  lemma CandidatePlain(stem: string, suffix: string, conv: Convention, n: nat)
    requires '/' !in stem && '/' !in suffix
    ensures Candidate(stem, suffix, conv, n) != [] && '/' !in Candidate(stem, suffix, conv, n)
  {
    var d := NatToString(n);
    assert '/' !in d by {
      assert forall i :: 0 <= i < |d| ==> IsDigit(d[i]);
    }
    var t := Tag(conv, n);
    assert '/' !in t;
    var c := Candidate(stem, suffix, conv, n);
    assert forall i :: 0 <= i < |c| ==> c[i] in stem || c[i] in t || c[i] in suffix;
  }

  /** `ensure_unique_path(dir / name)` followed by creating the result, for
      a single-component `name` inside an existing folder `dir`: the new
      entry is a direct child of `dir`, and every folder still has its
      parent. */
  method UniqueChild(fs: set<string>, dir: string, name: string) returns (path: string, n: nat)
    requires ParentsExist(fs) && dir in fs
    requires dir != [] && dir[|dir| - 1] != '/' && PlainName(name)
    ensures path !in fs
    ensures n == 0 <==> dir + "/" + name !in fs
    ensures PlainName(BaseName(path)) && path == dir + "/" + BaseName(path) && Parent(path) == dir
    ensures n == 0 ==> BaseName(path) == name
    ensures n > 0 ==> BaseName(path) == Candidate(PathStem(name), PathSuffix(name), Parenthesised, n)
    ensures forall k :: 1 <= k < n ==> CandidatePath(dir, PathStem(name), PathSuffix(name), Parenthesised, k) in fs
    ensures FirstFree(fs, dir + "/" + name, dir, PathStem(name), PathSuffix(name), Parenthesised, path)
    ensures ParentsExist(fs + {path})
  {
    JoinParts(dir, name);
    path, n := EnsureUniquePath(fs, dir + "/" + name);
    var leaf := if n == 0 then name else Candidate(PathStem(name), PathSuffix(name), Parenthesised, n);
    StemSuffixNoSlash(name);
    CandidatePlain(PathStem(name), PathSuffix(name), Parenthesised, n);
    JoinParts(dir, leaf);
  }
}

=== FILE: query.dfy ===
/** The boolean query translator `normalize_boolean_query` (app.py:163-184).
    A whitespace-normalised query is read as a sequence of tokens, each a
    bare word (`\S+`) or a quoted phrase (`"[^"]+"`). The proximity form
    `left NEAR/N right` becomes the full-text operator `NEAR(left right, N)`,
    and the whole words and/or/not/near are then upper-cased. */
module Query {
  import opened Text
  import opened Digits

  datatype Token = Word(text: string) | Phrase(body: string)

  /** What the tokenizer can produce: words are non-empty runs of non-space
      characters, phrase bodies are non-empty and quote-free. */
  predicate ValidToken(t: Token) {
    match t
    case Word(w) => w != [] && NonSpace(w) == w
    case Phrase(b) => b != [] && '"' !in b
  }

  /** The text a token stands for in the query. */
  function RenderToken(t: Token): (r: string)
    ensures ValidToken(t) ==> r != []
  {
    match t
    case Word(w) => w
    case Phrase(b) => "\"" + b + "\""
  }

  /** The `NEAR/(\d+)` operator word, in any letter case. */
  predicate IsNearOp(t: Token) {
    t.Word? && |t.text| > 5 && Lower(t.text[..5]) == "near/" && AllDigits(t.text[5..])
  }

  /** The distance an operator word carries, as written. */
  function Distance(op: Token): (d: string)
    requires IsNearOp(op)
    ensures d != [] && AllDigits(d)
  {
    op.text[5..]
  }

  /** An item of the rewritten query: a token passed through, or one
      proximity match with its original operator word. */
  datatype Item = Plain(tok: Token) | Near(left: Token, op: Token, right: Token)

  /** `_NEAR_RE.sub`: scanning left to right, the first token of every
      `left NEAR/N right` triple starts a match, and the scan resumes after
      the match. */
  function RewriteNear(ts: seq<Token>): (items: seq<Item>)
    ensures forall i :: 0 <= i < |items| && items[i].Near? ==> IsNearOp(items[i].op)
    decreases |ts|
  {
    if |ts| >= 3 && IsNearOp(ts[1]) then [Near(ts[0], ts[1], ts[2])] + RewriteNear(ts[3..])
    else if ts == [] then []
    else [Plain(ts[0])] + RewriteNear(ts[1..])
  }

  /** In a chain `a NEAR/N b NEAR/M c` the leftmost triple is the match;
      the second operator and `c` pass through as plain words. */
  lemma ChainedNearLeftmost(a: Token, op1: Token, b: Token, op2: Token, c: Token)
    requires IsNearOp(op1) && IsNearOp(op2)
    ensures RewriteNear([a, op1, b, op2, c]) == [Near(a, op1, b), Plain(op2), Plain(c)]
  {
    assert [a, op1, b, op2, c][3..] == [op2, c];
    assert [op2, c][1..] == [c];
    assert [c][1..] == [];
    assert RewriteNear([c]) == [Plain(c)];
    assert RewriteNear([op2, c]) == [Plain(op2), Plain(c)];
  }

  /** The tokens an item came from. */
  function ItemTokens(it: Item): seq<Token> {
    match it
    case Plain(t) => [t]
    case Near(l, op, r) => [l, op, r]
  }

  /** Flattening the items back into tokens. */
  function Unrewrite(items: seq<Item>): seq<Token>
    decreases |items|
  {
    if items == [] then [] else ItemTokens(items[0]) + Unrewrite(items[1..])
  }

  /** The rewrite loses nothing: flattening its items gives back the query. */
  lemma {:induction false} RewriteRoundTrip(ts: seq<Token>)
    ensures Unrewrite(RewriteNear(ts)) == ts
    decreases |ts|
  {
    var items := RewriteNear(ts);
    if |ts| >= 3 && IsNearOp(ts[1]) {
      RewriteRoundTrip(ts[3..]);
      assert items[1..] == RewriteNear(ts[3..]);
      assert ts == [ts[0], ts[1], ts[2]] + ts[3..];
    } else if ts != [] {
      RewriteRoundTrip(ts[1..]);
      assert items[1..] == RewriteNear(ts[1..]);
      assert ts == [ts[0]] + ts[1..];
    }
  }

  /** Three passed-through tokens in a row that still form `left NEAR/N
      right`. */
  predicate PendingAt(items: seq<Item>, i: int)
    requires 0 <= i && i + 2 < |items|
  {
    items[i].Plain? && items[i + 1].Plain? && items[i + 2].Plain? && IsNearOp(items[i + 1].tok)
  }

  /** The rewrite leaves no proximity triple unrewritten. */
  lemma {:induction false} RewriteComplete(ts: seq<Token>)
    ensures forall i :: 0 <= i && i + 2 < |RewriteNear(ts)| ==> !PendingAt(RewriteNear(ts), i)
    decreases |ts|
  {
    var items := RewriteNear(ts);
    if |ts| >= 3 && IsNearOp(ts[1]) {
      RewriteComplete(ts[3..]);
      var rest := RewriteNear(ts[3..]);
      assert items[1..] == rest;
      forall i | 0 <= i && i + 2 < |items| ensures !PendingAt(items, i) {
        if i > 0 { assert PendingAt(items, i) == PendingAt(rest, i - 1); }
      }
    } else if ts != [] {
      RewriteComplete(ts[1..]);
      var rest := RewriteNear(ts[1..]);
      assert items[1..] == rest;
      forall i | 0 <= i && i + 2 < |items| ensures !PendingAt(items, i) {
        if i > 0 {
          assert PendingAt(items, i) == PendingAt(rest, i - 1);
        } else if items[1].Plain? && items[2].Plain? {
          PlainPrefix(ts[1..]);
        }
      }
    }
  }

  /** Two passed-through items at the head of a rewrite are the first two
      tokens. */
  lemma PlainPrefix(ts: seq<Token>)
    requires |RewriteNear(ts)| >= 2 && RewriteNear(ts)[0].Plain? && RewriteNear(ts)[1].Plain?
    ensures |ts| >= 2 && RewriteNear(ts)[0].tok == ts[0] && RewriteNear(ts)[1].tok == ts[1]
  {
    PlainHead(ts);
    PlainHead(ts[1..]);
  }

  /** An item passed through at the head of a rewrite is the head token. */
  lemma PlainHead(ts: seq<Token>)
    requires RewriteNear(ts) != [] && RewriteNear(ts)[0].Plain?
    ensures ts != [] && RewriteNear(ts)[0].tok == ts[0]
    ensures !(|ts| >= 3 && IsNearOp(ts[1]))
    ensures RewriteNear(ts)[1..] == RewriteNear(ts[1..])
  {
  }

  /** `f"NEAR({left} {right}, {distance})"` and the pass-through text. */
  function RenderItem(it: Item): string {
    match it
    case Plain(t) => RenderToken(t)
    case Near(l, op, r) =>
      if IsNearOp(op) then "NEAR(" + RenderToken(l) + " " + RenderToken(r) + ", " + Distance(op) + ")"
      else RenderToken(l) + " " + RenderToken(op) + " " + RenderToken(r)
  }

  /** Texts joined by single spaces. */
  function JoinSpaced(parts: seq<string>): string
    decreases |parts|
  {
    if parts == [] then []
    else if |parts| == 1 then parts[0]
    else parts[0] + " " + JoinSpaced(parts[1..])
  }

  function RenderItems(items: seq<Item>): seq<string>
    decreases |items|
  {
    if items == [] then [] else [RenderItem(items[0])] + RenderItems(items[1..])
  }

  /** Length of the run of word characters at the start of `s`. */
  function WordRun(s: string): (k: nat)
    ensures k <= |s|
    ensures forall i :: 0 <= i < k ==> IsWordChar(s[i])
    ensures k == |s| || !IsWordChar(s[k])
    decreases |s|
  {
    if s == [] || !IsWordChar(s[0]) then 0 else 1 + WordRun(s[1..])
  }

  /** One of the four operator keywords, in any letter case. */
  predicate IsKeyword(w: string) {
    var l := Lower(w);
    l == "and" || l == "or" || l == "not" || l == "near"
  }

  function KeywordCase(w: string): (r: string)
    ensures |r| == |w| && Lower(r) == Lower(w)
  {
    if IsKeyword(w) then LowerOfUpper(w); Upper(w) else w
  }

  /** Where the run of word characters that ends just before `i` starts. */
  function RunStart(s: string, i: int): (lo: int)
    requires 0 <= i <= |s|
    ensures 0 <= lo <= i
    decreases i
  {
    if i > 0 && IsWordChar(s[i - 1]) then RunStart(s, i - 1) else i
  }

  /** Where the run of word characters that starts at `i` ends. */
  function RunEnd(s: string, i: int): (hi: int)
    requires 0 <= i <= |s|
    ensures i <= hi <= |s|
    decreases |s| - i
  {
    if i < |s| && IsWordChar(s[i]) then RunEnd(s, i + 1) else i
  }

  /** The character at `i` belongs to a maximal run of word characters (a
      `\b...\b` match) that spells a keyword. */
  predicate InKeyword(s: string, i: int)
    requires 0 <= i < |s|
  {
    IsWordChar(s[i]) && IsKeyword(s[RunStart(s, i)..RunEnd(s, i)])
  }

  /** `r` is `s` with exactly the characters of keyword runs upper-cased. */
  predicate KeywordsUpper(s: string, r: string) {
    && |r| == |s|
    && forall i :: 0 <= i < |s| ==> r[i] == (if InKeyword(s, i) then UpperChar(s[i]) else s[i])
  }

  /** A run end does not depend on what precedes the point of reading. */
  lemma {:induction false} RunEndShift(s: string, j: int, i: int)
    requires 0 <= j <= i <= |s|
    ensures RunEnd(s, i) == j + RunEnd(s[j..], i - j)
    decreases |s| - i
  {
    if i < |s| && IsWordChar(s[i]) {
      assert s[j..][i - j] == s[i];
      RunEndShift(s, j, i + 1);
    }
  }

  /** A run start does not look past a non-word character at `b`. */
  lemma {:induction false} RunStartShift(s: string, b: int, j: int, i: int)
    requires 0 <= b < i <= |s| && !IsWordChar(s[b])
    requires j == b || j == b + 1
    ensures RunStart(s, i) == j + RunStart(s[j..], i - j)
    decreases i
  {
    if i - j > 0 {
      assert s[j..][i - j - 1] == s[i - 1];
    }
    if i > b + 1 && IsWordChar(s[i - 1]) {
      RunStartShift(s, b, j, i - 1);
    }
  }

  /** Inside a leading run of word characters, the run starts at 0. */
  lemma {:induction false} RunStartZero(s: string, i: int)
    requires 0 <= i <= |s|
    requires forall m :: 0 <= m < i ==> IsWordChar(s[m])
    ensures RunStart(s, i) == 0
    decreases i
  {
    if i > 0 {
      RunStartZero(s, i - 1);
    }
  }

  /** A run read from `i` ends at the first non-word character `k`. */
  lemma {:induction false} RunEndAt(s: string, i: int, k: int)
    requires 0 <= i <= k <= |s|
    requires forall m :: i <= m < k ==> IsWordChar(s[m])
    requires k == |s| || !IsWordChar(s[k])
    ensures RunEnd(s, i) == k
    decreases k - i
  {
    if i < k {
      RunEndAt(s, i + 1, k);
    }
  }

  /** Past a non-word character at `b`, the run around a position is the
      same whether read in `s` or in the text from `j` on. */
  lemma RunShift(s: string, b: int, j: int, i: int)
    requires 0 <= b < i < |s| && !IsWordChar(s[b])
    requires j == b || j == b + 1
    ensures s[RunStart(s, i)..RunEnd(s, i)] == s[j..][RunStart(s[j..], i - j)..RunEnd(s[j..], i - j)]
  {
    var u := s[j..];
    RunStartShift(s, b, j, i);
    RunEndShift(s, j, i);
    var lo, hi := RunStart(u, i - j), RunEnd(u, i - j);
    assert s[lo + j..hi + j] == u[lo..hi];
  }

  /** Past a non-word character at `b`, whether a position is in a
      keyword run can be read off the text from `j` on. */
  lemma InKeywordShift(s: string, b: int, j: int, i: int)
    requires 0 <= b < i < |s| && !IsWordChar(s[b])
    requires j == b || j == b + 1
    ensures InKeyword(s, i) == InKeyword(s[j..], i - j)
  {
    assert s[j..][i - j] == s[i];
    if IsWordChar(s[i]) {
      RunShift(s, b, j, i);
    }
  }

  /** Inside the leading run `s[..k]`, a position is in a keyword run
      exactly when that run is a keyword. */
  lemma InLeadingRun(s: string, k: int, i: int)
    requires 0 <= i < k <= |s|
    requires forall m :: 0 <= m < k ==> IsWordChar(s[m])
    requires k == |s| || !IsWordChar(s[k])
    ensures InKeyword(s, i) == IsKeyword(s[..k])
  {
    RunStartZero(s, i);
    RunEndAt(s, i, k);
    assert s[0..k] == s[..k];
  }

  /** A character that is not a word character passes through in front of
      the rest. */
  lemma NonWordStep(s: string, t: string)
    requires s != [] && !IsWordChar(s[0])
    requires KeywordsUpper(s[1..], t)
    ensures KeywordsUpper(s, [s[0]] + t)
  {
    var r := [s[0]] + t;
    var u := s[1..];
    forall i | 0 <= i < |s|
      ensures r[i] == (if InKeyword(s, i) then UpperChar(s[i]) else s[i])
    {
      if i > 0 {
        assert r[i] == t[i - 1] && u[i - 1] == s[i];
        InKeywordShift(s, 0, 1, i);
      }
    }
  }

  /** A leading run of word characters, cased as a whole, in front of the
      rest. */
  lemma RunStep(s: string, k: int, t: string)
    requires 0 < k <= |s|
    requires forall m :: 0 <= m < k ==> IsWordChar(s[m])
    requires k == |s| || !IsWordChar(s[k])
    requires KeywordsUpper(s[k..], t)
    ensures KeywordsUpper(s, KeywordCase(s[..k]) + t)
  {
    var w := s[..k];
    var c := KeywordCase(w);
    var r := c + t;
    var u := s[k..];
    forall i | 0 <= i < |s|
      ensures r[i] == (if InKeyword(s, i) then UpperChar(s[i]) else s[i])
    {
      if i < k {
        InLeadingRun(s, k, i);
        assert r[i] == c[i] && w[i] == s[i];
      } else {
        assert r[i] == t[i - k] && u[i - k] == s[i];
        if i > k {
          InKeywordShift(s, k, k, i);
        }
      }
    }
  }

  /** The four `re.sub(rf"\b{kw}\b", KW, flags=re.IGNORECASE)` passes. A
      `\b...\b` match is exactly a maximal run of word characters, and
      each pass keeps every run in place, so the four passes act as one
      pass that upper-cases every maximal word run spelling a keyword. */
  function UpperKeywords(s: string): (r: string)
    ensures KeywordsUpper(s, r)
    ensures |r| == |s|
    ensures Lower(r) == Lower(s)
    ensures forall i :: 0 <= i < |s| ==> (IsWordChar(r[i]) <==> IsWordChar(s[i]))
    decreases |s|
  {
    if s == [] then []
    else
      var k := WordRun(s);
      if k == 0 then
        var t := UpperKeywords(s[1..]);
        NonWordStep(s, t);
        UpperKeepsCase(s, [s[0]] + t);
        [s[0]] + t
      else
        var t := UpperKeywords(s[k..]);
        RunStep(s, k, t);
        UpperKeepsCase(s, KeywordCase(s[..k]) + t);
        KeywordCase(s[..k]) + t
  }

  /** Upper-casing some letters changes neither the lower-case form nor
      which characters are word characters. */
  lemma UpperKeepsCase(s: string, r: string)
    requires KeywordsUpper(s, r)
    ensures Lower(r) == Lower(s)
    ensures forall i :: 0 <= i < |s| ==> (IsWordChar(r[i]) <==> IsWordChar(s[i]))
  {
    forall i | 0 <= i < |s|
      ensures LowerChar(r[i]) == LowerChar(s[i]) && (IsWordChar(r[i]) <==> IsWordChar(s[i]))
    {
      if InKeyword(s, i) {
        assert r[i] == UpperChar(s[i]);
      }
    }
  }

  lemma KeywordCaseIdempotent(w: string)
    ensures KeywordCase(KeywordCase(w)) == KeywordCase(w)
  {
    if IsKeyword(w) {
      LowerOfUpper(w);
      UpperIdempotent(w);
    }
  }

  /** Upper-casing the keywords a second time changes nothing. */
  lemma {:induction false} UpperKeywordsIdempotent(s: string)
    ensures UpperKeywords(UpperKeywords(s)) == UpperKeywords(s)
    decreases |s|
  {
    if s != [] {
      var r := UpperKeywords(s);
      var k := WordRun(s);
      if k == 0 {
        var t := UpperKeywords(s[1..]);
        assert r == [s[0]] + t && r[1..] == t;
        assert WordRun(r) == 0;
        UpperKeywordsIdempotent(s[1..]);
      } else {
        var w := KeywordCase(s[..k]);
        var t := UpperKeywords(s[k..]);
        assert r == w + t;
        assert r[..k] == w && r[k..] == t;
        WordRunOf(r, k);
        UpperKeywordsIdempotent(s[k..]);
        KeywordCaseIdempotent(s[..k]);
      }
    }
  }

  /** The word run of `s` ends where the first non-word character is. */
  lemma {:induction false} WordRunOf(s: string, k: nat)
    requires k <= |s|
    requires forall i :: 0 <= i < k ==> IsWordChar(s[i])
    requires k == |s| || !IsWordChar(s[k])
    ensures WordRun(s) == k
    decreases k
  {
    if k > 0 {
      WordRunOf(s[1..], k - 1);
    }
  }

  /** `normalize_boolean_query` on a tokenized query. An empty token
      sequence is the empty or all-whitespace input, which yields "". */
  function NormalizeBooleanQuery(ts: seq<Token>): (r: string)
    requires forall i :: 0 <= i < |ts| ==> ValidToken(ts[i])
    ensures ts == [] <==> r == []
    ensures ts != [] ==> KeywordsUpper(JoinSpaced(RenderItems(RewriteNear(ts))), r)
    ensures r == UpperKeywords(r)
    ensures ts != [] ==> EqualsIgnoreCase(r, JoinSpaced(RenderItems(RewriteNear(ts))))
  {
    if ts == [] then []
    else
      var q := JoinSpaced(RenderItems(RewriteNear(ts)));
      RenderedNonEmpty(ts);
      UpperKeywordsIdempotent(q);
      UpperKeywords(q)
  }

  /** A non-empty query renders to non-empty text. */
  lemma RenderedNonEmpty(ts: seq<Token>)
    requires ts != [] && ValidToken(ts[0])
    ensures JoinSpaced(RenderItems(RewriteNear(ts))) != []
  {
    var items := RewriteNear(ts);
    assert items[0].Plain? ==> items[0].tok == ts[0];
    var parts := RenderItems(items);
    assert parts[0] == RenderItem(items[0]);
    assert |JoinSpaced(parts)| >= |parts[0]|;
  }

  /** `fraud NEAR/5 "bank account"` is one proximity match ... */
  lemma ProximityExample(a: Token, op: Token, b: Token)
    requires a == Word("fraud") && op == Word("near/5") && b == Phrase("bank account")
    ensures RewriteNear([a, op, b]) == [Near(a, op, b)]
  {
    assert op.text[..5] == "near/" && op.text[5..] == "5";
    assert Lower("near/") == "near/";
    assert [a, op, b][3..] == [];
  }

  /** ... which renders as `NEAR(fraud "bank account", 5)`. */
  lemma ProximityRendered(a: Token, op: Token, b: Token)
    requires a == Word("fraud") && b == Phrase("bank account")
    requires IsNearOp(op) && Distance(op) == "5"
    ensures RenderItem(Near(a, op, b)) == "NEAR(fraud " + "\"bank account\"" + ", 5)"
  {
  }

  /** `near/5` is an operator word with distance 5. */
  lemma NearOpExample(op: Token)
    requires op == Word("near/5")
    ensures IsNearOp(op) && Distance(op) == "5"
  {
    assert op.text[..5] == "near/" && op.text[5..] == "5";
    assert Lower("near/") == "near/";
  }
}

=== FILE: sanitize.dfy ===
/** The path sanitiser `sanitize_case_law_component`: whitespace
    normalisation, replacement of the characters no file system path
    segment may carry, and normalisation again (app.py:319-326). */
module Sanitize {
  import opened Text

  /** The class `[\\/:*?"<>|]` of `_ILLEGAL_FS_CHARS`. */
  predicate IsIllegal(c: char) {
    c == '\\' || c == '/' || c == ':' || c == '*' || c == '?' || c == '"'
    || c == '<' || c == '>' || c == '|'
  }

  predicate NoIllegal(s: string) {
    forall i :: 0 <= i < |s| ==> !IsIllegal(s[i])
  }

  /** `_ILLEGAL_FS_CHARS.sub(rep, s)` */
  function ReplaceIllegal(s: string, rep: char): string {
    seq(|s|, i requires 0 <= i < |s| => if IsIllegal(s[i]) then rep else s[i])
  }

  lemma NonSpaceMembers(s: string, c: char)
    ensures c in NonSpace(s) <==> c in s && !IsSpace(c)
  {
    if s != [] {
      NonSpaceMembers(s[1..], c);
      assert s == [s[0]] + s[1..];
    }
  }

  /** Normalising whitespace cannot bring an illegal character in. */
  lemma NormalizeKeepsLegal(s: string)
    ensures NoIllegal(s) ==> NoIllegal(NormalizeWs(s))
  {
    var r := NormalizeWs(s);
    forall i | 0 <= i < |r| && IsIllegal(r[i])
      ensures r[i] in s
    {
      NonSpaceMembers(r, r[i]);
      NonSpaceMembers(s, r[i]);
    }
  }

  /** Whitespace is never illegal, so replacing illegal characters commutes
      with dropping whitespace. */
  lemma {:induction false} ReplaceThenNonSpace(s: string, rep: char)
    ensures NonSpace(ReplaceIllegal(s, rep)) == NonSpace(ReplaceIllegal(NonSpace(s), rep))
  {
    if s != [] {
      var t := ReplaceIllegal(s, rep);
      ReplaceCons(s, rep);
      ReplaceThenNonSpace(s[1..], rep);
      assert t[1..] == ReplaceIllegal(s[1..], rep);
      assert NonSpace(t) == (if IsSpace(t[0]) then [] else [t[0]]) + NonSpace(t[1..]);
      if IsSpace(s[0]) {
        assert NonSpace(s) == NonSpace(s[1..]);
      } else {
        var u := NonSpace(s);
        assert u == [s[0]] + NonSpace(s[1..]);
        ReplaceCons(u, rep);
        var ru := ReplaceIllegal(u, rep);
        assert ru[1..] == ReplaceIllegal(NonSpace(s[1..]), rep);
        assert NonSpace(ru) == (if IsSpace(ru[0]) then [] else [ru[0]]) + NonSpace(ru[1..]);
      }
    }
  }

  /** Replacing works character by character from the front. */
  lemma ReplaceCons(s: string, rep: char)
    requires s != []
    ensures ReplaceIllegal(s, rep) == [if IsIllegal(s[0]) then rep else s[0]] + ReplaceIllegal(s[1..], rep)
  {
  }

  lemma ReplaceIsLegal(s: string, rep: char)
    ensures !IsIllegal(rep) ==> NoIllegal(ReplaceIllegal(s, rep))
  {
  }

  lemma ReplaceLegalIsIdentity(s: string, rep: char)
    requires NoIllegal(s)
    ensures ReplaceIllegal(s, rep) == s
  {
  }

  /** A character that sanitising with `rep` turns into whitespace. */
  predicate BlanksOut(c: char, rep: char) {
    IsSpace(c) || (IsIllegal(c) && IsSpace(rep))
  }

  /** Every character of `text` blanks out, so sanitising it leaves
      nothing. */
  predicate AllBlanksOut(text: string, rep: char) {
    forall i :: 0 <= i < |text| ==> BlanksOut(text[i], rep)
  }

  lemma BlankReplacement(text: string, rep: char)
    ensures AllSpace(ReplaceIllegal(text, rep)) <==>
      forall i :: 0 <= i < |text| ==> BlanksOut(text[i], rep)
  {
    var t := ReplaceIllegal(text, rep);
    assert forall i :: 0 <= i < |text| ==> t[i] == if IsIllegal(text[i]) then rep else text[i];
  }

  lemma SanitizeContent(text: string, rep: char)
    ensures NonSpace(ReplaceIllegal(NormalizeWs(text), rep))
         == NonSpace(ReplaceIllegal(NonSpace(text), rep))
    ensures NonSpace(ReplaceIllegal(text, rep))
         == NonSpace(ReplaceIllegal(NonSpace(text), rep))
  {
    ReplaceThenNonSpace(NormalizeWs(text), rep);
    ReplaceThenNonSpace(text, rep);
  }

  lemma SanitizeBlank(text: string, rep: char)
    ensures NormalizeWs(ReplaceIllegal(NormalizeWs(text), rep)) == [] <==>
      forall i :: 0 <= i < |text| ==> BlanksOut(text[i], rep)
  {
    var replaced := ReplaceIllegal(NormalizeWs(text), rep);
    SanitizeContent(text, rep);
    NonSpaceEmpty(replaced);
    NonSpaceEmpty(ReplaceIllegal(text, rep));
    BlankReplacement(text, rep);
  }

  /** Replacing the illegal characters never touches whitespace. */
  lemma ReplaceIsMap(s: string, rep: char)
    ensures KeepsSpaces(c => if IsIllegal(c) then rep else c)
    ensures ReplaceIllegal(s, rep) == MapChars(s, c => if IsIllegal(c) then rep else c)
  {
  }

  /** Normalising whitespace before the replacement does not change the
      words the replacement leaves. */
  lemma ReplaceWords(text: string, rep: char)
    ensures Words(ReplaceIllegal(NormalizeWs(text), rep)) == Words(ReplaceIllegal(text, rep))
  {
    var f := c => if IsIllegal(c) then rep else c;
    ReplaceIsMap(NormalizeWs(text), rep);
    ReplaceIsMap(text, rep);
    NormalizeMapWords(text, f);
  }

  /** `sanitize_case_law_component(text, rep)`. The result is the words of
      `text`, with each illegal character replaced by `rep`, joined by single
      spaces. So it is whitespace normalised; it keeps the non-blank
      characters of `text` in order; it carries no illegal character when
      `rep` is legal; and it is empty exactly when every character of `text`
      blanks out. */
  function SanitizeComponent(text: string, rep: char): (r: string)
    ensures r == Unwords(Words(ReplaceIllegal(text, rep)))
    ensures IsNormalized(r)
    ensures !IsIllegal(rep) ==> NoIllegal(r)
    ensures NonSpace(r) == NonSpace(ReplaceIllegal(NonSpace(text), rep))
    ensures r == [] <==> AllBlanksOut(text, rep)
  {
    var replaced := ReplaceIllegal(NormalizeWs(text), rep);
    ReplaceWords(text, rep);
    NormalizeWsWords(replaced);
    SanitizeContent(text, rep);
    SanitizeBlank(text, rep);
    NormalizeKeepsLegal(replaced);
    ReplaceIsLegal(NormalizeWs(text), rep);
    NormalizeWs(replaced)
  }

  /** Sanitising twice is sanitising once, whenever the replacement is
      itself legal. */
  lemma SanitizeIdempotent(text: string, rep: char)
    requires !IsIllegal(rep)
    ensures SanitizeComponent(SanitizeComponent(text, rep), rep) == SanitizeComponent(text, rep)
  {
    var s := SanitizeComponent(text, rep);
    NormalizedIsFixed(s);
    ReplaceLegalIsIdentity(s, rep);
  }

  /** A sanitised segment, or the caller's fallback when sanitising leaves
      nothing (`sanitize_case_law_component(...) or fallback`). */
  function SegmentOr(text: string, rep: char, fallback: string): (r: string)
    ensures AllBlanksOut(text, rep) ==> r == fallback
    ensures !AllBlanksOut(text, rep) ==> r == Unwords(Words(ReplaceIllegal(text, rep)))
    ensures fallback != [] ==> r != []
    ensures !IsIllegal(rep) && NoIllegal(fallback) ==> NoIllegal(r)
  {
    var s := SanitizeComponent(text, rep);
    if s == [] then fallback else s
  }

  /** A segment is its own segment: sanitising it again, with the same
      legal replacement and a normalised legal fallback, changes nothing. */
  lemma SegmentOrIdempotent(text: string, rep: char, fallback: string)
    requires !IsIllegal(rep) && fallback != [] && IsNormalized(fallback) && NoIllegal(fallback)
    ensures SegmentOr(SegmentOr(text, rep, fallback), rep, fallback) == SegmentOr(text, rep, fallback)
  {
    var s := SanitizeComponent(text, rep);
    if s == [] {
      NormalizedIsFixed(fallback);
      ReplaceLegalIsIdentity(fallback, rep);
    } else {
      SanitizeIdempotent(text, rep);
    }
  }
}

=== FILE: search.dfy ===
/** The filter and limit handling of `case_law_search` (app.py:1134-1244):
    which request arguments become filters, which are rejected, and how
    the result limit is clamped. The full-text engine is foreign: the rows
    it finds for the translated query are given as a set of ids. */
module Search {
  import opened Wrappers
  import opened Text
  import opened Digits
  import opened Vocabulary
  import opened Query
  import opened Catalog

  /** `int(request.args.get("limit", "50"))`, falling back to 50 when the
      text is not an integer, then clamped into 1..200 (app.py:1198-1202). */
  function ClampLimit(raw: Option<string>): (limit: int)
    ensures 1 <= limit <= 200
    ensures ParseInt(raw.GetOr("50")).None? ==> limit == 50
    ensures ParseInt(raw.GetOr("50")).Some? && 1 <= ParseInt(raw.GetOr("50")).value <= 200 ==>
      limit == ParseInt(raw.GetOr("50")).value
    ensures ParseInt(raw.GetOr("50")).Some? && ParseInt(raw.GetOr("50")).value > 200 ==> limit == 200
    ensures ParseInt(raw.GetOr("50")).Some? && ParseInt(raw.GetOr("50")).value < 1 ==> limit == 1
  {
    var requested := match ParseInt(raw.GetOr("50")) case Some(n) => n case None => 50;
    if requested < 1 then 1 else if requested > 200 then 200 else requested
  }

  /** Without a `limit` argument the search returns at most 50 rows. */
  lemma DefaultLimit()
    ensures ClampLimit(None) == 50
  {
    var s := "50";
    assert AllDigits(s) by {
      assert IsDigit(s[0]) && IsDigit(s[1]);
    }
    assert DigitsValue(s) == 50 by {
      assert s[..1] == "5" && "5"[..0] == [];
    }
    ParseUnsigned(s);
  }

  /** Clamping is idempotent: a clamped limit, written back as text, is
      clamped to itself. */
  lemma ClampIdempotent(raw: Option<string>)
    ensures ClampLimit(Some(IntToString(ClampLimit(raw)))) == ClampLimit(raw)
  {
    ParseIntRoundTrip(ClampLimit(raw));
  }

  datatype PartyMode = PetitionerOnly | RespondentOnly | EitherParty

  /** The query-string arguments. `text` is the tokenized `text` argument,
      empty when it is absent or blank. */
  datatype SearchArgs = SearchArgs(
    text: seq<Token>, party: Option<string>, partyMode: Option<string>, citation: Option<string>,
    year: Option<string>, primaryType: Option<string>, caseType: Option<string>, limit: Option<string>)

  /** The `WHERE` conditions of the query, with the `LIKE` needles already
      lower-cased. */
  datatype Filters = Filters(
    fts: Option<string>, party: Option<(PartyMode, string)>, citation: Option<string>,
    year: Option<int>, primary: Option<string>, caseType: Option<string>, limit: int)

  /** The party mode: exactly "petitioner" or "respondent" pick one side,
      anything else (the default "either" included) both. */
  function ModeOf(mode: string): PartyMode {
    if mode == "petitioner" then PetitionerOnly
    else if mode == "respondent" then RespondentOnly
    else EitherParty
  }

  /** The `year` argument is given but is no integer. */
  predicate BadYear(yearText: string) {
    yearText != [] && ParseInt(yearText).None?
  }

  /** The primary classification is given but unknown, or a case type is
      given with it that its list does not hold. */
  predicate BadClass(primaryText: string, typeText: string) {
    || (primaryText != [] && NormalizePrimaryType(primaryText).None?)
    || (typeText != [] && primaryText != []
        && NormalizeCaseType(NormalizePrimaryType(primaryText).GetOr(""), typeText).None?)
  }

  /** The year filter (app.py:1172-1179). */
  function YearFilter(yearText: string): (r: Result<Option<int>>)
    ensures r.Err? <==> BadYear(yearText)
    ensures r.Err? ==> r.error == InvalidArgument("Invalid year filter supplied.")
    ensures r.Ok? ==> (r.value.Some? <==> yearText != []) && (r.value.Some? ==> ParseInt(yearText) == r.value)
  {
    if yearText == [] then Ok(None)
    else match ParseInt(yearText)
      case None => Err(InvalidArgument("Invalid year filter supplied."))
      case Some(n) => Ok(Some(n))
  }

  /** The primary classification and case type filters (app.py:1181-1196):
      the case type is only looked at together with a primary
      classification. */
  function ClassFilter(primaryText: string, typeText: string): (r: Result<(Option<string>, Option<string>)>)
    ensures r.Err? <==> BadClass(primaryText, typeText)
    ensures r.Err? ==> r.error.InvalidArgument?
    ensures r.Ok? ==> (r.value.0.Some? <==> primaryText != [])
    ensures r.Ok? ==> (r.value.1.Some? <==> primaryText != [] && typeText != [])
    ensures r.Ok? && r.value.0.Some? ==> r.value.0.value in PrimaryTypes
    ensures r.Ok? && r.value.1.Some? ==> r.value.0.Some? && r.value.1.value in CaseTypesOf(r.value.0.value)
    ensures r.Ok? && r.value.0.Some? ==> EqualsIgnoreCase(NormalizeWs(primaryText), r.value.0.value)
    ensures r.Ok? && r.value.1.Some? ==> EqualsIgnoreCase(NormalizeWs(typeText), r.value.1.value)
    ensures primaryText != [] && NormalizePrimaryType(primaryText).None? ==>
      r == Err(InvalidArgument("Invalid primary classification."))
    ensures r.Err? && NormalizePrimaryType(primaryText).Some? ==>
      r == Err(InvalidArgument("Invalid case type supplied."))
  {
    if primaryText == [] then Ok((None, None))
    else match NormalizePrimaryType(primaryText)
      case None => Err(InvalidArgument("Invalid primary classification."))
      case Some(p) =>
        PrimaryListed(Some(p));
        if typeText == [] then Ok((Some(p), None))
        else match NormalizeCaseType(p, typeText)
          case None => Err(InvalidArgument("Invalid case type supplied."))
          case Some(t) => Ok((Some(p), Some(t)))
  }

  /** The text, party and citation filters, which never fail
      (app.py:1143-1169). */
  function TextFilters(a: SearchArgs): (r: (Option<string>, Option<(PartyMode, string)>, Option<string>))
    requires forall i :: 0 <= i < |a.text| ==> ValidToken(a.text[i])
    ensures r.0.Some? <==> a.text != []
    ensures r.0.Some? ==> r.0.value == NormalizeBooleanQuery(a.text)
    ensures r.1.Some? <==> FormField(a.party) != []
    ensures r.1.Some? ==> r.1.value.1 == Lower(FormField(a.party))
    ensures r.1.Some? ==> r.1.value.0 == ModeOf(NormalizeWs(a.partyMode.GetOr("either")))
    ensures r.2.Some? <==> FormField(a.citation) != []
    ensures r.2.Some? ==> r.2.value == Lower(FormField(a.citation))
  {
    var fts := if a.text == [] then None else Some(NormalizeBooleanQuery(a.text));
    var partyText := FormField(a.party);
    var party := if partyText == [] then None
      else Some((ModeOf(NormalizeWs(a.partyMode.GetOr("either"))), Lower(partyText)));
    var cit := FormField(a.citation);
    (fts, party, if cit == [] then None else Some(Lower(cit)))
  }

  /** The text, party and citation filters say what the arguments ask:
      the translated query, the party needle with its side, and the
      citation needle, each present exactly when its argument is. */
  predicate TextFiltersOf(a: SearchArgs, f: Filters)
    requires forall i :: 0 <= i < |a.text| ==> ValidToken(a.text[i])
  {
    && (f.fts.Some? <==> a.text != [])
    && (f.fts.Some? ==> f.fts.value == NormalizeBooleanQuery(a.text))
    && (f.party.Some? <==> FormField(a.party) != [])
    && (f.party.Some? ==> f.party.value == (ModeOf(NormalizeWs(a.partyMode.GetOr("either"))), Lower(FormField(a.party))))
    && (f.citation.Some? <==> FormField(a.citation) != [])
    && (f.citation.Some? ==> f.citation.value == Lower(FormField(a.citation)))
  }

  /** The year and classification filters say what the arguments ask: the
      year read as an integer, and the canonical classification and case
      type the arguments name ignoring case, each present exactly when its
      argument is (the case type only together with a classification). */
  predicate ClassFiltersOf(a: SearchArgs, f: Filters) {
    && (f.year.Some? <==> FormField(a.year) != [])
    && (f.year.Some? ==> ParseInt(FormField(a.year)) == f.year)
    && (f.primary.Some? <==> FormField(a.primaryType) != [])
    && (f.primary.Some? ==>
          f.primary.value in PrimaryTypes && EqualsIgnoreCase(FormField(a.primaryType), f.primary.value))
    && (f.caseType.Some? <==> FormField(a.primaryType) != [] && FormField(a.caseType) != [])
    && (f.caseType.Some? ==>
          && f.primary.Some? && f.caseType.value in CaseTypesOf(f.primary.value)
          && EqualsIgnoreCase(FormField(a.caseType), f.caseType.value))
  }

  /** The argument checks of the search route in their order: a year that
      is no integer, an unknown primary classification, and a case type
      outside the classification's list are rejected. Otherwise every
      filter is what its argument asks for, and the limit is clamped. */
  function ParseSearch(a: SearchArgs): (r: Result<Filters>)
    requires forall i :: 0 <= i < |a.text| ==> ValidToken(a.text[i])
    ensures r.Err? <==> BadYear(FormField(a.year)) || BadClass(FormField(a.primaryType), FormField(a.caseType))
    ensures r.Err? ==> r.error.InvalidArgument?
    ensures r.Ok? ==> r.value.limit == ClampLimit(a.limit) && 1 <= r.value.limit <= 200
    ensures r.Ok? ==> TextFiltersOf(a, r.value)
    ensures r.Ok? ==> ClassFiltersOf(a, r.value)
  {
    var year := YearFilter(FormField(a.year));
    var cls := ClassFilter(FormField(a.primaryType), FormField(a.caseType));
    if year.Err? then Err(year.error)
    else if cls.Err? then Err(cls.error)
    else Ok(Assemble(a, year.value, cls.value))
  }

  /** The filters of a request whose year and classification passed. */
  function Assemble(a: SearchArgs, year: Option<int>, cls: (Option<string>, Option<string>)): (f: Filters)
    requires forall i :: 0 <= i < |a.text| ==> ValidToken(a.text[i])
    requires YearFilter(FormField(a.year)) == Ok(year)
    requires ClassFilter(FormField(a.primaryType), FormField(a.caseType)) == Ok(cls)
    ensures f.limit == ClampLimit(a.limit)
    ensures TextFiltersOf(a, f) && ClassFiltersOf(a, f)
  {
    var t := TextFilters(a);
    var f := Filters(t.0, t.1, t.2, year, cls.0, cls.1, ClampLimit(a.limit));
    FormFieldFixed(a.primaryType);
    FormFieldFixed(a.caseType);
    f
  }

  /** A form field is already whitespace normalised. */
  lemma FormFieldFixed(v: Option<string>)
    ensures NormalizeWs(FormField(v)) == FormField(v)
  {
    NormalizeIdempotent(v.GetOr(""));
  }

  /** An integer written out is a form field that reads back as itself. */
  lemma IntFieldFixed(y: int)
    ensures FormField(Some(IntToString(y))) == IntToString(y) != []
  {
    var t := IntToString(y);
    var d := NatToString(if y < 0 then -y else y);
    assert forall i :: 0 <= i < |d| ==> IsDigit(d[i]);
    assert forall i :: 0 <= i < |t| ==> t[i] == '-' || IsDigit(t[i]);
    assert IsNormalized(t);
    NormalizedIsFixed(t);
  }

  /** A year written as an integer is read back as that year. */
  lemma SearchYearRoundTrip(y: int, limit: Option<string>)
    ensures var r := ParseSearch(SearchArgs([], None, None, None, Some(IntToString(y)), None, None, limit));
      r.Ok? && r.value.year == Some(y)
  {
    ParseIntRoundTrip(y);
    IntFieldFixed(y);
    assert FormField(None) == [] by {
      NonSpaceEmpty("");
    }
  }

  /** The canonical classifications differ even ignoring case. */
  lemma PrimaryTypesDistinct(i: int, j: int)
    requires 0 <= i < |PrimaryTypes| && 0 <= j < |PrimaryTypes|
    requires EqualsIgnoreCase(PrimaryTypes[i], PrimaryTypes[j])
    ensures i == j
  {
    assert Lower("Criminal")[1] == 'r';
    assert Lower("Civil")[1] == 'i';
    assert Lower("Commercial")[1] == 'o';
  }

  /** A canonical classification, spelled as the vocabulary spells it, is
      accepted as itself. */
  lemma CanonicalPrimaryAccepted(p: string)
    requires p in PrimaryTypes
    ensures ClassFilter(p, []) == Ok((Some(p), None))
  {
    PrimaryRecognised(p);
  }

  /** A canonical classification is recognised as itself. */
  lemma PrimaryRecognised(p: string)
    requires p in PrimaryTypes
    ensures NormalizePrimaryType(p) == Some(p)
  {
    assert IsNormalized(p) by {
      assert forall i :: 0 <= i < |p| ==> !IsSpace(p[i]);
    }
    NormalizedIsFixed(p);
    var r := NormalizePrimaryType(p);
    var k :| 0 <= k < |PrimaryTypes| && PrimaryTypes[k] == p;
    assert r.Some?;
    var j :| 0 <= j < |PrimaryTypes| && PrimaryTypes[j] == r.value;
    PrimaryTypesDistinct(j, k);
  }

  lemma PrimaryListed(p: Option<string>)
    requires p.Some? ==> p.value == "Criminal" || p.value == "Civil" || p.value == "Commercial"
    ensures p.Some? ==> p.value in PrimaryTypes
  {
  }

  /** `needle` occurs in `s`, as `LIKE '%needle%'` finds it. */
  predicate Contains(s: string, needle: string) {
    exists i :: 0 <= i <= |s| - |needle| && OccursAt(s, needle, i)
  }

  predicate OccursAt(s: string, needle: string, i: int) {
    0 <= i <= |s| - |needle| && s[i..i + |needle|] == needle
  }

  /** A catalog row with id `id` satisfies every filter; `hits` are the
      rows the full-text engine matched for the translated query. */
  predicate Matches(id: nat, rec: Record, f: Filters, hits: set<nat>) {
    && (f.fts.Some? ==> id in hits)
    && (f.party.Some? ==>
          match f.party.value.0
          case PetitionerOnly => Contains(Lower(rec.petitioner), f.party.value.1)
          case RespondentOnly => Contains(Lower(rec.respondent), f.party.value.1)
          case EitherParty =>
            Contains(Lower(rec.petitioner), f.party.value.1) || Contains(Lower(rec.respondent), f.party.value.1))
    && (f.citation.Some? ==> Contains(Lower(rec.citation), f.citation.value))
    && (f.year.Some? ==> rec.decisionYear == f.year.value)
    && (f.primary.Some? ==> rec.primaryType == f.primary.value)
    && (f.caseType.Some? ==> rec.subtype == f.caseType.value)
  }

  /** A search with no filter arguments accepts every row. */
  lemma NoFiltersMatchAll(id: nat, rec: Record, limit: Option<string>, hits: set<nat>)
    ensures var r := ParseSearch(SearchArgs([], None, None, None, None, None, None, limit));
      r.Ok? && Matches(id, rec, r.value, hits)
  {
    assert FormField(None) == [] by {
      NonSpaceEmpty("");
    }
  }

  /** A party search in "either" mode accepts a row when the text occurs
      in either party's name, ignoring case. */
  lemma EitherPartyMatch(id: nat, rec: Record, party: string, hits: set<nat>)
    requires IsNormalized(party) && party != []
    requires Contains(Lower(rec.respondent), Lower(party))
    ensures var r := ParseSearch(SearchArgs([], Some(party), None, None, None, None, None, None));
      r.Ok? && r.value.party == Some((EitherParty, Lower(party))) && Matches(id, rec, r.value, hits)
  {
    NormalizedIsFixed(party);
    assert FormField(None) == [] by {
      NonSpaceEmpty("");
    }
    assert NormalizeWs("either") != "petitioner" && NormalizeWs("either") != "respondent" by {
      NormalizeFacts("either");
    }
  }

  lemma NormalizeFacts(s: string)
    requires s == "either"
    ensures NormalizeWs(s) == s
  {
    assert IsNormalized(s) by {
      assert forall i :: 0 <= i < |s| ==> !IsSpace(s[i]);
    }
    NormalizedIsFixed(s);
  }
}

=== FILE: text.dfy ===
/** Character classes, case mapping and the whitespace normaliser
    `normalize_ws` that every form field of the application passes through
    (`re.sub(r"\s+", " ", s).strip()`). */
module Text {
  import opened Wrappers

  /** Whitespace as Python's `str.isspace()` defines it; the regex class
      `\s` of a `str` pattern and `str.strip()` both use this set. */
  predicate IsSpace(c: char) {
    || ('\U{9}' <= c <= '\U{D}')
    || ('\U{1C}' <= c <= '\U{20}')
    || c == '\U{85}' || c == '\U{A0}' || c == '\U{1680}'
    || ('\U{2000}' <= c <= '\U{200A}')
    || c == '\U{2028}' || c == '\U{2029}' || c == '\U{202F}'
    || c == '\U{205F}' || c == '\U{3000}'
  }

  predicate AllSpace(s: string) {
    forall i :: 0 <= i < |s| ==> IsSpace(s[i])
  }

  /** The regex word class `\w`, restricted to ASCII. */
  predicate IsWordChar(c: char) {
    ('a' <= c <= 'z') || ('A' <= c <= 'Z') || ('0' <= c <= '9') || c == '_'
  }

  predicate IsDigit(c: char) {
    '0' <= c <= '9'
  }

  // ---- Case mapping (ASCII) ------------------------------------------------

  function LowerChar(c: char): char {
    if 'A' <= c <= 'Z' then (c as int + 32) as char else c
  }

  function UpperChar(c: char): char {
    if 'a' <= c <= 'z' then (c as int - 32) as char else c
  }

  /** `str.lower()` */
  function Lower(s: string): string {
    seq(|s|, i requires 0 <= i < |s| => LowerChar(s[i]))
  }

  /** `str.upper()` */
  function Upper(s: string): string {
    seq(|s|, i requires 0 <= i < |s| => UpperChar(s[i]))
  }

  /** `a.lower() == b.lower()` */
  predicate EqualsIgnoreCase(a: string, b: string) {
    Lower(a) == Lower(b)
  }

  /** No lower-case ASCII letter occurs in `s`. */
  predicate NoLower(s: string) {
    forall i :: 0 <= i < |s| ==> !('a' <= s[i] <= 'z')
  }

  lemma UpperIsUpper(s: string)
    ensures NoLower(Upper(s))
  {
  }

  /** Upper-casing forgets whatever a prior lower-casing did. */
  lemma UpperOfLower(s: string)
    ensures Upper(Lower(s)) == Upper(s)
  {
    assert forall i :: 0 <= i < |s| ==> Upper(Lower(s))[i] == Upper(s)[i];
  }

  /** Lower-casing forgets whatever a prior upper-casing did. */
  lemma LowerOfUpper(s: string)
    ensures Lower(Upper(s)) == Lower(s)
  {
    assert forall i :: 0 <= i < |s| ==> Lower(Upper(s))[i] == Lower(s)[i];
  }

  lemma UpperIdempotent(s: string)
    ensures Upper(Upper(s)) == Upper(s)
  {
    assert forall i :: 0 <= i < |s| ==> Upper(Upper(s))[i] == Upper(s)[i];
  }

  lemma LowerIdempotent(s: string)
    ensures Lower(Lower(s)) == Lower(s)
  {
    assert forall i :: 0 <= i < |s| ==> Lower(Lower(s))[i] == Lower(s)[i];
  }

  lemma LowerConcat(a: string, b: string)
    ensures Lower(a + b) == Lower(a) + Lower(b)
  {
    assert forall i :: 0 <= i < |a + b| ==> Lower(a + b)[i] == (Lower(a) + Lower(b))[i];
  }

  lemma UpperConcat(a: string, b: string)
    ensures Upper(a + b) == Upper(a) + Upper(b)
  {
    assert forall i :: 0 <= i < |a + b| ==> Upper(a + b)[i] == (Upper(a) + Upper(b))[i];
  }

  predicate StartsWith(s: string, prefix: string) {
    |prefix| <= |s| && s[..|prefix|] == prefix
  }

  predicate EndsWith(s: string, suffix: string) {
    |suffix| <= |s| && s[|s| - |suffix|..] == suffix
  }

  /** The two halves of a concatenation are its prefix and its suffix. */
  lemma ConcatParts(a: string, b: string)
    ensures (a + b)[..|a|] == a && (a + b)[|a|..] == b
    ensures StartsWith(a + b, a) && EndsWith(a + b, b)
  {
  }

  // ---- Whitespace ----------------------------------------------------------

  /** The non-whitespace characters of `s`, in order: what whitespace
      normalisation must leave untouched. */
  function NonSpace(s: string): string {
    if s == [] then []
    else (if IsSpace(s[0]) then [] else [s[0]]) + NonSpace(s[1..])
  }

  lemma {:induction false} NonSpaceConcat(a: string, b: string)
    ensures NonSpace(a + b) == NonSpace(a) + NonSpace(b)
  {
    if a == [] {
      assert a + b == b;
    } else {
      assert (a + b)[1..] == a[1..] + b;
      NonSpaceConcat(a[1..], b);
    }
  }

  lemma {:induction false} NonSpaceEmpty(s: string)
    ensures NonSpace(s) == [] <==> AllSpace(s)
  {
    if s != [] {
      NonSpaceEmpty(s[1..]);
    }
  }

  /** The characters at `i` and `i + 1` are not both whitespace. */
  predicate NoRunAt(s: string, i: int)
    requires 0 <= i < |s| - 1
  {
    !IsSpace(s[i]) || !IsSpace(s[i + 1])
  }

  /** Only `' '` is used as whitespace, and never twice in a row. */
  predicate Squeezed(s: string) {
    && (forall i :: 0 <= i < |s| && IsSpace(s[i]) ==> s[i] == ' ')
    && (forall i :: 0 <= i < |s| - 1 ==> NoRunAt(s, i))
  }

  /** The shape of every `normalize_ws` result: squeezed, and no whitespace
      at either end. */
  predicate IsNormalized(s: string) {
    && Squeezed(s)
    && (s != [] ==> !IsSpace(s[0]) && !IsSpace(s[|s| - 1]))
  }

  /** Any slice of a squeezed string is squeezed. */
  lemma SqueezedSlice(s: string, lo: int, hi: int)
    requires 0 <= lo <= hi <= |s|
    ensures Squeezed(s) ==> Squeezed(s[lo..hi])
  {
    if Squeezed(s) {
      var t := s[lo..hi];
      forall i | 0 <= i < |t| - 1
        ensures NoRunAt(t, i)
      {
        assert NoRunAt(s, lo + i);
      }
    }
  }

  /** Putting a character in front of a squeezed string keeps it squeezed
      unless that makes a run of whitespace or brings in other whitespace. */
  lemma SqueezedCons(c: char, t: string)
    requires Squeezed(t)
    requires IsSpace(c) ==> c == ' ' && (t == [] || !IsSpace(t[0]))
    ensures Squeezed([c] + t)
  {
    var s := [c] + t;
    forall i | 0 <= i < |s| - 1
      ensures NoRunAt(s, i)
    {
      if i > 0 {
        assert NoRunAt(t, i - 1);
      }
    }
  }

  /** The number of whitespace characters `s` starts with. */
  function LeadingSpaces(s: string): (k: nat)
    ensures k <= |s|
    ensures k == |s| || !IsSpace(s[k])
    ensures forall i :: 0 <= i < k ==> IsSpace(s[i])
    decreases |s|
  {
    if s != [] && IsSpace(s[0]) then 1 + LeadingSpaces(s[1..]) else 0
  }

  /** The index where the whitespace `s` ends with begins. */
  function TrailingStart(s: string): (k: nat)
    ensures k <= |s|
    ensures k == 0 || !IsSpace(s[k - 1])
    ensures forall i :: k <= i < |s| ==> IsSpace(s[i])
    decreases |s|
  {
    if s != [] && IsSpace(s[|s| - 1]) then TrailingStart(s[..|s| - 1]) else |s|
  }

  /** Both trimming positions depend only on where the whitespace is. */
  lemma SameSpacesSameTrim(s: string, t: string)
    requires |s| == |t|
    requires forall i :: 0 <= i < |s| ==> (IsSpace(s[i]) <==> IsSpace(t[i]))
    ensures LeadingSpaces(s) == LeadingSpaces(t)
    ensures TrailingStart(s) == TrailingStart(t)
  {
  }

  lemma NonSpaceSplit(s: string, k: int)
    requires 0 <= k <= |s|
    ensures NonSpace(s) == NonSpace(s[..k]) + NonSpace(s[k..])
  {
    assert s == s[..k] + s[k..];
    NonSpaceConcat(s[..k], s[k..]);
  }

  /** `str.lstrip()` */
  function TrimStart(s: string): (r: string)
    ensures |r| <= |s| && r == s[|s| - |r|..]
    ensures r == [] || !IsSpace(r[0])
    ensures AllSpace(s[..|s| - |r|])
    ensures NonSpace(r) == NonSpace(s)
    ensures Squeezed(s) ==> Squeezed(r)
  {
    var k := LeadingSpaces(s);
    NonSpaceSplit(s, k);
    NonSpaceEmpty(s[..k]);
    SqueezedSlice(s, k, |s|);
    assert s[k..|s|] == s[k..];
    s[k..]
  }

  /** `str.rstrip()` */
  function TrimEnd(s: string): (r: string)
    ensures |r| <= |s| && r == s[..|r|]
    ensures r == [] || !IsSpace(r[|r| - 1])
    ensures AllSpace(s[|r|..])
    ensures NonSpace(r) == NonSpace(s)
    ensures Squeezed(s) ==> Squeezed(r)
  {
    var k := TrailingStart(s);
    NonSpaceSplit(s, k);
    NonSpaceEmpty(s[k..]);
    SqueezedSlice(s, 0, k);
    assert s[0..k] == s[..k];
    s[..k]
  }

  /** `str.strip()` */
  function Strip(s: string): (r: string)
    ensures r == [] || (!IsSpace(r[0]) && !IsSpace(r[|r| - 1]))
    ensures NonSpace(r) == NonSpace(s)
    ensures Squeezed(s) ==> Squeezed(r)
  {
    TrimEnd(TrimStart(s))
  }

  lemma StripUnpadded(s: string)
    requires s == [] || (!IsSpace(s[0]) && !IsSpace(s[|s| - 1]))
    ensures Strip(s) == s
  {
    assert TrimStart(s) == s;
    assert TrimEnd(s) == s;
  }

  lemma LowerCharSpace(c: char)
    ensures IsSpace(LowerChar(c)) == IsSpace(c)
  {
  }

  lemma LowerKeepsSpaces(s: string)
    ensures |Lower(s)| == |s|
    ensures forall i :: 0 <= i < |s| ==> (IsSpace(s[i]) <==> IsSpace(Lower(s)[i]))
  {
    forall i | 0 <= i < |s|
      ensures IsSpace(s[i]) <==> IsSpace(Lower(s)[i])
    {
      LowerCharSpace(s[i]);
    }
  }

  lemma LowerSlice(s: string, lo: int, hi: int)
    requires 0 <= lo <= hi <= |s|
    ensures Lower(s)[lo..hi] == Lower(s[lo..hi])
  {
    assert forall i :: 0 <= i < hi - lo ==> Lower(s)[lo..hi][i] == Lower(s[lo..hi])[i];
  }

  lemma TrimStartLower(s: string)
    ensures TrimStart(Lower(s)) == Lower(TrimStart(s))
  {
    var l := Lower(s);
    var k := LeadingSpaces(s);
    assert LeadingSpaces(l) == k by {
      LowerKeepsSpaces(s);
      SameSpacesSameTrim(s, l);
    }
    LowerSlice(s, k, |s|);
    assert l[k..|s|] == l[k..];
    assert s[k..|s|] == s[k..];
  }

  lemma TrimEndLower(s: string)
    ensures TrimEnd(Lower(s)) == Lower(TrimEnd(s))
  {
    var l := Lower(s);
    var k := TrailingStart(s);
    assert TrailingStart(l) == k by {
      LowerKeepsSpaces(s);
      SameSpacesSameTrim(s, l);
    }
    LowerSlice(s, 0, k);
    assert l[0..k] == l[..k];
    assert s[0..k] == s[..k];
  }

  /** Lower-casing never touches whitespace, so it commutes with `strip`. */
  lemma StripLower(s: string)
    ensures Strip(Lower(s)) == Lower(Strip(s))
  {
    TrimStartLower(s);
    TrimEndLower(TrimStart(s));
  }

  // ---- Words ---------------------------------------------------------------

  /** The word being read, as a list of at most one word. */
  function Flush(cur: string): seq<string> {
    if cur == [] then [] else [cur]
  }

  /** The words of `cur + s` when `cur` is the start of a word already
      read: the maximal runs of non-whitespace characters, in order. */
  function WordsFrom(s: string, cur: string): seq<string>
    decreases |s|
  {
    if s == [] then Flush(cur)
    else if IsSpace(s[0]) then Flush(cur) + WordsFrom(s[1..], [])
    else WordsFrom(s[1..], cur + [s[0]])
  }

  /** `s.split()`: the maximal runs of non-whitespace characters of `s`. */
  function Words(s: string): seq<string> {
    WordsFrom(s, [])
  }

  /** `" ".join(ws)` */
  function Unwords(ws: seq<string>): string
    decreases |ws|
  {
    if ws == [] then []
    else if |ws| == 1 then ws[0]
    else ws[0] + " " + Unwords(ws[1..])
  }

  /** `f` applied to every character of `s`. */
  function MapChars(s: string, f: char -> char): string {
    seq(|s|, i requires 0 <= i < |s| => f(s[i]))
  }

  /** `f` never turns whitespace into anything else. */
  predicate KeepsSpaces(f: char -> char) {
    forall c :: IsSpace(c) ==> IsSpace(f(c))
  }

  /** A run of whitespace ends the word being read and is otherwise
      skipped. */
  lemma {:induction false} SkipSpaces(u: string, k: int, cur: string)
    requires 1 <= k <= |u| && AllSpace(u[..k])
    ensures WordsFrom(u, cur) == Flush(cur) + WordsFrom(u[k..], [])
    decreases k
  {
    assert u[..k][0] == u[0];
    if k > 1 {
      var v := u[1..];
      var head, rest := u[..k], v[..k - 1];
      forall i | 0 <= i < k - 1
        ensures IsSpace(rest[i])
      {
        assert rest[i] == head[i + 1];
      }
      SkipSpaces(v, k - 1, []);
      assert v[k - 1..] == u[k..];
    }
  }

  /** Whitespace at the end of a string adds no word. */
  lemma {:induction false} TrailingSpaces(u: string, k: int, cur: string)
    requires 0 <= k <= |u| && AllSpace(u[k..])
    ensures WordsFrom(u, cur) == WordsFrom(u[..k], cur)
    decreases |u|
  {
    if u != [] {
      var v := u[1..];
      if k == 0 {
        assert u[0] == u[k..][0];
        assert forall i :: 0 <= i < |v| ==> v[i] == u[k..][i + 1];
        TrailingSpaces(v, 0, []);
        assert u[..0] == [] && v[..0] == [];
      } else {
        assert u[..k][0] == u[0] && u[..k][1..] == v[..k - 1];
        assert v[k - 1..] == u[k..];
        TrailingSpaces(v, k - 1, if IsSpace(u[0]) then [] else cur + [u[0]]);
      }
    }
  }

  /** Collapsing whitespace runs, before any mapping that keeps whitespace,
      leaves the words unchanged. */
  lemma {:induction false} CollapseWords(x: string, cur: string, f: char -> char)
    requires KeepsSpaces(f)
    ensures WordsFrom(MapChars(CollapseRuns(x), f), cur) == WordsFrom(MapChars(x, f), cur)
    decreases |x|
  {
    if x != [] {
      if IsSpace(x[0]) {
        CollapseWords(TrimStart(x), [], f);
        CollapseSpaceStep(x, cur, f);
      } else {
        var cur' := if IsSpace(f(x[0])) then [] else cur + [f(x[0])];
        CollapseWords(x[1..], cur', f);
        CollapseCharStep(x, cur, f);
      }
    }
  }

  /** The step of `CollapseWords` at a whitespace run: it becomes one
      space, and both sides skip it. */
  lemma CollapseSpaceStep(x: string, cur: string, f: char -> char)
    requires KeepsSpaces(f) && x != [] && IsSpace(x[0])
    requires WordsFrom(MapChars(CollapseRuns(TrimStart(x)), f), [])
          == WordsFrom(MapChars(TrimStart(x), f), [])
    ensures WordsFrom(MapChars(CollapseRuns(x), f), cur) == WordsFrom(MapChars(x, f), cur)
  {
    var t := TrimStart(x);
    var k := |x| - |t|;
    var u := MapChars(x, f);
    var m := MapChars(CollapseRuns(x), f);
    assert m[1..] == MapChars(CollapseRuns(t), f);
    assert x[0..k] == x[..k] && u[0..k] == u[..k];
    MapSpaces(x, f, 0, k);
    SkipSpaces(u, k, cur);
    MapSlice(x, f, k, |x|);
    assert x[k..|x|] == t && u[k..|x|] == u[k..];
  }

  /** The step of `CollapseWords` at any other character: it is kept. */
  lemma CollapseCharStep(x: string, cur: string, f: char -> char)
    requires x != [] && !IsSpace(x[0])
    requires WordsFrom(MapChars(CollapseRuns(x[1..]), f), if IsSpace(f(x[0])) then [] else cur + [f(x[0])])
          == WordsFrom(MapChars(x[1..], f), if IsSpace(f(x[0])) then [] else cur + [f(x[0])])
    ensures WordsFrom(MapChars(CollapseRuns(x), f), cur) == WordsFrom(MapChars(x, f), cur)
  {
    var m := MapChars(CollapseRuns(x), f);
    var u := MapChars(x, f);
    assert m[1..] == MapChars(CollapseRuns(x[1..]), f);
    assert u[1..] == MapChars(x[1..], f);
  }

  /** The identity on characters. */
  function Same(c: char): char {
    c
  }

  /** Mapping the identity leaves a string as it is. */
  lemma MapSame(s: string)
    ensures MapChars(s, Same) == s
  {
    assert forall i :: 0 <= i < |s| ==> MapChars(s, Same)[i] == Same(s[i]);
  }

  /** A slice of a mapped string is the mapped slice. */
  lemma MapSlice(x: string, f: char -> char, a: int, b: int)
    requires 0 <= a <= b <= |x|
    ensures MapChars(x, f)[a..b] == MapChars(x[a..b], f)
  {
  }

  /** A mapping that keeps whitespace maps a run of whitespace to one. */
  lemma MapSpaces(x: string, f: char -> char, a: int, b: int)
    requires KeepsSpaces(f) && 0 <= a <= b <= |x| && AllSpace(x[a..b])
    ensures AllSpace(MapChars(x, f)[a..b])
  {
    var u := MapChars(x, f);
    forall i | 0 <= i < b - a
      ensures IsSpace(u[a..b][i])
    {
      assert x[a..b][i] == x[a + i];
    }
  }

  /** Trimming leading whitespace, before any mapping that keeps
      whitespace, leaves the words unchanged. */
  lemma LeadingWords(x: string, f: char -> char)
    requires KeepsSpaces(f)
    ensures WordsFrom(MapChars(TrimStart(x), f), []) == WordsFrom(MapChars(x, f), [])
  {
    var k := |x| - |TrimStart(x)|;
    var u := MapChars(x, f);
    assert x[0..k] == x[..k] && u[0..k] == u[..k];
    if k > 0 {
      MapSpaces(x, f, 0, k);
      SkipSpaces(u, k, []);
    }
    MapSlice(x, f, k, |x|);
    assert x[k..|x|] == TrimStart(x) && u[k..|x|] == u[k..];
  }

  /** Trimming trailing whitespace, before any mapping that keeps
      whitespace, leaves the words unchanged. */
  lemma TrailingWords(y: string, f: char -> char)
    requires KeepsSpaces(f)
    ensures WordsFrom(MapChars(TrimEnd(y), f), []) == WordsFrom(MapChars(y, f), [])
  {
    var j := |TrimEnd(y)|;
    var v := MapChars(y, f);
    assert y[j..|y|] == y[j..] && v[j..|y|] == v[j..];
    MapSpaces(y, f, j, |y|);
    TrailingSpaces(v, j, []);
    MapSlice(y, f, 0, j);
    assert y[0..j] == TrimEnd(y) && v[0..j] == v[..j];
  }

  /** Trimming whitespace, before any mapping that keeps whitespace,
      leaves the words unchanged. */
  lemma StripWords(x: string, f: char -> char)
    requires KeepsSpaces(f)
    ensures WordsFrom(MapChars(Strip(x), f), []) == WordsFrom(MapChars(x, f), [])
  {
    LeadingWords(x, f);
    TrailingWords(TrimStart(x), f);
  }

  /** `str.strip()` keeps the words. */
  lemma StripKeepsWords(s: string)
    ensures Words(Strip(s)) == Words(s)
  {
    StripWords(s, Same);
    MapSame(Strip(s));
    MapSame(s);
  }

  /** The words of `s` after `f`, whether or not `s` was normalised first. */
  lemma NormalizeMapWords(s: string, f: char -> char)
    requires KeepsSpaces(f)
    ensures Words(MapChars(Strip(CollapseRuns(s)), f)) == Words(MapChars(s, f))
  {
    StripWords(CollapseRuns(s), f);
    CollapseWords(s, [], f);
  }

  /** Collapsing whitespace runs and trimming keeps the words, and what it
      leaves is those words joined by single spaces. */
  lemma CollapseStripWords(s: string)
    ensures Words(Strip(CollapseRuns(s))) == Words(s)
    ensures Strip(CollapseRuns(s)) == Unwords(Words(s))
  {
    var r := Strip(CollapseRuns(s));
    NormalizeMapWords(s, Same);
    MapSame(r);
    MapSame(s);
    UnwordsWordsFrom(r, []);
  }

  /** A normalised string is its own words joined by single spaces;
      `cur` is a word already read. */
  lemma {:induction false} UnwordsWordsFrom(r: string, cur: string)
    requires Squeezed(r)
    requires r == [] || !IsSpace(r[|r| - 1])
    requires r != [] && IsSpace(r[0]) ==> cur != []
    ensures Unwords(WordsFrom(r, cur)) == cur + r
    decreases |r|
  {
    if r != [] {
      var t := r[1..];
      SqueezedTail(r);
      assert r == [r[0]] + t;
      if IsSpace(r[0]) {
        assert t != [] && !IsSpace(t[0]) by {
          if t != [] {
            assert NoRunAt(r, 0);
          }
        }
        UnwordsWordsFrom(t, []);
        var w := WordsFrom(t, []);
        assert w != [];
        assert ([cur] + w)[1..] == w;
        assert r[0] == ' ';
      } else {
        UnwordsWordsFrom(t, cur + [r[0]]);
      }
    }
  }

  /** `re.sub(r"\s+", " ", s)`: every maximal run of whitespace becomes one
      space. */
  function CollapseRuns(s: string): (r: string)
    ensures Squeezed(r)
    ensures s == [] <==> r == []
    ensures s != [] ==> (IsSpace(r[0]) <==> IsSpace(s[0]))
    ensures NonSpace(r) == NonSpace(s)
    decreases |s|
  {
    if s == [] then []
    else if IsSpace(s[0]) then
      var t := CollapseRuns(TrimStart(s));
      SqueezedCons(' ', t);
      [' '] + t
    else
      var t := CollapseRuns(s[1..]);
      SqueezedCons(s[0], t);
      [s[0]] + t
  }

  /** `normalize_ws`: collapse whitespace runs to one space and trim both
      ends. Its result is normalised, keeps every other character in order,
      and is empty exactly when the input is blank. Equivalently, it is
      the words of the input joined by single spaces. */
  function NormalizeWs(s: string): (r: string)
    ensures IsNormalized(r)
    ensures NonSpace(r) == NonSpace(s)
    ensures r == [] <==> AllSpace(s)
  {
    var r := Strip(CollapseRuns(s));
    NonSpaceEmpty(s);
    assert r != [] ==> NonSpace(r) == [r[0]] + NonSpace(r[1..]);
    r
  }
  /** `" ".join(s.split())` is what `NormalizeWs` computes: it keeps the
      words and joins them by single spaces. */
  lemma NormalizeWsWords(s: string)
    ensures Words(NormalizeWs(s)) == Words(s)
    ensures NormalizeWs(s) == Unwords(Words(s))
  {
    CollapseStripWords(s);
  }


  lemma SqueezedTail(s: string)
    requires s != []
    ensures Squeezed(s) ==> Squeezed(s[1..])
  {
    SqueezedSlice(s, 1, |s|);
    assert s[1..|s|] == s[1..];
  }

  lemma {:induction false} CollapseSqueezed(s: string)
    requires Squeezed(s)
    ensures CollapseRuns(s) == s
    decreases |s|
  {
    if s != [] {
      SqueezedTail(s);
      var t := s[1..];
      CollapseSqueezed(t);
      if IsSpace(s[0]) {
        LeadingSpace(s);
        assert CollapseRuns(s) == [' '] + t;
      }
      assert s == [s[0]] + t;
    }
  }

  /** In a squeezed string a leading whitespace character is a single
      space, and trimming removes just that. */
  lemma LeadingSpace(s: string)
    requires Squeezed(s) && s != [] && IsSpace(s[0])
    ensures s[0] == ' ' && TrimStart(s) == s[1..]
  {
    var t := s[1..];
    if t != [] {
      assert NoRunAt(s, 0);
      assert !IsSpace(t[0]);
    }
    assert TrimStart(t) == t;
  }

  /** A normalised string is a fixed point of `normalize_ws`. */
  lemma NormalizedIsFixed(s: string)
    requires IsNormalized(s)
    ensures NormalizeWs(s) == s
  {
    CollapseSqueezed(s);
  }

  /** `normalize_ws` is idempotent. */
  lemma NormalizeIdempotent(s: string)
    ensures NormalizeWs(NormalizeWs(s)) == NormalizeWs(s)
  {
    NormalizedIsFixed(NormalizeWs(s));
  }

  /** Joining two normalised non-empty strings around a separator that is
      itself squeezed and has a space at each end stays normalised. */
  lemma JoinNormalized(a: string, sep: string, b: string)
    requires IsNormalized(a) && IsNormalized(b) && a != [] && b != []
    requires Squeezed(sep) && |sep| >= 2 && sep[0] == ' ' && sep[|sep| - 1] == ' '
    ensures IsNormalized(a + sep + b)
  {
    var s := a + sep + b;
    forall i | 0 <= i < |s| - 1
      ensures NoRunAt(s, i)
    {
      if i < |a| - 1 {
        assert s[i] == a[i] && s[i + 1] == a[i + 1];
        assert NoRunAt(a, i);
      } else if i == |a| - 1 {
        assert s[i] == a[|a| - 1];
      } else if i < |a| + |sep| - 1 {
        assert s[i] == sep[i - |a|] && s[i + 1] == sep[i - |a| + 1];
        assert NoRunAt(sep, i - |a|);
      } else if i == |a| + |sep| - 1 {
        assert s[i + 1] == b[0];
      } else {
        assert s[i] == b[i - |a| - |sep|] && s[i + 1] == b[i - |a| - |sep| + 1];
        assert NoRunAt(b, i - |a| - |sep|);
      }
    }
    forall i | 0 <= i < |s| && IsSpace(s[i])
      ensures s[i] == ' '
    {
      if i < |a| {
        assert s[i] == a[i];
      } else if i < |a| + |sep| {
        assert s[i] == sep[i - |a|];
      } else {
        assert s[i] == b[i - |a| - |sep|];
      }
    }
    assert s[0] == a[0] && s[|s| - 1] == b[|b| - 1];
  }

  /** `normalize_ws(form.get(name) or "")`: an absent field reads as "". */
  function FormField(v: Option<string>): (r: string)
    ensures IsNormalized(r)
    ensures r == [] <==> v.None? || AllSpace(v.value)
  {
    NormalizeWs(v.GetOr(""))
  }
}

=== FILE: upload.dfy ===
/** The case-law upload flow `case_law_upload` (app.py:980-1130): form
    validation, the folder layout `Case Law/<primary>/<type>/<year>/<name>`,
    placement of the case folder and the judgment file, and the catalog
    insert with its index refresh. Paths are relative to the storage root;
    the file system is the set of paths that exist. The clock, the
    temporary file name, text extraction and JSON encoding are inputs. */
module CaseLawUpload {
  import opened Wrappers
  import opened Text
  import opened Digits
  import opened Sanitize
  import opened Vocabulary
  import opened Paths
  import opened Naming
  import opened Placement
  import opened Catalog

  /** The submitted form; `None` is an absent field. */
  datatype UploadForm = UploadForm(
    petitioner: Option<string>, respondent: Option<string>, citation: Option<string>,
    decisionYear: Option<string>, primaryType: Option<string>, caseType: Option<string>,
    subtype: Option<string>, note: Option<string>, fileName: Option<string>)

  /** A validated submission. */
  datatype Entry = Entry(
    petitioner: string, respondent: string, citation: string, year: int,
    primary: string, caseType: string, note: string, ext: string)

  /** `normalize_ws(form.get("case_type") or form.get("subtype") or "")`:
      an empty `case_type` falls through to `subtype`. */
  function CaseTypeText(f: UploadForm): string {
    if f.caseType.Some? && f.caseType.value != [] then NormalizeWs(f.caseType.value) else FormField(f.subtype)
  }

  /** `(form.get("note") or "").strip()` */
  function NoteText(f: UploadForm): string {
    Strip(f.note.GetOr(""))
  }

  /** The decision year is not before 1800 and not after next year. */
  predicate YearPlausible(year: int, currentYear: int) {
    1800 <= year <= currentYear + 1
  }

  /** The three required names (app.py:996-1001). */
  function RequiredNames(f: UploadForm): (r: Result<(string, string, string)>)
    ensures r.Err? ==> r.error.InvalidArgument?
    ensures r.Ok? <==> FormField(f.petitioner) != [] && FormField(f.respondent) != [] && FormField(f.citation) != []
    ensures r.Ok? ==> r.value == (FormField(f.petitioner), FormField(f.respondent), FormField(f.citation))
    ensures FormField(f.petitioner) == [] ==> r == Err(InvalidArgument("Petitioner name is required."))
  {
    var petitioner := FormField(f.petitioner);
    var respondent := FormField(f.respondent);
    var citation := FormField(f.citation);
    if petitioner == [] then Err(InvalidArgument("Petitioner name is required."))
    else if respondent == [] then Err(InvalidArgument("Respondent name is required."))
    else if citation == [] then Err(InvalidArgument("Citation is required."))
    else Ok((petitioner, respondent, citation))
  }

  /** The decision year checks (app.py:1003-1010). */
  function DecisionYear(f: UploadForm, currentYear: int): (r: Result<int>)
    ensures r.Err? ==> r.error.InvalidArgument?
    ensures r.Ok? <==>
      (ParseInt(FormField(f.decisionYear)).Some? && YearPlausible(ParseInt(FormField(f.decisionYear)).value, currentYear))
    ensures r.Ok? ==> ParseInt(FormField(f.decisionYear)) == Some(r.value)
  {
    match ParseInt(FormField(f.decisionYear))
    case None => Err(InvalidArgument("Decision year must be a number."))
    case Some(year) =>
      if !YearPlausible(year, currentYear) then Err(InvalidArgument("Decision year looks invalid.")) else Ok(year)
  }

  /** The checks of app.py:996-1034 in their order. */
  function ValidateUpload(f: UploadForm, currentYear: int, allowed: set<string>): (r: Result<Entry>)
    ensures r.Err? ==> r.error.InvalidArgument?
    ensures RequiredNames(f).Err? ==> r == Err(RequiredNames(f).error)
    ensures r.Ok? <==>
      && RequiredNames(f).Ok? && DecisionYear(f, currentYear).Ok?
      && Classify(FormField(f.primaryType), CaseTypeText(f)).Ok?
      && NoteText(f) != [] && CheckUpload(f.fileName, allowed).Ok?
    ensures r.Ok? ==> (r.value.petitioner, r.value.respondent, r.value.citation) == RequiredNames(f).value
    ensures r.Ok? ==> r.value.year == DecisionYear(f, currentYear).value
    ensures r.Ok? ==> r.value.primary in PrimaryTypes && r.value.caseType in CaseTypesOf(r.value.primary)
    ensures r.Ok? ==> EqualsIgnoreCase(NormalizeWs(FormField(f.primaryType)), r.value.primary)
    ensures r.Ok? ==> EqualsIgnoreCase(NormalizeWs(CaseTypeText(f)), r.value.caseType)
    ensures r.Ok? ==> r.value.note == NoteText(f) && r.value.note != []
    ensures r.Ok? ==> f.fileName.Some? && AllowedFile(f.fileName.value, allowed)
    ensures r.Ok? ==> r.value.ext == Extension(f.fileName.value)
  {
    match RequiredNames(f)
    case Err(e) => Err(e)
    case Ok(names) =>
      match DecisionYear(f, currentYear)
      case Err(e) => Err(e)
      case Ok(year) =>
        match Classify(FormField(f.primaryType), CaseTypeText(f))
        case Err(e) => Err(e)
        case Ok(cls) =>
          var note := NoteText(f);
          if note == [] then Err(InvalidArgument("An additional note is required for case law entries."))
          else match CheckUpload(f.fileName, allowed)
            case Err(e) => Err(e)
            case Ok(ext) => Ok(Entry(names.0, names.1, names.2, year, cls.0, cls.1, note, ext))
  }

  /** The classification checks (app.py:1014-1020). */
  function Classify(primaryText: string, typeText: string): (r: Result<(string, string)>)
    ensures r.Err? ==> r.error.InvalidArgument?
    ensures r.Err? <==>
      (NormalizePrimaryType(primaryText).None? || NormalizeCaseType(NormalizePrimaryType(primaryText).value, typeText).None?)
    ensures r.Ok? ==> r.value.0 in PrimaryTypes && r.value.1 in CaseTypesOf(r.value.0)
    ensures r.Ok? ==> EqualsIgnoreCase(NormalizeWs(primaryText), r.value.0)
    ensures r.Ok? ==> EqualsIgnoreCase(NormalizeWs(typeText), r.value.1)
  {
    match NormalizePrimaryType(primaryText)
    case None => Err(InvalidArgument("Primary classification must be Civil, Criminal, or Commercial."))
    case Some(p) =>
      match NormalizeCaseType(p, typeText)
      case None => Err(InvalidArgument("Please select a valid case type for the chosen classification."))
      case Some(t) => Ok((p, t))
  }

  /** The attachment checks (app.py:1025-1034): a file with a name that has
      an extension on the allow-list. */
  function CheckUpload(fileName: Option<string>, allowed: set<string>): (r: Result<string>)
    ensures r.Err? ==> r.error.InvalidArgument?
    ensures r.Ok? <==> fileName.Some? && AllowedFile(fileName.value, allowed)
    ensures r.Ok? ==> r.value == Extension(fileName.value)
  {
    if fileName.None? || fileName.value == [] then Err(InvalidArgument("Attach the judgment file to upload."))
    else if '.' !in fileName.value then Err(InvalidArgument("The uploaded file must include an extension."))
    else
      var ext := Extension(fileName.value);
      if ext !in allowed then Err(InvalidArgument("File type '." + ext + "' is not allowed."))
      else Ok(ext)
  }

  /** A year outside 1800 .. next year is refused even when every other
      field is fine. */
  lemma ImplausibleYearRejected(f: UploadForm, currentYear: int, allowed: set<string>)
    requires FormField(f.petitioner) != [] && FormField(f.respondent) != [] && FormField(f.citation) != []
    requires ParseInt(FormField(f.decisionYear)).Some?
    requires !YearPlausible(ParseInt(FormField(f.decisionYear)).value, currentYear)
    ensures ValidateUpload(f, currentYear, allowed) == Err(InvalidArgument("Decision year looks invalid."))
  {
  }

  /** A submission passing every check is accepted. */
  lemma ValidFormAccepted(f: UploadForm, currentYear: int, allowed: set<string>)
    requires FormField(f.petitioner) != [] && FormField(f.respondent) != [] && FormField(f.citation) != []
    requires ParseInt(FormField(f.decisionYear)).Some?
    requires YearPlausible(ParseInt(FormField(f.decisionYear)).value, currentYear)
    requires NormalizePrimaryType(FormField(f.primaryType)).Some?
    requires NormalizeCaseType(NormalizePrimaryType(FormField(f.primaryType)).value, CaseTypeText(f)).Some?
    requires NoteText(f) != []
    requires f.fileName.Some? && AllowedFile(f.fileName.value, allowed)
    ensures ValidateUpload(f, currentYear, allowed).Ok?
  {
    var ok := ValidateUpload(f, currentYear, allowed);
  }

  // ---- Folder layout -------------------------------------------------------

  /** `CASE_LAW_ROOT_NAME` */
  const CaseLawRootName: string := "Case Law"

  /** `f"Case Law {decision_year}"`, the fallback folder name. */
  function FallbackName(year: int): (r: string)
    ensures r != [] && NoIllegal(r)
  {
    var y := IntToString(year);
    assert NoIllegal(y) by { IntToStringLegal(year); }
    assert NoIllegal("Case Law ");
    var r := "Case Law " + y;
    assert forall i :: 0 <= i < |r| ==> r[i] in "Case Law " || r[i] in y;
    r
  }

  lemma IntToStringLegal(n: int)
    ensures NoIllegal(IntToString(n))
  {
    var d := NatToString(if n < 0 then -n else n);
    assert forall i :: 0 <= i < |d| ==> IsDigit(d[i]);
  }

  /** `safe_case_name`: the words of the display name, illegal characters
      blanked, joined by single spaces; or the fallback when nothing is
      left. */
  function SafeCaseName(e: Entry): (r: string)
    ensures var d := CaseLawDisplayName(e.petitioner, e.respondent, e.citation);
      && (AllBlanksOut(d, ' ') ==> r == FallbackName(e.year))
      && (!AllBlanksOut(d, ' ') ==> r == Unwords(Words(ReplaceIllegal(d, ' '))))
    ensures r != [] && NoIllegal(r)
  {
    SegmentOr(CaseLawDisplayName(e.petitioner, e.respondent, e.citation), ' ', FallbackName(e.year))
  }

  /** A classification folder name: the words of `text`, illegal
      characters turned into `-`, joined by single spaces; or "General" when
      nothing is left. */
  function Segment(text: string): (r: string)
    ensures AllBlanksOut(text, '-') ==> r == "General"
    ensures !AllBlanksOut(text, '-') ==> r == Unwords(Words(ReplaceIllegal(text, '-')))
    ensures r != [] && NoIllegal(r) && '/' !in r
  {
    FallbackSegment(text, '-', "General");
    SegmentOr(text, '-', "General")
  }

  lemma FallbackSegment(text: string, rep: char, fallback: string)
    requires !IsIllegal(rep) && fallback != [] && NoIllegal(fallback)
    ensures var r := SegmentOr(text, rep, fallback); r != [] && NoIllegal(r) && '/' !in r
  {
    NoSeparator(SegmentOr(text, rep, fallback));
  }

  lemma NoSeparator(s: string)
    requires NoIllegal(s)
    ensures '/' !in s
  {
    assert forall i :: 0 <= i < |s| ==> s[i] != '/';
  }

  /** `Case Law/<primary>/<type>/<year>` */
  function BaseDir(e: Entry): string {
    CaseLawRootName + "/" + Segment(e.primary) + "/" + Segment(e.caseType) + "/" + IntToString(e.year)
  }

  /** `a`, `a/b`, `a/b/c` and `a/b/c/d`. */
  function Chain(a: string, b: string, c: string, d: string): set<string> {
    {a, a + "/" + b, a + "/" + b + "/" + c, a + "/" + b + "/" + c + "/" + d}
  }

  /** The folders `base_dir.mkdir(parents=True)` makes sure of. */
  function BaseDirs(e: Entry): set<string> {
    Chain(CaseLawRootName, Segment(e.primary), Segment(e.caseType), IntToString(e.year))
  }

  lemma RootNamePlain()
    ensures PlainName(CaseLawRootName)
  {
    assert forall j :: 0 <= j < |CaseLawRootName| ==> CaseLawRootName[j] != '/';
  }

  /** `str(n)` ends in a digit and has no separator. */
  lemma IntToStringPlain(n: int)
    ensures PlainName(IntToString(n)) && IntToString(n)[|IntToString(n)| - 1] != '/'
  {
    var d := NatToString(if n < 0 then -n else n);
    assert IsDigit(d[|d| - 1]);
    IntToStringLegal(n);
    NoSeparator(IntToString(n));
  }

  /** The base folder is `root / primary / type / year` joined with the
      path operator: the classification names add no level to the
      hierarchy, and every base folder sits in the one before it. */
  lemma BaseDirLevels(e: Entry)
    ensures BaseDir(e) == PathJoin(PathJoin(PathJoin(CaseLawRootName, Segment(e.primary)), Segment(e.caseType)),
                                   IntToString(e.year))
    ensures BaseDir(e)[|BaseDir(e)| - 1] != '/' && BaseName(BaseDir(e)) == IntToString(e.year)
    ensures forall d :: d in BaseDirs(e) && Parent(d) != [] ==> Parent(d) in BaseDirs(e)
  {
    var a, b, c, d := CaseLawRootName, Segment(e.primary), Segment(e.caseType), IntToString(e.year);
    RootNamePlain();
    IntToStringPlain(e.year);
    NestedJoin(a, b, c, d);
  }

  /** Four single components joined one after the other. */
  lemma NestedJoin(a: string, b: string, c: string, d: string)
    requires PlainName(a) && PlainName(b) && PlainName(c) && PlainName(d)
    ensures Parent(a) == []
    ensures PathJoin(a, b) == a + "/" + b && Parent(a + "/" + b) == a
    ensures PathJoin(a + "/" + b, c) == a + "/" + b + "/" + c && Parent(a + "/" + b + "/" + c) == a + "/" + b
    ensures PathJoin(a + "/" + b + "/" + c, d) == a + "/" + b + "/" + c + "/" + d
    ensures Parent(a + "/" + b + "/" + c + "/" + d) == a + "/" + b + "/" + c
    ensures BaseName(a + "/" + b + "/" + c + "/" + d) == d
    ensures (a + "/" + b + "/" + c + "/" + d)[|a + "/" + b + "/" + c + "/" + d| - 1] != '/'
    ensures forall x :: x in Chain(a, b, c, d) && Parent(x) != [] ==> Parent(x) in Chain(a, b, c, d)
  {
    assert RFind(a, '/') == -1;
    JoinParts(a, b);
    JoinParts(a + "/" + b, c);
    JoinParts(a + "/" + b + "/" + c, d);
    assert (a + "/" + b + "/" + c + "/" + d)[|a + "/" + b + "/" + c + "/" + d| - 1] == d[|d| - 1];
    forall x | x in Chain(a, b, c, d) && Parent(x) != [] ensures Parent(x) in Chain(a, b, c, d) {
      assert x == a + "/" + b || x == a + "/" + b + "/" + c || x == a + "/" + b + "/" + c + "/" + d;
    }
  }

  // ---- Placement -------------------------------------------------------------

  /** `path` is `ensure_unique_path(dir / name)` against the taken paths
      `taken`: `dir/name` when it is free, otherwise `dir/stem (N)suffix`
      for the smallest free N >= 1. */
  ghost predicate UniqueIn(taken: set<string>, dir: string, name: string, path: string) {
    FirstFree(taken, dir + "/" + name, dir, PathStem(name), PathSuffix(name), Parenthesised, path)
  }

  /** Where the upload lands, and the file system afterwards. */
  datatype Placed = Placed(caseDir: string, target: string, noteFile: string, fs: set<string>)

  /** The case folder, the temporary upload, the judgment file and the note
      file, in the order app.py:1057-1081 creates them, for the case folder
      name `name` in the existing folder `base`. `dirN` and `fileN` are the
      counters `ensure_unique_path` appended (0 for none). The case folder
      is new, the judgment file and the note file sit in it, the temporary
      file is gone, and nothing else changes. */
  method PlaceIn(fs: set<string>, base: string, name: string, fileName: string, tmpName: string)
    returns (p: Placed, dirN: nat, fileN: nat)
    requires ParentsExist(fs) && base in fs && base != [] && base[|base| - 1] != '/'
    requires PlainName(name) && PlainName(fileName) && PlainName(tmpName)
    ensures PlacedIn(fs, base, p)
    ensures dirN == 0 <==> base + "/" + name !in fs
    ensures dirN == 0 ==> BaseName(p.caseDir) == name
    ensures dirN > 0 ==> BaseName(p.caseDir) == Candidate(PathStem(name), PathSuffix(name), Parenthesised, dirN)
    ensures fileN == 0 ==> BaseName(p.target) == fileName
    ensures fileN > 0 ==>
      BaseName(p.target) == Candidate(PathStem(fileName), PathSuffix(fileName), Parenthesised, fileN)
    ensures UniqueIn(fs, base, name, p.caseDir)
    ensures UniqueIn(fs + {p.caseDir, p.caseDir + "/" + tmpName}, p.caseDir, fileName, p.target)
  {
    var caseDir;
    caseDir, dirN := UniqueChild(fs, base, name);
    assert caseDir[|caseDir| - 1] == BaseName(caseDir)[|BaseName(caseDir)| - 1];
    var tmp := PathJoin(caseDir, tmpName);
    JoinParts(caseDir, tmpName);
    var fs2 := fs + {caseDir, tmp};
    assert fs2 == fs + {caseDir, caseDir + "/" + tmpName};
    var target;
    target, fileN := UniqueChild(fs2, caseDir, fileName);
    NoteNamePlain();
    var noteFile := PathJoin(caseDir, NoteFileName);
    JoinParts(caseDir, NoteFileName);
    p := Placed(caseDir, target, noteFile, (fs2 - {tmp}) + {target, noteFile});
    PlacementHolds(fs, base, caseDir, tmp, target, noteFile);
  }

  /** The placement facts PlaceIn gathers make up `PlacedIn`. */
  lemma PlacementHolds(fs: set<string>, base: string, caseDir: string, tmp: string, target: string, noteFile: string)
    requires ParentsExist(fs) && base in fs
    requires caseDir !in fs && Parent(caseDir) == base && caseDir != [] && caseDir[|caseDir| - 1] != '/'
    requires Parent(tmp) == caseDir
    requires target !in fs + {caseDir, tmp} && Parent(target) == caseDir
    requires target == caseDir + "/" + BaseName(target)
    requires noteFile == caseDir + "/" + NoteFileName && Parent(noteFile) == caseDir
    ensures PlacedIn(fs, base, Placed(caseDir, target, noteFile, (fs + {caseDir, tmp} - {tmp}) + {target, noteFile}))
  {
    assert Parent(tmp) !in fs && Parent(tmp) != [] && Parent(tmp) != "/";
    assert tmp !in fs && tmp != caseDir;
    TempReplaced(fs, caseDir, tmp, target, noteFile);
    AddChild(fs, caseDir);
    AddChild(fs + {caseDir}, target);
    AddChild(fs + {caseDir} + {target}, noteFile);
  }

  /** Removing the temporary file leaves the folder, the judgment file and
      the note file as the only additions. */
  lemma TempReplaced<T>(fs: set<T>, dir: T, tmp: T, target: T, note: T)
    requires tmp !in fs && tmp != dir && tmp != target
    ensures (fs + {dir, tmp} - {tmp}) + {target, note} == fs + {dir} + {target} + {note}
    ensures fs + {dir} + {target} + {note} == fs + {dir, target, note}
  {
  }

  /** `p` places an upload into `fs`: a new case folder in the folder
      `base`, holding the judgment file and the note file, with nothing
      else added. */
  predicate PlacedIn(fs: set<string>, base: string, p: Placed) {
    && p.caseDir !in fs && p.target !in fs
    && Parent(p.caseDir) == base && Parent(p.target) == p.caseDir
    && p.target == p.caseDir + "/" + BaseName(p.target)
    && p.caseDir != [] && p.caseDir[|p.caseDir| - 1] != '/'
    && p.noteFile == p.caseDir + "/" + NoteFileName
    && p.fs == fs + {p.caseDir, p.target, p.noteFile}
    && ParentsExist(p.fs)
  }

  /** The placement of an upload: the base folders are made sure of, then
      the case folder is named after the sanitised display name. */
  method Place(fs: set<string>, e: Entry, tmpName: string) returns (p: Placed, dirN: nat, fileN: nat)
    requires ParentsExist(fs)
    requires PlainName(tmpName) && '/' !in e.ext
    ensures PlacedIn(fs + BaseDirs(e), BaseDir(e), p)
    ensures dirN == 0 <==> BaseDir(e) + "/" + SafeCaseName(e) !in fs + BaseDirs(e)
    ensures dirN == 0 ==> BaseName(p.caseDir) == SafeCaseName(e)
    ensures dirN > 0 ==>
      BaseName(p.caseDir) == Candidate(PathStem(SafeCaseName(e)), PathSuffix(SafeCaseName(e)), Parenthesised, dirN)
    ensures fileN == 0 ==> BaseName(p.target) == SafeCaseName(e) + "." + e.ext
    ensures fileN > 0 ==>
      BaseName(p.target)
      == Candidate(PathStem(SafeCaseName(e) + "." + e.ext), PathSuffix(SafeCaseName(e) + "." + e.ext), Parenthesised, fileN)
    ensures UniqueIn(fs + BaseDirs(e), BaseDir(e), SafeCaseName(e), p.caseDir)
    ensures UniqueIn(fs + BaseDirs(e) + {p.caseDir, p.caseDir + "/" + tmpName}, p.caseDir,
                     SafeCaseName(e) + "." + e.ext, p.target)
  {
    var base := BaseDir(e);
    BaseDirLevels(e);
    UnionKeepsParents(fs, BaseDirs(e));
    var safe := SafeCaseName(e);
    NoSeparator(safe);
    PlainFileName(safe, e.ext);
    p, dirN, fileN := PlaceIn(fs + BaseDirs(e), base, safe, safe + "." + e.ext, tmpName);
  }

  lemma UnionKeepsParents(fs: set<string>, extra: set<string>)
    requires ParentsExist(fs)
    requires forall d :: d in extra && Parent(d) != [] ==> Parent(d) in extra
    ensures ParentsExist(fs + extra)
  {
  }

  lemma PlainFileName(name: string, ext: string)
    requires '/' !in name && '/' !in ext
    ensures PlainName(name + "." + ext)
  {
  }

  /** The note written next to the judgment. */
  const NoteFileName: string := "note.json"

  lemma NoteNamePlain()
    ensures PlainName(NoteFileName)
  {
    assert forall j :: 0 <= j < |NoteFileName| ==> NoteFileName[j] != '/';
  }

  // ---- The upload --------------------------------------------------------------

  /** The metadata tuple of a validated submission. */
  function EntryKey(e: Entry): MetaKey {
    MetaKey(e.petitioner, e.respondent, e.citation, e.primary, e.caseType, e.year)
  }

  /** Some row of `cases` carries the metadata tuple `key`. */
  predicate HasKey(cases: map<nat, Record>, key: MetaKey) {
    exists id :: id in cases && KeyOf(cases[id]) == key
  }

  /** `x` is `dir` or lies somewhere below it. */
  predicate Under(x: string, dir: string) {
    x == dir || StartsWith(x, dir + "/")
  }

  /** `shutil.rmtree(dir)`: `dir` and everything below it disappear. */
  function RemoveTree(fs: set<string>, dir: string): (r: set<string>)
    requires dir != [] && dir[|dir| - 1] != '/'
    ensures r <= fs && dir !in r
    ensures forall x :: x in fs && !Under(x, dir) ==> x in r
    ensures ParentsExist(fs) ==> ParentsExist(r)
  {
    RemovalKeepsParents(fs, dir);
    set x | x in fs && !Under(x, dir)
  }

  lemma RemovalKeepsParents(fs: set<string>, dir: string)
    requires dir != [] && dir[|dir| - 1] != '/'
    ensures ParentsExist(fs) ==> ParentsExist(set x | x in fs && !Under(x, dir))
  {
    var r := set x | x in fs && !Under(x, dir);
    if ParentsExist(fs) {
      forall x | x in r && Parent(x) != [] && Parent(x) != "/" ensures Parent(x) in r {
        if Under(Parent(x), dir) {
          ParentUnder(x, dir);
        }
      }
    }
  }

  /** Whatever lies in a removed folder is removed with it. */
  lemma ParentUnder(x: string, dir: string)
    requires dir != [] && dir[|dir| - 1] != '/'
    requires Parent(x) != [] && Under(Parent(x), dir)
    ensures Under(x, dir)
  {
    var i := RFind(x, '/');
    assert |Parent(x)| >= |dir|;
    assert Parent(x) != "/";
    assert i > 0 && Parent(x) == x[..i];
    if Parent(x) == dir {
      assert x[..i + 1] == x[..i] + [x[i]];
    } else {
      assert x[..i][..|dir| + 1] == x[..|dir| + 1];
    }
  }

  /** The row stored for a placed upload. */
  function RecordOf(e: Entry, p: Placed): Record {
    Record(e.petitioner, e.respondent, e.citation, e.year, "", e.primary, e.caseType,
           p.caseDir, BaseName(p.target), p.noteFile, e.note)
  }

  /** A successful upload of `e`: the row `id` is new, larger than every
      existing id, carries the submission's metadata, and names a new case
      folder holding the judgment file and the note file; the index entry
      is added with it and no existing path disappears. */
  predicate Stored(s: Store, fs: set<string>, e: Entry, base: string, id: nat, judgement: Option<string>,
                   noteJson: string, s': Store, fs': set<string>)
  {
    && id !in s.cases && (forall k :: k in s.cases ==> k < id)
    && id in s'.cases && s' == AddCase(s, id, s'.cases[id], judgement, noteJson)
    && KeyOf(s'.cases[id]) == EntryKey(e)
    && s'.cases[id].noteText == e.note && s'.cases[id].decisionMonth == []
    && fs <= fs'
    && s'.cases[id].folderRel !in fs && s'.cases[id].folderRel in fs' && Parent(s'.cases[id].folderRel) == base
    && s'.cases[id].folderRel + "/" + s'.cases[id].fileName in fs'
    && s'.cases[id].notePathRel == s'.cases[id].folderRel + "/" + NoteFileName && s'.cases[id].notePathRel in fs'
  }

  /** The row's folder and file are named as the placement names them: the
      case folder after the safe case name in the base folder, the judgment
      file after the safe case name and the extension in the case folder
      (where only the temporary upload lies yet), each the first free
      ` (N)` variant when the plain name is taken. */
  ghost predicate NamedAsPlaced(fs: set<string>, e: Entry, tmpName: string, rec: Record) {
    && UniqueIn(fs + BaseDirs(e), BaseDir(e), SafeCaseName(e), rec.folderRel)
    && UniqueIn(fs + BaseDirs(e) + {rec.folderRel, rec.folderRel + "/" + tmpName}, rec.folderRel,
                SafeCaseName(e) + "." + e.ext, rec.folderRel + "/" + rec.fileName)
  }

  /** The insert and its index refresh for an admitted submission `e`, after
      the placement. When the database raises (`dbError` holds the
      exception's text) the case folder is removed again, only the base
      folders may remain, and the exception is raised on to the caller. */
  method Commit(s: Store, fs: set<string>, e: Entry, tmpName: string, judgement: Option<string>, noteJson: string,
                dbError: Option<string>)
    returns (r: Result<nat>, s': Store, fs': set<string>)
    requires ParentsExist(fs) && PlainName(tmpName) && '/' !in e.ext
    requires !HasKey(s.cases, EntryKey(e))
    ensures r.Ok? <==> dbError.None?
    ensures r.Ok? ==> Stored(s, fs, e, BaseDir(e), r.value, judgement, noteJson, s', fs')
    ensures r.Ok? ==> NamedAsPlaced(fs, e, tmpName, s'.cases[r.value])
    ensures dbError.Some? ==> r == Err(Unhandled(dbError.value)) && s' == s && fs' <= fs + BaseDirs(e)
    ensures ParentsExist(fs')
    ensures Consistent(s) ==> Consistent(s')
  {
    var p, dirN, fileN := Place(fs, e, tmpName);
    if dbError.Some? {
      RollbackLeavesBase(fs + BaseDirs(e), BaseDir(e), p);
      fs' := RemoveTree(p.fs, p.caseDir);
      return Err(Unhandled(dbError.value)), s, fs';
    }
    var id := NextRowId(s.cases.Keys);
    s' := AddCase(s, id, RecordOf(e, p), judgement, noteJson);
    StoredAfterPlace(s, fs, fs + BaseDirs(e), BaseDir(e), e, p, id, judgement, noteJson);
    NamedAfterPlace(fs, e, tmpName, p, s', id);
    fs' := p.fs;
    r := Ok(id);
  }

  /** Removing the case folder again takes the judgment file and the note
      file with it. */
  lemma RollbackLeavesBase(fs: set<string>, base: string, p: Placed)
    requires PlacedIn(fs, base, p)
    ensures RemoveTree(p.fs, p.caseDir) <= fs
  {
    assert Under(p.caseDir, p.caseDir);
    ParentUnder(p.target, p.caseDir);
    assert Under(p.noteFile, p.caseDir);
  }

  /** When neither name is taken, the row names the case folder after the
      safe case name in the base folder and the judgment file after the
      safe case name and the extension, with no counter. */
  lemma FreshUploadNames(fs: set<string>, e: Entry, tmpName: string, rec: Record)
    requires ParentsExist(fs) && '/' !in e.ext
    requires NamedAsPlaced(fs, e, tmpName, rec)
    requires BaseDir(e) + "/" + SafeCaseName(e) !in fs + BaseDirs(e)
    requires tmpName != SafeCaseName(e) + "." + e.ext
    ensures rec.folderRel == BaseDir(e) + "/" + SafeCaseName(e)
    ensures rec.fileName == SafeCaseName(e) + "." + e.ext
  {
    var dir, name := BaseDir(e) + "/" + SafeCaseName(e), SafeCaseName(e) + "." + e.ext;
    assert rec.folderRel == dir;
    var taken := fs + BaseDirs(e) + {dir, dir + "/" + tmpName};
    var file := dir + "/" + name;
    FileNotTaken(fs, e, tmpName);
    assert rec.folderRel + "/" + rec.fileName == file;
    assert rec.fileName == file[|dir| + 1..];
  }

  /** The judgment file's plain path is free in a new case folder unless
      the temporary upload has the same name. */
  lemma FileNotTaken(fs: set<string>, e: Entry, tmpName: string)
    requires ParentsExist(fs) && '/' !in e.ext
    requires BaseDir(e) + "/" + SafeCaseName(e) !in fs + BaseDirs(e)
    requires tmpName != SafeCaseName(e) + "." + e.ext
    ensures var dir := BaseDir(e) + "/" + SafeCaseName(e);
      dir + "/" + (SafeCaseName(e) + "." + e.ext) !in fs + BaseDirs(e) + {dir, dir + "/" + tmpName}
  {
    var safe := SafeCaseName(e);
    BaseDirLevels(e);
    UnionKeepsParents(fs, BaseDirs(e));
    NoSeparator(safe);
    PlainFileName(safe, e.ext);
    ChildFree(fs + BaseDirs(e), BaseDir(e) + "/" + safe, safe, safe + "." + e.ext, tmpName);
  }

  /** A plain name in a folder that does not exist yet is free, and differs
      from any other plain name put there. */
  lemma ChildFree(taken: set<string>, dir: string, last: string, name: string, tmpName: string)
    requires ParentsExist(taken) && dir !in taken
    requires 0 < |last| <= |dir| && dir[|dir| - |last|..] == last && '/' !in last
    requires PlainName(name) && name != tmpName
    ensures dir + "/" + name !in taken + {dir, dir + "/" + tmpName}
  {
    assert dir[|dir| - 1] == last[|last| - 1];
    JoinParts(dir, name);
    var file := dir + "/" + name;
    assert Parent(file) == dir && dir != "/";
    assert file[|dir| + 1..] == name;
    assert (dir + "/" + tmpName)[|dir| + 1..] == tmpName;
  }

  /** The row added after a placement names the placed folder and file. */
  lemma NamedAfterPlace(fs: set<string>, e: Entry, tmpName: string, p: Placed, s': Store, id: nat)
    requires id in s'.cases && s'.cases[id] == RecordOf(e, p)
    requires p.target == p.caseDir + "/" + BaseName(p.target)
    requires UniqueIn(fs + BaseDirs(e), BaseDir(e), SafeCaseName(e), p.caseDir)
    requires UniqueIn(fs + BaseDirs(e) + {p.caseDir, p.caseDir + "/" + tmpName}, p.caseDir,
                      SafeCaseName(e) + "." + e.ext, p.target)
    ensures NamedAsPlaced(fs, e, tmpName, s'.cases[id])
  {
  }

  /** The row added after a placement is a successful upload. */
  lemma StoredAfterPlace(s: Store, fs: set<string>, fs1: set<string>, base: string, e: Entry, p: Placed, id: nat,
                         judgement: Option<string>, noteJson: string)
    requires fs <= fs1 && PlacedIn(fs1, base, p)
    requires id !in s.cases && forall k :: k in s.cases ==> k < id
    requires !HasKey(s.cases, EntryKey(e))
    ensures Stored(s, fs, e, base, id, judgement, noteJson, AddCase(s, id, RecordOf(e, p), judgement, noteJson), p.fs)
    ensures Consistent(s) ==> Consistent(AddCase(s, id, RecordOf(e, p), judgement, noteJson))
  {
    var rec := RecordOf(e, p);
    var t := AddCase(s, id, rec, judgement, noteJson);
    assert t.cases[id] == rec;
    if Consistent(s) {
      AddCaseConsistent(s, id, rec, judgement, noteJson);
    }
  }

  /** The form checks followed by the duplicate check. */
  function Admit(s: Store, f: UploadForm, currentYear: int, allowed: set<string>): (r: Result<Entry>)
    ensures r.Ok? <==> ValidateUpload(f, currentYear, allowed).Ok? && !HasKey(s.cases, EntryKey(ValidateUpload(f, currentYear, allowed).value))
    ensures r.Ok? ==> r.value == ValidateUpload(f, currentYear, allowed).value
    ensures r.Err? && ValidateUpload(f, currentYear, allowed).Ok? ==>
      r.error == Conflict("A case law record with the same metadata already exists.")
    ensures r.Err? && ValidateUpload(f, currentYear, allowed).Err? ==> r.error == ValidateUpload(f, currentYear, allowed).error
  {
    match ValidateUpload(f, currentYear, allowed)
    case Err(e) => Err(e)
    case Ok(e) =>
      if HasKey(s.cases, EntryKey(e)) then Err(Conflict("A case law record with the same metadata already exists."))
      else Ok(e)
  }

  /** `case_law_upload` (app.py:980-1130): the form checks, the duplicate
      check, the placement, and the insert of the row with its index
      entry. `tmpName` is the temporary file name, `judgement` the text
      extracted from the stored file, `noteJson` the encoded note, and
      `dbError` the text of the exception the insert or the commit
      raised, if any. A rejected
      submission changes nothing. */
  method UploadCaseLaw(s: Store, fs: set<string>, f: UploadForm, currentYear: int, allowed: set<string>,
                       tmpName: string, judgement: Option<string>, noteJson: string, dbError: Option<string>)
    returns (r: Result<nat>, s': Store, fs': set<string>)
    requires ParentsExist(fs) && PlainName(tmpName)
    requires forall x :: x in allowed ==> '/' !in x
    ensures Admit(s, f, currentYear, allowed).Err? ==>
      r == Err(Admit(s, f, currentYear, allowed).error) && s' == s && fs' == fs
    ensures r.Ok? <==> Admit(s, f, currentYear, allowed).Ok? && dbError.None?
    ensures Admit(s, f, currentYear, allowed).Ok? && dbError.Some? ==> r == Err(Unhandled(dbError.value))
    ensures r.Ok? ==>
      Stored(s, fs, Admit(s, f, currentYear, allowed).value, BaseDir(Admit(s, f, currentYear, allowed).value),
             r.value, judgement, noteJson, s', fs')
    ensures r.Ok? ==> NamedAsPlaced(fs, Admit(s, f, currentYear, allowed).value, tmpName, s'.cases[r.value])
    ensures r.Err? ==> s' == s
    ensures ParentsExist(fs')
    ensures Consistent(s) ==> Consistent(s')
  {
    var v := ValidateUpload(f, currentYear, allowed);
    if v.Err? {
      return Err(v.error), s, fs;
    }
    var e := v.value;
    var dup := FindDuplicate(s.cases, EntryKey(e));
    if dup.Some? {
      return Err(Conflict("A case law record with the same metadata already exists.")), s, fs;
    }
    assert '/' !in e.ext;
    r, s', fs' := Commit(s, fs, e, tmpName, judgement, noteJson, dbError);
  }

  /** Submitting the same form again after a successful upload is refused
      as a duplicate. */
  lemma SecondUploadConflicts(s: Store, fs: set<string>, f: UploadForm, currentYear: int, allowed: set<string>,
                              base: string, id: nat, judgement: Option<string>, noteJson: string,
                              s': Store, fs': set<string>)
    requires ValidateUpload(f, currentYear, allowed).Ok?
    requires Stored(s, fs, ValidateUpload(f, currentYear, allowed).value, base, id, judgement, noteJson, s', fs')
    ensures Admit(s', f, currentYear, allowed) == Err(Conflict("A case law record with the same metadata already exists."))
  {
    assert KeyOf(s'.cases[id]) == EntryKey(ValidateUpload(f, currentYear, allowed).value);
  }
}

=== FILE: vocabulary.dfy ===
/** The fixed case-law classification vocabulary and its case-insensitive
    normalisers `normalize_primary_type` and `normalize_case_type`
    (app.py:36-49, app.py:347-363). */
module Vocabulary {
  import opened Wrappers
  import opened Text

  /** `CASE_LAW_PRIMARY_TYPES` */
  const PrimaryTypes: seq<string> := ["Criminal", "Civil", "Commercial"]

  const CriminalTypes: seq<string> := [
    "498A (Cruelty/Dowry)", "Murder", "Rape", "Sexual Harassment", "Hurt",
    "138 NI Act", "Fraud", "Human Trafficking", "NDPS", "PMLA", "POCSO", "Constitutional", "Others"
  ]

  const CivilTypes: seq<string> := [
    "Property", "Rent Control", "Inheritance/Succession", "Contract",
    "Marital Divorce", "Marital Maintenance", "Marital Guardianship", "Constitutional", "Others"
  ]

  const CommercialTypes: seq<string> := ["Trademark", "Copyright", "Patent", "Banking", "Others"]

  /** `CASE_LAW_CASE_TYPES.get(primary)`, with a missing key read as the
      empty list (both are falsy at the only call site). The lookup is by
      exact key. */
  function CaseTypesOf(primary: string): (pool: seq<string>)
    ensures pool != [] <==> primary in PrimaryTypes
  {
    if primary == "Criminal" then CriminalTypes
    else if primary == "Civil" then CivilTypes
    else if primary == "Commercial" then CommercialTypes
    else []
  }

  /** `pool[k]` is the first option equal to `candidate` ignoring case. */
  predicate FirstMatchAt(pool: seq<string>, candidate: string, k: int) {
    && 0 <= k < |pool|
    && EqualsIgnoreCase(candidate, pool[k])
    && forall j :: 0 <= j < k ==> !EqualsIgnoreCase(candidate, pool[j])
  }

  /** The first option of `pool` equal to `candidate` ignoring case. */
  function MatchIgnoreCase(pool: seq<string>, candidate: string): (r: Option<string>)
    ensures r.Some? ==> exists k :: FirstMatchAt(pool, candidate, k) && pool[k] == r.value
    ensures r.None? <==> forall i :: 0 <= i < |pool| ==> !EqualsIgnoreCase(candidate, pool[i])
  {
    if pool == [] then None
    else if Lower(candidate) == Lower(pool[0]) then
      assert FirstMatchAt(pool, candidate, 0);
      Some(pool[0])
    else
      var r := MatchIgnoreCase(pool[1..], candidate);
      assert r.Some? ==> exists k :: FirstMatchAt(pool, candidate, k) && pool[k] == r.value by {
        if r.Some? {
          var k :| FirstMatchAt(pool[1..], candidate, k) && pool[1..][k] == r.value;
          forall j | 0 <= j < k + 1 ensures !EqualsIgnoreCase(candidate, pool[j]) {
            if j > 0 { assert pool[j] == pool[1..][j - 1]; }
          }
          assert FirstMatchAt(pool, candidate, k + 1);
        }
      }
      r
  }

  lemma MatchFacts(pool: seq<string>, candidate: string)
    ensures var r := MatchIgnoreCase(pool, candidate);
      r.Some? ==> r.value in pool && EqualsIgnoreCase(candidate, r.value)
  {
  }

  /** `normalize_primary_type`: the canonical classification the input
      names, ignoring case and surrounding or repeated whitespace, or None
      when it names none of the three. */
  function NormalizePrimaryType(value: string): (r: Option<string>)
    ensures r.Some? ==> r.value == "Criminal" || r.value == "Civil" || r.value == "Commercial"
    ensures r.Some? ==> EqualsIgnoreCase(NormalizeWs(value), r.value)
    ensures r.None? <==>
      forall i :: 0 <= i < |PrimaryTypes| ==> !EqualsIgnoreCase(NormalizeWs(value), PrimaryTypes[i])
  {
    var r := MatchIgnoreCase(PrimaryTypes, NormalizeWs(value));
    MatchFacts(PrimaryTypes, NormalizeWs(value));
    PrimaryMembers(r);
    r
  }

  lemma PrimaryMembers(r: Option<string>)
    requires r.Some? ==> r.value in PrimaryTypes
    ensures r.Some? ==> r.value == "Criminal" || r.value == "Civil" || r.value == "Commercial"
  {
  }

  /** `normalize_case_type`: None unless `primary` is a canonical
      classification; otherwise the first entry of that classification's
      list the input names ignoring case and whitespace, in its canonical
      spelling, or None when it names none. */
  function NormalizeCaseType(primary: string, value: string): (r: Option<string>)
    ensures primary !in PrimaryTypes ==> r.None?
    ensures r.Some? ==> r.value in CaseTypesOf(primary) && EqualsIgnoreCase(NormalizeWs(value), r.value)
    ensures primary in PrimaryTypes ==>
      (r.None? <==> forall i :: 0 <= i < |CaseTypesOf(primary)| ==>
                      !EqualsIgnoreCase(NormalizeWs(value), CaseTypesOf(primary)[i]))
  {
    var pool := CaseTypesOf(primary);
    MatchFacts(pool, NormalizeWs(value));
    if pool == [] then None else MatchIgnoreCase(pool, NormalizeWs(value))
  }
}

=== FILE: wrappers.dfy ===
/** Failure-carrying result types and the error taxonomy shared by every
    component of the case organizer model. */
module Wrappers {

  datatype Option<+T> = None | Some(value: T) {
    function GetOr(default: T): T {
      match this
      case Some(v) => v
      case None => default
    }
  }

  /** The kinds of failure an operation reports to its caller. */
  datatype Error =
    | InvalidArgument(msg: string)  // missing or malformed field, bad enum value
    | Conflict(msg: string)         // duplicate catalog tuple
    | NotFound(msg: string)         // missing case folder, catalog id or file
    | OutOfBounds(msg: string)      // a resolved path leaves the storage root
    | TypeError(msg: string)        // a Python runtime type error
    | Unhandled(msg: string)        // an exception the route does not catch (HTTP 500)

  datatype Result<+T> = Ok(value: T) | Err(error: Error)
}
